=== FILE: README.md ===
# PreMatch schedule engine and notification logic in Dafny

This project models the school-schedule engine of the PreMatch app (the
`SevenPlusH` framework) and the logic layered on it:

- A school year is a calendar, read from a JSON definition. The calendar has:
  - a date interval;
  - a rotation of lettered blocks over a cycle of numbered days;
  - per-day-type period timetables;
  - exclusions (holidays, half days, exam days, unknown days and pinned standard days), then overrides on top of them;
  - semesters.
- A day of the calendar is classified in this order:
  - outside the interval it is an error;
  - the first exclusion or override that covers it decides its type;
  - failing that, it is a weekend or a standard day.
- A standard day's number comes from a memoised counter. The counter advances on every standard-typed day.
- A personal schedule maps each block-and-semester key (`"A1"`, `"A2"`, ...) to a teacher.
- The "day briefing" notification builds a title and body for each school day. The body lists the day's blocks and the user's teachers.
- The scheduler keeps the `limit` earliest pending notifications, drawn from several date-sorted sources.
- The preferences store records which notification options are enabled, and for which semesters.
- The "Your Schedule" screen titles a block with the distinct teachers of its semesters.
- A superseded copy of the calendar counts cycle days by iterating forward from the nearest memoised date.

How the model represents the system:

- **Dates** are integer day ordinals: days since 1970-01-01 in the school's time zone. So stripping the time of day is the identity, and "the day before" is `d - 1`. The weekend is `(d + 3) % 7 >= 5`.
- **Times of day** keep the source's `% 24` and `% 60` normalisation.
- **JSON** is a datatype (`Json`). Its accessors model the optional-returning lookups of the JSON library.
- **ISO 8601 text** is handled by a `DateCodec` parameter. Round trips assume only that the date parser reads back what the formatter writes.
- **Thrown errors** become `Result` failures carrying one `Errors.Error` datatype, named after the Swift cases.
- **Inputs on which the Swift code traps** yield `Trap`, so contracts state exactly which inputs reach one. Such inputs are force-unwraps of nil, indexes out of range, `DateInterval`s whose end precedes their start, and `UInt8` overflow (including the conversion of a period index of 256 or more).
- **Mutable state** (the memo of the cycle counter, the `notify` preference array) is passed in and returned.

The model follows the code as written where it departs from what a reader might expect:

- Base exclusions are scanned before overrides.
- The cycle counter wraps with a fixed `% 8`, not the calendar's cycle size.
- The counter ignores overrides.
- A base `standard_day` exclusion counts as an ordinary step of the counter.
- `UnknownDay` counts as a school day.

## Model

| member | source | states |
|---|---|---|
| Timetable.MakeTime | SevenPlusH/SphTimetable.swift:24-27 | a constructed time is valid (hour < 24, minute < 60), congruent to its arguments modulo 24 and 60, and equal to them when they are already in range |
| Timetable.TimeOrderIsTotal | SevenPlusH/SphTimetable.swift:44-50 | on valid times, `==` is structural equality, `<` is irreflexive and exactly one of less, equal, greater holds |
| Timetable.LessIsTransitive | SevenPlusH/SphTimetable.swift:44-46 | `<` on times is transitive |
| Timetable.DiffProperties | SevenPlusH/SphTimetable.swift:52-54 | `a - b` is antisymmetric, adds back to `a`'s minute of day, and is positive or zero exactly when `a` is later than or the same as `b` |
| Timetable.MakePeriod | SevenPlusH/SphTimetable.swift:94-97 | a constructed period is ordered (start no later than end) and has its two arguments as its ends in some order |
| Timetable.MakePeriodSymmetric | SevenPlusH/SphTimetable.swift:94-97 | a period built from (a, b) equals the one built from (b, a) |
| Timetable.Length | SevenPlusH/SphTimetable.swift:88-92 | a period's length is the number of minutes that takes its start to its end |
| Timetable.SpanTrichotomy | SevenPlusH/SphTimetable.swift:56-81 | inclusion is inclusive at both ends, isBefore means strictly before the start, isAfter strictly after the end, and exactly one of the three holds for an ordered period |
| Timetable.WrapExamples | SevenPlusHTests/TimetableTests.swift:29-41 | Time(24, 0) is Time(0, 0), Time(10, 60) is Time(10, 0), and 10:10 is earlier than 14:00 |
| Timetable.ArithmeticExamples | SevenPlusHTests/TimetableTests.swift:43-78 | 14:15 − 12:52 is 83 and the reverse −83; 1:14→5:42 lasts 268 minutes; periods normalise their ends |
| Timetable.InclusionExamples | SevenPlusHTests/TimetableTests.swift:80-87 | 10:20–11:20 includes 10:45 and both of its ends but not 10:19 |
| Days.Description | SevenPlusH/Day.swift:55-59 | a standard day's description is "day " followed by text that parses back to its number; other days describe themselves with their stored text |
| Days.Blocks | SevenPlusH/Day.swift:63-67 | a standard day's blocks are row `number - 1` of the rotation; half and exam days keep their stored blocks; an unknown day has none |
| Days.Periods | SevenPlusH/Day.swift:68-72 | each school day type uses its own period list from the timetable, and an unknown day has none |
| Days.Start | SevenPlusH/Day.swift:25-29 | the start of a school day is its first period's start, 7:44 when it has no periods |
| Days.End | SevenPlusH/Day.swift:30-34 | the end of a school day is its last period's end, 14:20 when it has no periods |
| Days.PeriodIndex | SevenPlusH/Day.swift:35-37 | the index returned is the first whose period includes the time; none is returned exactly when no period includes it; the `UInt8` conversion traps exactly when the first including period sits at index 256 or later |
| Days.PeriodAtAgreesWithFirstIndex | SevenPlusH/Day.swift:35-40 | `period(at:)` is the period at the first including index, and nil exactly when there is none |
| Days.PeriodAtAgreesWithIndex | SevenPlusH/Day.swift:35-40 | when `periodIndex(at:)` does not trap, `period(at:)` is nil exactly when it is, and otherwise is the period at that index |
| Days.NextPeriodIndex | SevenPlusH/Day.swift:44-46 | the index returned is the first whose period starts after the time; none exactly when no period does; the `UInt8` conversion traps exactly when the first such period sits at index 256 or later |
| Days.NextPeriodAgreesWithFirstIndex | SevenPlusH/Day.swift:41-46 | `nextPeriod(at:)` is the period at the first index whose period starts after the time, and nil exactly when there is none |
| Days.NextPeriodAgreesWithIndex | SevenPlusH/Day.swift:41-46 | when `nextPeriodIndex(at:)` does not trap, it and `nextPeriod(at:)` pick the same period, and are nil together |
| Days.ShortDayIndexesFit | SevenPlusH/Day.swift:35-46 | on a day of at most 256 periods neither index lookup traps |
| Days.BlockAt | SevenPlusH/Day.swift:47-50 | the block at a time is the block paired with the first period including it, and nil exactly when no period includes it; it traps exactly when the index conversion traps or the index is past the last block |
| Days.BlockLookupSafeWhenLongEnough | SevenPlusH/Day.swift:47-50 | a day with at most 256 periods and at least as many blocks as periods never traps in `block(at:)` |
| Days.UnknownDayLookups | SevenPlusH/Day.swift:114-120 | on an unknown day every time lookup is nil and the day runs 7:44 to 14:20 |
| Exclusions.Generate | SevenPlusH/ExclusionParser.swift:21-74 | the day an exclusion generates is dated the date it was asked for |
| Exclusions.GeneratorKind | SevenPlusH/ExclusionParser.swift:21-74 | each generator always produces days of one type, whatever the date |
| Exclusions.ExclusionDay | SevenPlusH/Exclusion.swift:15-21 | `day(on:)` is nil exactly outside the exclusion's inclusive interval, and inside it is the generator's day for that date |
| Exclusions.SingleDateExclusion | SevenPlusH/Exclusion.swift:15-17 | an exclusion whose interval is one date matches that date and no other |
| Exclusions.FirstIncluding | SevenPlusH/SphCalendar.swift:145-147 | the exclusion found is the first in the list that includes the date; none is found exactly when none includes it |
| Exclusions.FirstIncludingAppend | SevenPlusH/SphCalendar.swift:145-147 | scanning `a + b` finds the first match of `a` if there is one and otherwise the first match of `b` |
| Calendars.DayType | SevenPlusH/SphCalendar.swift:128-139 | a date has a type exactly when it lies in the calendar |
| Calendars.DayTypeInCalendar | SevenPlusH/SphCalendar.swift:128-139 | inside the calendar the first covering exclusion (overrides only when asked) decides the type, and an uncovered date is a weekend exactly on weekends and a standard day on weekdays |
| Calendars.Counter | SevenPlusH/SphCalendar.swift:61-69 | every value of the backward recursion lies in 1..w |
| Calendars.CounterClosedForm | SevenPlusH/SphCalendar.swift:61-69 | the counter on a date is one more than the number of standard-typed days up to it, modulo the wrap |
| Calendars.CounterCarriesOver | SevenPlusH/SphCalendar.swift:61-69 | across a stretch with no standard-typed day the counter does not move |
| Calendars.ConsecutiveCountingDays | SevenPlusH/SphCalendar.swift:61-69 | from one standard-typed day to the next the counter steps by one, wrapping |
| Calendars.OverridesDoNotMoveCount | SevenPlusH/SphCalendar.swift:61-69 | replacing the overrides leaves every cycle number unchanged, since counting ignores them |
| Calendars.CycleNumber | SevenPlusH/SphCalendar.swift:46-69 | every cycle number lies in 1..8 |
| Calendars.InitialIteratorConsistent | SevenPlusH/SphCalendar.swift:46-48 | the memo seeded with the interval's start as day 1 agrees with the counter |
| Calendars.RecursionMatchesCounter | SevenPlusH/SphCalendar.swift:61-69 | the memoised recursion computes the counter's value from any consistent memo |
| Calendars.NumberOfDate | SevenPlusH/SphCalendar.swift:50-59 | the number is nil exactly on non-school days, is otherwise the cycle number, and the updated memo stays consistent and only grows |
| Calendars.DayOn | SevenPlusH/SphCalendar.swift:108-122 | `day(on:)` fails with outOfRange exactly outside the interval; otherwise the day is dated that date and has the type `dayType` gives with overrides |
| Calendars.DayOnCached | SevenPlusH/SphCalendar.swift:50-59 | answering through the memo gives the same day as without it and keeps the memo consistent |
| Calendars.RepeatedQueriesAgree | SevenPlusH/SphCalendar.swift:50-59 | asking twice for the same date, the second time with the updated memo, gives the same answer |
| Calendars.BaseExclusionWins | SevenPlusH/SphCalendar.swift:145-147 | a date covered by a base exclusion gets the first such exclusion's day, whatever the overrides say |
| Calendars.OverrideWinsWithoutBase | SevenPlusH/SphCalendar.swift:145-147 | a date covered by no base exclusion gets the first covering override's day |
| Calendars.UncoveredDays | SevenPlusH/SphCalendar.swift:108-122 | an uncovered date is a weekend on weekends and otherwise a standard day numbered by the counter |
| Calendars.BaseStandardDayCountsOnce | SevenPlusH/SphCalendar.swift:128-139 | a pinned standard day keeps its stated number yet still advances the counter by one |
| Calendars.SchoolDayIffDayKind | SevenPlusH/SphCalendar.swift:141-143 | a date is a school day exactly when `day(on:)` succeeds with a standard, half, exam or unknown day |
| Calendars.AllBlockSemesterCombinations | SevenPlusH/SphSchedule.swift:17-20 | the keys are exactly block name + semester number (one-based) for every block and semester |
| Calendars.SemesterIndexOf | SevenPlusH/SphSchedule.swift:49-54 | a semester index found is in range and that semester contains the date |
| Calendars.SemesterIndexIsFirst | SevenPlusH/SphSchedule.swift:49-54 | the index found is the first semester containing the date; none exactly when none of the first 256 semesters contains it |
| CalendarExamples.TestCalendarDayNumbers | SevenPlusHTests/CalendarTests.swift:111-125 | the test calendar gives days 1, 2, 5, 1 and 4 on the tested dates, the two holidays, and outOfRange past the end |
| CalendarExamples.TestCalendarSemesters | SevenPlusHTests/CalendarTests.swift:37-80 | dates fall in the first and second semesters of the test calendar, and before it in none |
| CalendarExamples.FixedWrapOutrunsFiveDayCycle | PreMatchTests/NODayBriefingTest.swift:23-51 | in a five-day-cycle calendar the fixed `% 8` wrap yields day 6, which has no row in the rotation, while a counter wrapping at the cycle size would give day 1 |
| ExclusionParser.RequiredField | SevenPlusH/ExclusionParser.swift:12-17 | a present value is returned and an absent one fails with missingField naming it |
| ExclusionParser.ParseISODate | SevenPlusH/DefinitionReader.swift:18-28 | a parsable date is returned and anything else fails with invalidFormat("Date", text) |
| ExclusionParser.DefinitionDate | SevenPlusH/ExclusionParser.swift:79-80 | a definition date is its field parsed; a missing field is missingField naming it and unparsable text invalidFormat("Date", text) |
| ExclusionParser.DateField | SevenPlusH/ExclusionParser.swift:77-87 | the checks run in order: the field present (missingField), parsable (invalidFormat), the definition's start and end dates readable (their errors), the interval ordered (trap), and the date inside it (outOfRange("date", text)); when all pass the date is the parsed field |
| ExclusionParser.StandardDayField | SevenPlusH/ExclusionParser.swift:88-96 | a day number is accepted exactly when present and between 1 and the cycle size, else missingField or outOfRange("day number") |
| ExclusionParser.BlockNames | SevenPlusH/ExclusionParser.swift:39-41 | every JSON block is read as its string value, position by position |
| ExclusionParser.ParseHoliday | SevenPlusH/ExclusionParser.swift:21-31 | a holiday runs from its parsed start date to its parsed end date and carries its description; errors come from the start date, then the end date, then missingField("description"); when all three are read it is built exactly when the end date is not before the start date, and otherwise building the interval traps |
| ExclusionParser.ParseHalfDay | SevenPlusH/ExclusionParser.swift:32-42 | a half day is the single parsed date and carries the JSON blocks' string values; errors come from the date, then missingField("blocks") |
| ExclusionParser.ParseExamDay | SevenPlusH/ExclusionParser.swift:43-53 | an exam day is the single parsed date and carries the JSON blocks' string values; errors come from the date, then missingField("blocks") |
| ExclusionParser.ParseUnknown | SevenPlusH/ExclusionParser.swift:54-62 | an unknown day is the single parsed date and carries its description; errors come from the date, then missingField("description") |
| ExclusionParser.ParseStandardDay | SevenPlusH/ExclusionParser.swift:63-74 | a pinned standard day is the single parsed date and carries the `UInt8` read of `day_number`; errors come from the date, then the day-number checks |
| ExclusionParser.Parse | SevenPlusH/ExclusionParser.swift:98-106 | a missing type is missingField("type"), an unknown one invalidFormat("type", value); otherwise the type's parser decides: its date errors are reported, and a parsed exclusion has the generator of its type tag with the parsed dates, description, blocks or number |
| ExclusionParser.EncodedDatesParse | SevenPlusH/ExclusionParser.swift:77-87 | the dates of an encoded exclusion inside an encoded definition read back as the exclusion's dates |
| ExclusionParser.ParsedExclusionFits | SevenPlusH/ExclusionParser.swift:20-96 | every parsed exclusion lies inside the definition's dates, and a pinned day number lies within the cycle |
| ExclusionParser.Encode | SevenPlusH/ExclusionParser.swift:98-106 | an encoded exclusion carries the type tag of its generator |
| ExclusionParser.ParseEncode | SevenPlusH/ExclusionParser.swift:20-106 | parsing an encoded well-formed exclusion gives it back |
| DefinitionReader.TimeFromJson | SevenPlusH/DefinitionReader.swift:32-40 | a time is read exactly when both components are `UInt8`s, and otherwise fails with invalidFormat("time") |
| DefinitionReader.PeriodFromJson | SevenPlusH/DefinitionReader.swift:45-49 | a period is read exactly when both ends are times, and comes out normalised |
| DefinitionReader.ReadPeriods | SevenPlusH/DefinitionReader.swift:94-97 | a period list is read only from an array, period by period |
| DefinitionReader.TimeRoundTrip | SevenPlusH/DefinitionReader.swift:32-40 | a valid time written as `[hour, minute]` reads back as itself |
| DefinitionReader.PeriodRoundTrip | SevenPlusH/DefinitionReader.swift:45-49 | an ordered period written as two times reads back as itself |
| DefinitionReader.ParseJsonDate | SevenPlusH/DefinitionReader.swift:100-107 | the release date is the date-time parser's result, and unparsable text fails with invalidFormat("schedule release date") |
| DefinitionReader.DayBlockRow | SevenPlusH/DefinitionReader.swift:60-64 | a rotation row is read exactly from an array of strings, as those strings; a non-array is missingField("standard day block array") and a non-string element missingField("standard day block string") |
| DefinitionReader.SemesterFromJson | SevenPlusH/DefinitionReader.swift:66-69 | a semester is read exactly when it is an array whose elements all parse as dates, with at least two and the first no later than the second, and is the interval between the first two; a non-array is missingField("semester date interval"), the first unparsable element invalidFormat("Date", its text), and too few dates or an end before the start trap |
| DefinitionReader.SemesterRoundTrip | SevenPlusH/DefinitionReader.swift:66-69 | an ordered semester written as its two dates reads back as itself |
| DefinitionReader.ReadDates | SevenPlusH/DefinitionReader.swift:55-57 | a missing `blocks` array is missingField("blocks"), then the start date's and the end date's errors; a result carries the blocks array and both parsed dates |
| DefinitionReader.ReadCollections | SevenPlusH/DefinitionReader.swift:58-69 | missing exclusions, overrides, day blocks or semesters arrays are reported in that order, and a bad rotation row or semester with its own error; a result carries the arrays, each row read by DayBlockRow and each semester by SemesterFromJson |
| DefinitionReader.ReadScalars | SevenPlusH/DefinitionReader.swift:70-77 | the release date, name, version and cycle size are read in that order, each failing with its own missingField or the release date's invalidFormat; a result carries the parsed values |
| DefinitionReader.ReadHeader | SevenPlusH/DefinitionReader.swift:54-77 | the header's stages run in the source's order and the first failing stage's error is reported; a result is made of each stage's result |
| DefinitionReader.HeaderFacts | SevenPlusH/DefinitionReader.swift:54-77 | a read header carries the JSON's blocks, dates, arrays, rows, semesters and scalars |
| DefinitionReader.ParsedExclusionsFit | SevenPlusH/DefinitionReader.swift:79-80 | every exclusion parsed against a definition fits inside it |
| DefinitionReader.ReadBody | SevenPlusH/DefinitionReader.swift:79-83 | exclusions, overrides and the three period lists are read in that order, the first failure's error reported; a result has each exclusion as Parse gives it and each period list as ReadPeriods gives it |
| DefinitionReader.ReadWellFormed | SevenPlusH/DefinitionReader.swift:54-88 | a calendar assembled from a read header and body is well formed and spans the definition's dates |
| DefinitionReader.ReadHeaderFields | SevenPlusH/DefinitionReader.swift:73-86 | the assembled calendar has the JSON's cycle size, name, version, release date, block strings, rotation rows and semesters |
| DefinitionReader.ReadBodyFields | SevenPlusH/DefinitionReader.swift:79-83 | the assembled calendar has the parsed exclusions and overrides and the three read period lists |
| DefinitionReader.Read | SevenPlusH/DefinitionReader.swift:54-88 | a header failure, an end date before the start (trap) and a body failure are reported in that order; a calendar read is well formed and carries the definition's dates, cycle size, name, version, release date, blocks, rotation rows, semesters, exclusions and overrides as parsed one by one, and its three period lists |
| Schedules.FirstMissing | SevenPlusH/SphSchedule.swift:17-19 | the key reported is the first combination key absent from the mapping; none exactly when every key is present |
| Schedules.Init | SevenPlusH/SphSchedule.swift:16-22 | a schedule is built exactly when every block-and-semester key is mapped, else missingField of a missing key; it keeps exactly the calendar's keys with their teachers |
| Schedules.InitApplies | SevenPlusH/SphSchedule.swift:45-47 | a built schedule applies to its own calendar |
| Schedules.FromJson | SevenPlusH/SphSchedule.swift:24-43 | a non-dictionary is invalidFormat; a calendar key with a non-string teacher is invalidFormat naming it; when every calendar key present is a string, loading succeeds exactly when every calendar key is present, and otherwise fails with missingField of an absent key; a result applies, keeps exactly the calendar's keys and takes its teachers from the JSON |
| Schedules.FromJsonRoundTrip | SevenPlusH/SphSchedule.swift:16-43 | a built schedule written as an object of teacher strings loads back as itself |
| Schedules.Teacher | SevenPlusH/SphSchedule.swift:57-65 | an unknown block is outOfRange("block"), a semester index past the last is outOfRange("semester index"); otherwise the `UInt8` `index + 1` traps at index 255 and the force-unwrap traps when block + (index + 1) is not mapped; a teacher is found exactly when that key is mapped, and is its value |
| Schedules.TeacherOfBuiltSchedule | SevenPlusH/SphSchedule.swift:17-20 | in a built schedule the lookup succeeds exactly for known blocks and semesters, so its force-unwrap cannot fail |
| Schedules.CurrentTeacher | SevenPlusH/SphSchedule.swift:49-54 | a date in no semester is outOfRange; otherwise it is the lookup for the semester containing the date |
| Scheduler.InsertSorted | PreMatch/Notify/NotificationScheduler.swift:121-138 | binary insertion into a date-sorted list keeps it sorted and adds exactly the new element |
| Scheduler.Offer | PreMatch/Notify/NotificationScheduler.swift:49-61 | a source's next candidate is taken and the source kept exactly when the output is short of the limit or the candidate is earlier than the latest kept; otherwise the whole source is dropped; either way every candidate ends up in the output or among the discarded |
| Scheduler.Round | PreMatch/Notify/NotificationScheduler.swift:48-62 | one pass over the remaining sources keeps the output sorted and within the limit, accounts for every candidate and strictly shrinks what is left |
| Scheduler.SelectEarliest | PreMatch/Notify/NotificationScheduler.swift:44-66 | the output is sorted, holds min(limit, total) of the candidates, and none left out is earlier than one kept |
| Scheduler.PendingNotifications | PreMatch/Notify/NotificationScheduler.swift:44-66 | the identifiers returned are those of an earliest selection |
| Scheduler.SelectionOfEverything | PreMatch/Notify/NotificationScheduler.swift:44-66 | when the limit covers every candidate, every candidate is selected |
| Scheduler.SelectionBelowCutoff | PreMatch/Notify/NotificationScheduler.swift:44-66 | when exactly `limit` candidates lie at or before a cutoff and the rest after it, the selection is exactly those candidates, whatever order the sources are visited in |
| SchedulerExamples.CutSelection | PreMatch/Notify/NotificationScheduler.swift:44-66 | for sorted sources cut at a date, with cuts adding up to the limit, the selection is what lies before the cuts |
| SchedulerExamples.ScheduleAllAvailable | PreMatchTests/NotificationSchedulerTest.swift:57-62 | with the default limit all eleven test identifiers are pending |
| SchedulerExamples.ScheduleWithoutAFew | PreMatchTests/NotificationSchedulerTest.swift:64-69 | with limit 9 the two latest identifiers are left out |
| SchedulerExamples.ScheduleFirstFew | PreMatchTests/NotificationSchedulerTest.swift:71-76 | with limit 5 the pending identifiers are a1, a2, b1, b2, b3 |
| SchedulerExamples.ScheduleFirstDay | PreMatchTests/NotificationSchedulerTest.swift:78-83 | with limit 3 the pending identifiers are a1, b1, b2 |
| DayBriefing.HumanFriendlyJoin | PreMatch/Notify/NODayBriefing.swift:111-124 | no items give "none", one gives itself, two are joined with " and " |
| DayBriefing.HumanFriendlyJoinIsSerialList | PreMatch/Notify/NODayBriefing.swift:111-124 | three or more items form a serial list: comma-separated, with ", and " before the last |
| DayBriefing.HumanFriendlyJoinExamples | PreMatchTests/NODayBriefingTest.swift:79-171 | the joins the briefing tests rely on, for four, two, one and no names |
| DayBriefing.TeacherOrUnknown | PreMatch/Notify/NODayBriefing.swift:107 | a found teacher is shown; a thrown lookup error shows as "(unknown)", while a trap in the lookup still traps |
| DayBriefing.TeacherOrUnknownOfBuiltSchedule | PreMatch/Notify/NODayBriefing.swift:107 | in a built schedule a known block in a known semester shows its mapped teacher, and anything else "(unknown)" |
| DayBriefing.DayText | PreMatch/Notify/NODayBriefing.swift:101-109 | the body is the opening, a space, the blocks run together, and "."; with a schedule, " Your teachers for today are " and the joined teachers of the date's semester follow; it succeeds exactly when the blocks can be looked up and, with a schedule, the date lies in a semester and no teacher lookup traps |
| DayBriefing.Identifier | PreMatch/Notify/NODayBriefing.swift:147-149 | an identifier is "d" followed by the formatted date |
| DayBriefing.IdentifierIsOptionAndDate | PreMatch/Notify/NODayBriefing.swift:147-149 | a text is a date's identifier exactly when it is the option's letter followed by the formatted date |
| DayBriefing.DateFor | PreMatch/Notify/NODayBriefing.swift:151-154 | the date of an identifier is the parse of the text after its first character |
| DayBriefing.DateForIdentifier | PreMatch/Notify/NODayBriefing.swift:147-154 | reading back an identifier gives its date |
| DayBriefing.ParseTime | PreMatch/Notify/NODayBriefing.swift:156-159 | the text parses exactly when it splits at ':' into at least two pieces that are all `UInt8` numbers, and gives the first two |
| DayBriefing.ParseTimeRoundTrip | PreMatch/Notify/NODayBriefing.swift:156-159 | a printed hour and minute joined by ":" parse back to themselves |
| DayBriefing.RequestForDay | PreMatch/Notify/NODayBriefing.swift:90-99 | a request is built exactly when the body and the time can be, and carries the day's identifier, title, body and time |
| DayBriefing.ScheduleNotification | PreMatch/Notify/NODayBriefing.swift:41-62 | a missing time is badSettings; a date out of the calendar fails as `day(on:)` does; a non-briefing day is rejected; a briefing is for the identifier's date |
| DayBriefing.BriefingOfDay | PreMatch/Notify/NODayBriefing.swift:41-62 | on a standard, half or exam day the briefing has that type's title, opening and closing sentence |
| DayBriefing.BriefingDayByType | PreMatch/Notify/NODayBriefing.swift:41-62 | a briefing day is exactly a date whose type is standard, half or exam |
| DayBriefing.NextBriefingDate | PreMatch/Notify/NODayBriefing.swift:64-88 | the next date yielded is later, every date skipped is a non-briefing day of the calendar, and it is a briefing day or past the calendar |
| DayBriefing.BriefingDates | PreMatch/Notify/NODayBriefing.swift:64-88 | the dates start at `from`, increase strictly and stay within the calendar's end |
| DayBriefing.BriefingDatesMembership | PreMatch/Notify/NODayBriefing.swift:64-88 | a later date up to the calendar's end is yielded exactly when it is a briefing day or outside the calendar |
| DayBriefing.NotificationIdentifiers | PreMatch/Notify/NODayBriefing.swift:64-88 | each yielded date comes with its identifier |
| BriefingExamples.BriefingDaysAreWeekdays | PreMatchTests/NODayBriefingTest.swift:23-51 | in the test calendar the briefing days are exactly its weekdays |
| BriefingExamples.TestScheduleBuilds | PreMatchTests/NODayBriefingTest.swift:53-64 | the test mapping builds the test schedule |
| BriefingExamples.FiveBriefingDates | PreMatchTests/NODayBriefingTest.swift:173-184 | from 2019-09-04 the first five briefing dates are 09-04, 09-05, 09-06, 09-09 and 09-10 |
| BriefingExamples.OverrideDays | PreMatchTests/NODayBriefingTest.swift:23-51 | the identifiers of 2019-11-11 and 2019-12-12 name the half day and the exam day of the test calendar |
| BriefingExamples.HalfDayWithoutSchedule | PreMatchTests/NODayBriefingTest.swift:106-128 | the half-day briefing without a schedule has the expected title, body and time |
| BriefingExamples.HalfDayWithSchedule | PreMatchTests/NODayBriefingTest.swift:106-128 | the half-day briefing with a schedule names Bach and DiBenedetto |
| BriefingExamples.ExamDayWithSchedule | PreMatchTests/NODayBriefingTest.swift:130-152 | the exam-day briefing names Aubrey and ends with " Good luck!" |
| BriefingExamples.ExamDayWithoutSchedule | PreMatchTests/NODayBriefingTest.swift:130-152 | the exam-day briefing without a schedule lists the blocks and ends with " Good luck!" |
| BriefingExamples.MissingTimeIsBadSettings | PreMatch/Notify/NODayBriefing.swift:41-46 | without a briefing time the request fails with badSettings |
| BriefingExamples.StandardDayBriefingTrapsAsWritten | PreMatchTests/NODayBriefingTest.swift:79-104 | with the `% 8` wrap, 2019-09-06 of the five-day test calendar is day 8, whose blocks cannot be looked up, so the standard-day briefing traps |
| NotificationOption.RangeFrom | PreMatch/Notify/NotificationOption.swift:29-41 | scanning from semester n, the first semester that has not started yields itself, one containing the date yields the date to its end, and none at all is dateOutOfRange |
| NotificationOption.SchedulingRange | PreMatch/Notify/NotificationOption.swift:29-41 | the range found is a sub-interval of the semester whose index it returns, and failure is dateOutOfRange with the past-year message |
| NotificationOption.FirstUnfinished | PreMatch/Notify/NotificationOption.swift:29-41 | the index found is the first semester not yet over; none when all are over |
| NotificationOption.SchedulingRangeIsFirstUnfinished | PreMatch/Notify/NotificationOption.swift:29-41 | with ordered semesters, scheduling fails exactly when every semester is over, and otherwise uses the first semester not yet over |
| NotificationOptionExamples.SchedulingRangeExamples | PreMatchTests/NotificationOptionTest.swift:14-46 | before the year the first semester, inside a semester the rest of it, between semesters the next one, and after the year dateOutOfRange |
| NotificationPreferences.FirstWithId | PreMatch/Notify/NotificationPreferences.swift:97-99 | the entry found is the first starting with the option's identifier; none when no entry does |
| NotificationPreferences.RemoveId | PreMatch/Notify/NotificationPreferences.swift:56 | removal keeps every other entry and drops every entry of the identifier |
| NotificationPreferences.RemoveIdAppend | PreMatch/Notify/NotificationPreferences.swift:56 | removal distributes over concatenation, so other entries keep their relative order |
| NotificationPreferences.RemoveIdAbsent | PreMatch/Notify/NotificationPreferences.swift:56 | removing an identifier with no entry changes nothing |
| NotificationPreferences.CountIdRemoved | PreMatch/Notify/NotificationPreferences.swift:56 | after removal no entry of the identifier remains |
| NotificationPreferences.IsOptionEnabledMeans | PreMatch/Notify/NotificationPreferences.swift:22-24 | an option is enabled exactly when permission is granted and some entry starts with its identifier |
| NotificationPreferences.Grant | PreMatch/Notify/NotificationPreferences.swift:37-41 | granting leaves permission granted, and changes nothing if it already was |
| NotificationPreferences.Revoke | PreMatch/Notify/NotificationPreferences.swift:43-45 | revoking leaves permission not granted |
| NotificationPreferences.Clear | PreMatch/Notify/NotificationPreferences.swift:80-84 | clearing keeps the permission state and empties the entries when granted |
| NotificationPreferences.UpdatePermissionGranted | PreMatch/Notify/NotificationPreferences.swift:86-95 | afterwards permission is granted exactly when the system said so, and an already granted state is kept |
| NotificationPreferences.GrantIdempotent | PreMatch/Notify/NotificationPreferences.swift:37-41 | granting twice is granting once, and clearing twice is clearing once |
| NotificationPreferences.DidEnableOption | PreMatch/Notify/NotificationPreferences.swift:47-65 | enabling keeps the state well formed and the permission unchanged |
| NotificationPreferences.DidDisableOption | PreMatch/Notify/NotificationPreferences.swift:67-78 | disabling keeps the state well formed and the permission unchanged, and does nothing to an option that is not enabled |
| NotificationPreferences.FilterChar | PreMatch/Notify/NotificationPreferences.swift:72 | filtering a character removes every occurrence of it and keeps every other character |
| NotificationPreferences.EnabledEntry | PreMatch/Notify/NotificationPreferences.swift:50-60 | the entry written starts with the identifier and contains the semester's number |
| NotificationPreferences.EnableShape | PreMatch/Notify/NotificationPreferences.swift:47-65 | with permission, enabling drops the option's old entries, keeps every other entry in order, and appends the option's new entry at the end |
| NotificationPreferences.EnableSchedules | PreMatch/Notify/NotificationPreferences.swift:47-65 | with permission, afterwards the option is enabled and the semester is scheduled |
| NotificationPreferences.EnableWithoutPermission | PreMatch/Notify/NotificationPreferences.swift:47-52 | without permission enabling does nothing |
| NotificationPreferences.DisableUnschedules | PreMatch/Notify/NotificationPreferences.swift:67-78 | after disabling, the semester is no longer scheduled for the option |
| NotificationPreferences.EnableThenDisable | PreMatch/Notify/NotificationPreferences.swift:47-78 | enabling a disabled option for one semester and disabling it again restores the state |
| NotificationPreferences.OperationsKeepWellFormed | PreMatch/Notify/NotificationPreferences.swift:37-95 | every operation keeps each entry non-empty |
| NotificationPreferences.RemoveAllWithId | PreMatch/Notify/NotificationPreferences.swift:56 | the in-place removal loop computes the functional removal |
| YourSchedule.FirstOccurrencesProperties | PreMatch/YourSchedule/YSRootDataSource.swift:48-53 | the result has no duplicates, the same elements as the input, is no longer, and keeps first occurrences in their original order |
| YourSchedule.FirstOccurrencesOfDistinct | PreMatch/YourSchedule/YSRootDataSource.swift:48-53 | a list without duplicates is its own result |
| YourSchedule.UniquedIdempotent | PreMatch/YourSchedule/YSRootDataSource.swift:48-53 | applying `uniqued` twice is applying it once |
| YourSchedule.Uniqued | PreMatch/YourSchedule/YSRootDataSource.swift:48-53 | the loop with a seen-set computes the first occurrences: no duplicates, same elements, no longer |
| YourSchedule.SemesterTeacher | PreMatch/YourSchedule/YSRootDataSource.swift:39-44 | a semester's teacher is found exactly when its index fits a `UInt8` and the schedule's lookup succeeds, and is that lookup's teacher |
| YourSchedule.SemesterTeachers | PreMatch/YourSchedule/YSRootDataSource.swift:39-44 | the teachers of the first n semesters are found exactly when every lookup succeeds, position by position |
| YourSchedule.TitleFor | PreMatch/YourSchedule/YSRootDataSource.swift:39-44 | the title is the distinct teachers of the block's semesters, in semester order, joined with " and " |
| YourSchedule.TitleOfBuiltSchedule | PreMatch/YourSchedule/YSRootDataSource.swift:39-44 | for a built schedule the title exists exactly for known blocks (or any block when there are no semesters), and is the distinct mapped teachers joined with " and " |
| YourScheduleExamples.TwoSemesterTitle | PreMatch/YourSchedule/YSRootDataSource.swift:39-44 | over two semesters, one teacher twice gives that name and two teachers give "first and second" |
| YourScheduleExamples.SampleTitleOneTeacher | PreMatch/YourSchedule/YSRootDataSource.swift:39-44 | block B of the briefing test schedule is titled "Bach" |
| YourScheduleExamples.SampleTitleTwoTeachers | PreMatch/YourSchedule/YSRootDataSource.swift:39-44 | block D of the briefing test schedule is titled "DiBenedetto and Deschenes" |
| LegacyCalendars.TheExclusion | SevenPlusH/Schedule/SphCalendar.swift:138-142 | the exclusion found covers the date and comes from the exclusions or the overrides; none exactly when nothing covers it |
| LegacyCalendars.BaseExclusionWins | SevenPlusH/Schedule/SphCalendar.swift:138-142 | a date covered by a base exclusion gets the first such exclusion, whatever the overrides say |
| LegacyCalendars.OverrideWinsWithoutBase | SevenPlusH/Schedule/SphCalendar.swift:138-142 | a date covered by no base exclusion gets the first covering override |
| LegacyCalendars.DayType | SevenPlusH/Schedule/SphCalendar.swift:121-132 | a date has a type exactly when it lies in the calendar: the covering exclusion's, overrides included, else weekend or standard |
| LegacyCalendars.LegacyNumber | SevenPlusH/Schedule/SphCalendar.swift:55-73 | every legacy cycle number lies in 1..8 |
| LegacyCalendars.AdvanceFromKnown | SevenPlusH/Schedule/SphCalendar.swift:64-73 | walking forward from any date's number reaches the later date's number |
| LegacyCalendars.MostRecentMapping | SevenPlusH/Schedule/SphCalendar.swift:51-53 | the entry found is the memoised date with the greatest key not after the date |
| LegacyCalendars.RecursionWalksFromMostRecent | SevenPlusH/Schedule/SphCalendar.swift:55-63 | the backward recursion ends at the most recent memoised date and steps forward from it |
| LegacyCalendars.Iterate | SevenPlusH/Schedule/SphCalendar.swift:64-73 | forward iteration from the most recent memoised date computes what the backward recursion computes |
| LegacyCalendars.RecursionComputesNumber | SevenPlusH/Schedule/SphCalendar.swift:55-63 | from a consistent memo the recursion computes the legacy cycle number |
| LegacyCalendars.NumberOfDate | SevenPlusH/Schedule/SphCalendar.swift:40-49 | nil exactly on non-school days; otherwise both strategies give the recursion's value, which is memoised and is the cycle number when the memo is consistent |
| LegacyCalendars.DayOn | SevenPlusH/Schedule/SphCalendar.swift:103-115 | outOfRange exactly outside the interval; otherwise the covering exclusion's day, a weekend, or a standard day numbered by the counter |
| LegacyCalendars.LegacyNumberIsCurrentCounter | SevenPlusH/SphCalendar.swift:61-69 | the legacy count equals the current counter run on a calendar whose overrides are folded into its exclusions |
| LegacyCalendars.NoOverridesSameNumbers | SevenPlusH/Schedule/SphCalendar.swift:55-73 | without overrides the legacy and current calendars number every day alike |

## Left out

- Foundation's date machinery is not modelled. This covers time zones and daylight saving, the ISO 8601 formatters and `Calendar.isDateInWeekend`. Dates are day ordinals, the weekend is the `% 7` rule, and ISO text goes through the `DateCodec` parameter.
- `Time.fromDate`, `asDateToday` and `now` need a clock. `currentTeacher` and the briefing code take the date as a parameter instead.
- `Weekend.description` is not modelled, because it is a formatter's weekday name.
- The legacy `blocks(of:)` (SevenPlusH/Schedule/SphCalendar.swift:117-119) is not modelled. It is a stub that always returns an empty list.
- Duplicate legacy files are not modelled: SevenPlusH/Schedule/Day.swift and SevenPlusH/Schedule/Exclusion.swift. The current `Day` and `Exclusion` models serve both calendars.
- The notification-center side is not modelled, because it is asynchronous delivery. This covers `populateNotificationRequests`, `scheduleRequest`, the plural `scheduleNotifications`, request and trigger construction, `dateMatchComponents` and `Float` progress ratios.
- UserDefaults is not modelled. The preference array is one optional list passed in and returned.
- The UI controllers are not modelled. This covers the `NODayBriefingSettingsController` and the table rows of YSRootDataSource.swift:19-37.
- Network and authentication code is not modelled (ResourceDownloader, ResourceProvider, ScheduleReader, AppDelegate).
- Json.AsUInt8 and Json.AsNumber cover integers and booleans only: a `UInt8` keeps a number's low eight bits and reads a boolean as 0 or 1. Fractional numbers, and the library's rounding of them, are not modelled because the `Json` datatype holds integers.
- The definition's `version` is a floating-point number in the source. It is modelled as an integer because it is only carried along.
- `allBlockSemesterCombinations`, `semesters` and `semesterIndexOf` are used by SphSchedule.swift but are not defined in SphCalendar.swift or SphSchedule.swift. `semesters` is a field of the calendar. The combinations are block name + semester number (one-based) for every block and semester, in block order. `semesterIndexOf` is the first semester containing the date.
- Calendars.SemesterIndexOf gives none when the first containing semester's index does not fit a `UInt8`. The conversion, which is not defined in SphCalendar.swift or SphSchedule.swift, could trap there instead.
- Schedules.FromJson: the source reports the first non-string teacher its dictionary happens to yield. The model picks one such key but does not say which.
- SevenPlusHTests/ScheduleTests.swift builds schedules with single-letter keys. Those keys disagree with the `block + String(index + 1)` keys the code looks up. The model follows the code.
- Calendars.CycleNumber: the counter wraps with a fixed `% 8`, as the code does. This differs from the cycle size that PreMatchTests/NODayBriefingTest.swift:79-104 expects. The standard-day briefing tests therefore do not hold for the model, which shows this in `StandardDayBriefingTrapsAsWritten`.
- DayBriefing.DateFor: the debug assertion on the identifier's first character is left out, because release builds do not check it.
- NotificationPreferences.DisableUnschedules is proved only for semesters 0..9 and identifiers that are not digits. `didDisableOption` filters out only the first digit of the semester number, so for semester 10 and above a different digit may survive.
- NotificationPreferences.EnableThenDisable is proved under the same restriction, for the same reason.
- NotificationPreferences: entries are assumed non-empty (`WellFormed`). The source force-unwraps the first character of every entry and traps on an empty one. Every operation keeps entries non-empty.
- YourSchedule.TitleFor traps for calendars with more than 255 semesters, where the `UInt8` conversion of the semester index overflows.
- Schedules.TeacherOfBuiltSchedule is stated for semester indexes below 255. At index 255 `semesterIndex + 1` overflows `UInt8` and `teacher(for:in:)` traps, which Schedules.Teacher states.
- YourSchedule.TitleOfBuiltSchedule is stated for calendars with fewer than 256 semesters. With 256 or more, the lookup for index 255 traps on `index + 1`, and any index from 256 on traps in its `UInt8` conversion. Schedules.Teacher and YourSchedule.SemesterTeacher state both traps.
- Swift's `UInt8(text)` accepts a leading `+`. `DayBriefing.ParseTime` accepts digits only.

=== FILE: briefing_examples.dfy ===
/** The day briefings of PreMatchTests/NODayBriefingTest.swift, on the
    five-day calendar and schedule declared there. The identifiers' ISO text is
    whatever the date codec makes of the dates involved. */
module BriefingExamples {
  import opened Wrappers
  import opened Errors
  import opened Text
  import opened Dates
  import opened Timetable
  import opened Days
  import opened Exclusions
  import opened Calendars
  import opened Schedules
  import opened CalendarExamples
  import opened Json
  import opened DayBriefing

  const TestMapping: map<string, string> := map[
    "A1" := "Aubrey", "A2" := "Armstrong", "B1" := "Bach", "B2" := "Bach",
    "C1" := "Caveney", "C2" := "Caveney", "D1" := "DiBenedetto", "D2" := "Deschenes",
    "E1" := "Emery", "E2" := "Emory"]

  const TestSchedule: Schedule := Schedule(TestMapping, BriefingCalendar)

  const HalfDayOverride: Exclusion := Exclusion(DateInterval(18211, 18211), HalfDayGen(["B", "D"]))
  const ExamDayOverride: Exclusion := Exclusion(DateInterval(18242, 18242), ExamDayGen(["A"]))

  /** The calendar has no base exclusions; its two overrides cover one day each. */
  lemma BriefingExclusion(d: Date)
    ensures TheExclusion(BriefingCalendar, d, true) ==
      if d == 18211 then Some(HalfDayOverride) else if d == 18242 then Some(ExamDayOverride) else None
  {
    var exs := BriefingCalendar.exclusions + BriefingCalendar.overrides;
    assert exs == [HalfDayOverride, ExamDayOverride];
    assert exs[1..] == [ExamDayOverride];
    assert exs[1..][1..] == [];
  }

  /** Inside the calendar, the briefing days are exactly the weekdays. */
  lemma BriefingDaysAreWeekdays(d: Date)
    requires 18136 <= d <= 18424
    ensures IsBriefingDay(BriefingCalendar, d) <==> !IsWeekend(d)
  {
    BriefingExclusion(d);
    BriefingDayByType(BriefingCalendar, d);
  }

  lemma TestMappingKey(b: string, i: nat)
    requires b in ["A", "B", "C", "D", "E"] && i < 2
    ensures Key(b, i) in TestMapping
  {
    assert NatToString(0 + 1) == "1" && NatToString(1 + 1) == "2";
    assert b == "A" || b == "B" || b == "C" || b == "D" || b == "E";
    if i == 0 {
      assert Key(b, i) == b + "1";
      assert "A" + "1" == "A1" && "B" + "1" == "B1" && "C" + "1" == "C1" && "D" + "1" == "D1" && "E" + "1" == "E1";
    } else {
      assert Key(b, i) == b + "2";
      assert "A" + "2" == "A2" && "B" + "2" == "B2" && "C" + "2" == "C2" && "D" + "2" == "D2" && "E" + "2" == "E2";
    }
  }

  lemma TestMappingCovers()
    ensures Covers(TestMapping, BriefingCalendar)
  {
    var c := BriefingCalendar;
    forall k | k in AllBlockSemesterCombinations(c)
      ensures k in TestMapping
    {
      var b, i :| b in c.allBlocks && 0 <= i < |c.semesters| && k == Key(b, i);
      TestMappingKey(b, i);
    }
  }

  lemma TestMappingKeysUsed(k: string)
    requires k in TestMapping
    ensures k in AllBlockSemesterCombinations(BriefingCalendar)
  {
    var c := BriefingCalendar;
    assert NatToString(0 + 1) == "1" && NatToString(1 + 1) == "2";
    assert "A" in c.allBlocks && "B" in c.allBlocks && "C" in c.allBlocks && "D" in c.allBlocks && "E" in c.allBlocks;
    assert Key("A", 0) == "A1" && Key("A", 1) == "A2" && Key("B", 0) == "B1" && Key("B", 1) == "B2";
    assert Key("C", 0) == "C1" && Key("C", 1) == "C2" && Key("D", 0) == "D1" && Key("D", 1) == "D2";
    assert Key("E", 0) == "E1" && Key("E", 1) == "E2";
  }

  /** The test's schedule is accepted for its calendar as is. */
  lemma TestScheduleBuilds()
    ensures Init(TestMapping, BriefingCalendar) == Success(TestSchedule)
  {
    TestMappingCovers();
    forall k | k in TestMapping
      ensures k in AllBlockSemesterCombinations(BriefingCalendar)
    {
      TestMappingKeysUsed(k);
    }
    InitKeepsExactMapping(TestMapping, BriefingCalendar);
  }

  /** A mapping with exactly the calendar's keys is kept as it is. */
  lemma InitKeepsExactMapping(m: map<string, string>, cal: Calendar)
    requires Covers(m, cal)
    requires forall k :: k in m ==> k in AllBlockSemesterCombinations(cal)
    ensures Init(m, cal) == Success(Schedule(m, cal))
  {
    var s := Init(m, cal).value;
    assert s.mapping == m;
  }

  /** One step of the identifier walk from a weekday to the next weekday. */
  lemma NextWeekday(d: Date, next: Date)
    requires 18136 <= d && next <= 18424 && d < next
    requires !IsWeekend(next) && forall k :: d < k < next ==> IsWeekend(k)
    ensures NextBriefingDate(BriefingCalendar, d) == next
  {
    var n := NextBriefingDate(BriefingCalendar, d);
    if n < next {
      BriefingDaysAreWeekdays(n);
    } else if n > next {
      BriefingDaysAreWeekdays(next);
    }
  }

  lemma BriefingDatesStep(cal: Calendar, d: Date, next: Date)
    requires d <= cal.interval.end && NextBriefingDate(cal, d) == next
    ensures BriefingDates(cal, d) == [d] + BriefingDates(cal, next)
  {
  }

  lemma FiveSteps(cal: Calendar, d0: Date, d1: Date, d2: Date, d3: Date, d4: Date)
    requires d4 <= cal.interval.end
    requires NextBriefingDate(cal, d0) == d1 && NextBriefingDate(cal, d1) == d2
    requires NextBriefingDate(cal, d2) == d3 && NextBriefingDate(cal, d3) == d4
    ensures |BriefingDates(cal, d0)| >= 5 && BriefingDates(cal, d0)[..5] == [d0, d1, d2, d3, d4]
  {
    var r4 := BriefingDates(cal, d4);
    var r3 := BriefingDates(cal, d3);
    var r2 := BriefingDates(cal, d2);
    var r1 := BriefingDates(cal, d1);
    var r0 := BriefingDates(cal, d0);
    BriefingDatesStep(cal, d3, d4);
    BriefingDatesStep(cal, d2, d3);
    BriefingDatesStep(cal, d1, d2);
    BriefingDatesStep(cal, d0, d1);
    assert r0 == [d0, d1, d2, d3] + r4;
  }

  /** The next five identifiers from 2019-09-04 skip the weekend of 09-07. */
  lemma FiveBriefingDates()
    ensures |BriefingDates(BriefingCalendar, 18143)| >= 5
    ensures BriefingDates(BriefingCalendar, 18143)[..5] == [18143, 18144, 18145, 18148, 18149]
  {
    NextWeekday(18143, 18144);
    NextWeekday(18144, 18145);
    NextWeekday(18145, 18148);
    NextWeekday(18148, 18149);
    FiveSteps(BriefingCalendar, 18143, 18144, 18145, 18148, 18149);
  }

  lemma ParseTimeOf(hour: UInt8, minute: UInt8, text: string)
    requires text == NatToString(hour) + ":" + NatToString(minute)
    ensures ParseTime(text) == Success((hour, minute))
  {
    ParseTimeRoundTrip(hour, minute);
  }

  /** A day inside the calendar that an override covers is the override's day. */
  lemma OverrideDayOn(cal: Calendar, d: Date, ex: Exclusion)
    requires InCalendar(cal, d) && TheExclusion(cal, d, true) == Some(ex)
    ensures DayOn(cal, d) == Success(Generate(ex.generator, d))
  {
  }

  const BriefingHalfDay: Day := HalfDay(18211, DefaultHalfDayDescription, ["B", "D"])
  const BriefingExamDay: Day := ExamDay(18242, DefaultExamDayDescription, ["A"])

  lemma OverrideDays(codec: DateCodec)
    requires codec.parseDate("2019-11-11") == Some(18211) && codec.parseDate("2019-12-12") == Some(18242)
    ensures DateFor(codec, "d2019-11-11") == Success(18211) && DayOn(BriefingCalendar, 18211) == Success(BriefingHalfDay)
    ensures DateFor(codec, "d2019-12-12") == Success(18242) && DayOn(BriefingCalendar, 18242) == Success(BriefingExamDay)
  {
    assert "d2019-11-11"[1..] == "2019-11-11";
    assert "d2019-12-12"[1..] == "2019-12-12";
    BriefingExclusion(18211);
    BriefingExclusion(18242);
    OverrideDayOn(BriefingCalendar, 18211, HalfDayOverride);
    OverrideDayOn(BriefingCalendar, 18242, ExamDayOverride);
  }

  /** The teachers the test schedule gives for the first semester. */
  lemma FirstSemesterTeachers()
    ensures Teacher(TestSchedule, "A", 0) == Success("Aubrey")
    ensures Teacher(TestSchedule, "B", 0) == Success("Bach")
    ensures Teacher(TestSchedule, "D", 0) == Success("DiBenedetto")
  {
    var c := BriefingCalendar;
    assert NatToString(0 + 1) == "1";
    assert "A" in c.allBlocks && "B" in c.allBlocks && "D" in c.allBlocks;
    assert "A" + "1" == "A1" && "B" + "1" == "B1" && "D" + "1" == "D1";
    assert TestMapping["A1"] == "Aubrey" && TestMapping["B1"] == "Bach" && TestMapping["D1"] == "DiBenedetto";
  }

  lemma AutumnSemester(d: Date)
    requires 18136 <= d <= 18282
    ensures SemesterIndexOf(BriefingCalendar, d) == Some(0)
  {
  }

  /** The text of an override day, without and with a schedule. */
  lemma OverrideDayText(cal: Calendar, schedule: Option<Schedule>, day: Day, teachers: seq<string>)
    requires day.HalfDay? || day.ExamDay?
    requires schedule.Some? ==> SemesterIndexOf(cal, day.date).Some?
    requires schedule.Some? ==> |teachers| == |day.blocks| && forall i :: 0 <= i < |teachers| ==>
      TeacherOrUnknown(schedule.value, day.blocks[i], SemesterIndexOf(cal, day.date).value) == Success(teachers[i])
    ensures schedule.None? ==>
      DayText(cal, schedule, day, Opening(day)) == Success(Opening(day) + " " + Concat(day.blocks) + ".")
    ensures schedule.Some? ==>
      DayText(cal, schedule, day, Opening(day)) ==
        Success(Opening(day) + " " + Concat(day.blocks) + "." + " Your teachers for today are " + HumanFriendlyJoin(teachers) + ".")
  {
    var r := DayText(cal, schedule, day, Opening(day));
    assert HasBlocks(day, cal.timetable);
    if schedule.Some? {
      var semester := SemesterIndexOf(cal, day.date).value;
      MapResultAllSucceed(day.blocks, TeacherLookup(schedule.value, semester));
      assert MapResult(day.blocks, TeacherLookup(schedule.value, semester)).value == teachers;
    }
  }

  lemma HalfDayTextParts()
    ensures DayText(BriefingCalendar, None, BriefingHalfDay, Opening(BriefingHalfDay))
      == Success(Opening(BriefingHalfDay) + " " + Concat(BriefingHalfDay.blocks) + ".")
    ensures DayText(BriefingCalendar, Some(TestSchedule), BriefingHalfDay, Opening(BriefingHalfDay))
      == Success(Opening(BriefingHalfDay) + " " + Concat(BriefingHalfDay.blocks) + "." + " Your teachers for today are "
                 + HumanFriendlyJoin(["Bach", "DiBenedetto"]) + ".")
  {
    AutumnSemester(18211);
    FirstSemesterTeachers();
    OverrideDayText(BriefingCalendar, None, BriefingHalfDay, []);
    OverrideDayText(BriefingCalendar, Some(TestSchedule), BriefingHalfDay, ["Bach", "DiBenedetto"]);
  }

  lemma HalfDayTextWords()
    ensures Opening(BriefingHalfDay) + " " + Concat(BriefingHalfDay.blocks) + "." == "Today is a half day with blocks BD."
    ensures HumanFriendlyJoin(["Bach", "DiBenedetto"]) == "Bach and DiBenedetto"
  {
    assert Concat(["B", "D"]) == "BD";
  }

  lemma HalfDayTextWithout()
    ensures DayText(BriefingCalendar, None, BriefingHalfDay, Opening(BriefingHalfDay))
      == Success("Today is a half day with blocks BD.")
  {
    HalfDayTextParts();
    HalfDayTextWords();
  }

  lemma HalfDayTextWith()
    ensures DayText(BriefingCalendar, Some(TestSchedule), BriefingHalfDay, Opening(BriefingHalfDay))
      == Success("Today is a half day with blocks BD." + " Your teachers for today are " + "Bach and DiBenedetto" + ".")
  {
    HalfDayTextParts();
    HalfDayTextWords();
  }

  lemma ExamDayTextParts()
    ensures DayText(BriefingCalendar, Some(TestSchedule), BriefingExamDay, Opening(BriefingExamDay))
      == Success(Opening(BriefingExamDay) + " " + Concat(BriefingExamDay.blocks) + "." + " Your teachers for today are "
                 + HumanFriendlyJoin(["Aubrey"]) + ".")
  {
    AutumnSemester(18242);
    FirstSemesterTeachers();
    OverrideDayText(BriefingCalendar, Some(TestSchedule), BriefingExamDay, ["Aubrey"]);
  }

  lemma ExamDayTextWithout()
    ensures DayText(BriefingCalendar, None, BriefingExamDay, Opening(BriefingExamDay))
      == Success("Today is an exam day with blocks A.")
  {
    OverrideDayText(BriefingCalendar, None, BriefingExamDay, []);
    assert Concat(["A"]) == "A";
    assert Opening(BriefingExamDay) + " " + Concat(BriefingExamDay.blocks) + "." == "Today is an exam day with blocks A.";
  }

  lemma BriefingExamDayText()
    ensures DayText(BriefingCalendar, Some(TestSchedule), BriefingExamDay, Opening(BriefingExamDay))
      == Success("Today is an exam day with blocks A." + " Your teachers for today are " + "Aubrey" + ".")
  {
    ExamDayTextParts();
    assert Concat(["A"]) == "A";
    assert Opening(BriefingExamDay) + " " + Concat(BriefingExamDay.blocks) + "." == "Today is an exam day with blocks A.";
    assert HumanFriendlyJoin(["Aubrey"]) == "Aubrey";
  }

  /** A time setting as the settings screen stores it. */
  lemma TestTime(time: string, hour: UInt8, minute: UInt8)
    requires (time, hour, minute) in {("7:32", 7, 32), ("7:13", 7, 13), ("7:25", 7, 25), ("7:23", 7, 23)}
    ensures ParseTime(time) == Success((hour, minute))
  {
    assert NatToString(7) == "7";
    if minute == 32 {
      assert NatToString(32) == "32";
    } else if minute == 23 {
      assert NatToString(23) == "23";
    } else if minute == 13 {
      assert NatToString(13) == "13";
    } else {
      assert NatToString(25) == "25";
    }
    ParseTimeOf(hour, minute, time);
  }

  /** A briefing of an override day as title, text, suffix and time. */
  lemma OverrideBriefingParts(codec: DateCodec, schedule: Option<Schedule>, id: string, time: string,
                              day: Day, hour: UInt8, minute: UInt8)
    requires codec.parseDate("2019-11-11") == Some(18211) && codec.parseDate("2019-12-12") == Some(18242)
    requires day == BriefingHalfDay || day == BriefingExamDay
    requires id == if day == BriefingHalfDay then "d2019-11-11" else "d2019-12-12"
    requires ParseTime(time) == Success((hour, minute))
    requires DayText(BriefingCalendar, schedule, day, Opening(day)).Success?
    ensures ScheduleNotification(codec, BriefingCalendar, schedule, Some(time), id) ==
      Success(Briefing(Identifier(codec, day.date), Title(day),
                       DayText(BriefingCalendar, schedule, day, Opening(day)).value + Suffix(day), day.date, hour, minute))
    ensures day == BriefingHalfDay ==>
      (ScheduleNotification(codec, BriefingCalendar, schedule, Some(time), id) ==
       Success(Briefing(Identifier(codec, day.date), HalfDayTitle,
                        DayText(BriefingCalendar, schedule, day, Opening(day)).value, day.date, hour, minute)))
  {
    OverrideDays(codec);
    AutumnSemester(day.date);
    var text := DayText(BriefingCalendar, schedule, day, Opening(day));
    BriefingOfDay(codec, BriefingCalendar, schedule, time, id, day);
    if day == BriefingHalfDay {
      assert text.value + Suffix(day) == text.value;
    }
  }

  /** An override-day briefing, once its identifier, title and body are known. */
  lemma OverrideExample(codec: DateCodec, schedule: Option<Schedule>, id: string, time: string, day: Day,
                        hour: UInt8, minute: UInt8, title: string, body: string)
    requires codec.parseDate("2019-11-11") == Some(18211) && codec.parseDate("2019-12-12") == Some(18242)
    requires day == BriefingHalfDay || day == BriefingExamDay
    requires id == if day == BriefingHalfDay then "d2019-11-11" else "d2019-12-12"
    requires ParseTime(time) == Success((hour, minute))
    requires |id| > 0 && id[0] == OptionId && codec.format(day.date) == id[1..]
    requires title == Title(day)
    requires DayText(BriefingCalendar, schedule, day, Opening(day)).Success?
    requires DayText(BriefingCalendar, schedule, day, Opening(day)).value + Suffix(day) == body
    ensures ScheduleNotification(codec, BriefingCalendar, schedule, Some(time), id)
      == Success(Briefing(id, title, body, day.date, hour, minute))
  {
    OverrideBriefingParts(codec, schedule, id, time, day, hour, minute);
    IdentifierIsOptionAndDate(codec, day.date, id);
  }

  /** The half day of 2019-11-11, without a schedule, at 7:32. */
  lemma HalfDayWithoutSchedule(codec: DateCodec, id: string, time: string, body: string)
    requires id == "d2019-11-11" && time == "7:32"
    requires codec.parseDate("2019-11-11") == Some(18211) && codec.parseDate("2019-12-12") == Some(18242)
    requires codec.format(18211) == "2019-11-11"
    requires body == "Today is a half day with blocks BD."
    ensures ScheduleNotification(codec, BriefingCalendar, None, Some(time), id)
      == Success(Briefing(id, HalfDayTitle, body, 18211, 7, 32))
  {
    TestTime(time, 7, 32);
    HalfDayTextWithout();
    assert id[1..] == "2019-11-11";
    OverrideExample(codec, None, id, time, BriefingHalfDay, 7, 32, HalfDayTitle, body);
  }

  /** The half day of 2019-11-11, with the test schedule, at 7:13. */
  lemma HalfDayWithSchedule(codec: DateCodec, id: string, time: string, body: string)
    requires id == "d2019-11-11" && time == "7:13"
    requires codec.parseDate("2019-11-11") == Some(18211) && codec.parseDate("2019-12-12") == Some(18242)
    requires codec.format(18211) == "2019-11-11"
    requires body == "Today is a half day with blocks BD." + " Your teachers for today are " + "Bach and DiBenedetto" + "."
    ensures ScheduleNotification(codec, BriefingCalendar, Some(TestSchedule), Some(time), id)
      == Success(Briefing(id, HalfDayTitle, body, 18211, 7, 13))
  {
    TestTime(time, 7, 13);
    HalfDayBodyWith(body);
    assert id[1..] == "2019-11-11";
    OverrideExample(codec, Some(TestSchedule), id, time, BriefingHalfDay, 7, 13, HalfDayTitle, body);
  }

  /** The body and title of the half-day briefing with the test schedule. */
  lemma HalfDayBodyWith(body: string)
    requires body == "Today is a half day with blocks BD." + " Your teachers for today are " + "Bach and DiBenedetto" + "."
    ensures DayText(BriefingCalendar, Some(TestSchedule), BriefingHalfDay, Opening(BriefingHalfDay)).Success?
    ensures DayText(BriefingCalendar, Some(TestSchedule), BriefingHalfDay, Opening(BriefingHalfDay)).value
            + Suffix(BriefingHalfDay) == body
    ensures Title(BriefingHalfDay) == HalfDayTitle
  {
    HalfDayTextWith();
    var text := DayText(BriefingCalendar, Some(TestSchedule), BriefingHalfDay, Opening(BriefingHalfDay)).value;
    assert Suffix(BriefingHalfDay) == "";
    assert text + "" == text;
  }

  /** The exam day of 2019-12-12, with the test schedule, at 7:25. */
  lemma ExamDayWithSchedule(codec: DateCodec, id: string, time: string, body: string)
    requires id == "d2019-12-12" && time == "7:25"
    requires codec.parseDate("2019-11-11") == Some(18211) && codec.parseDate("2019-12-12") == Some(18242)
    requires codec.format(18242) == "2019-12-12"
    requires body == "Today is an exam day with blocks A." + " Your teachers for today are " + "Aubrey" + "." + " Good luck!"
    ensures ScheduleNotification(codec, BriefingCalendar, Some(TestSchedule), Some(time), id)
      == Success(Briefing(id, ExamDayTitle, body, 18242, 7, 25))
  {
    TestTime(time, 7, 25);
    ExamDayBodyWith(body);
    assert id[1..] == "2019-12-12";
    OverrideExample(codec, Some(TestSchedule), id, time, BriefingExamDay, 7, 25, ExamDayTitle, body);
  }

  /** The body and title of the exam-day briefing with the test schedule. */
  lemma ExamDayBodyWith(body: string)
    requires body == "Today is an exam day with blocks A." + " Your teachers for today are " + "Aubrey" + "." + " Good luck!"
    ensures DayText(BriefingCalendar, Some(TestSchedule), BriefingExamDay, Opening(BriefingExamDay)).Success?
    ensures DayText(BriefingCalendar, Some(TestSchedule), BriefingExamDay, Opening(BriefingExamDay)).value
            + Suffix(BriefingExamDay) == body
    ensures Title(BriefingExamDay) == ExamDayTitle
  {
    BriefingExamDayText();
    assert Suffix(BriefingExamDay) == " Good luck!";
  }

  /** The exam day of 2019-12-12, without a schedule, at 7:23. */
  lemma ExamDayWithoutSchedule(codec: DateCodec, id: string, time: string, body: string)
    requires id == "d2019-12-12" && time == "7:23"
    requires codec.parseDate("2019-11-11") == Some(18211) && codec.parseDate("2019-12-12") == Some(18242)
    requires codec.format(18242) == "2019-12-12"
    requires body == "Today is an exam day with blocks A." + " Good luck!"
    ensures ScheduleNotification(codec, BriefingCalendar, None, Some(time), id)
      == Success(Briefing(id, ExamDayTitle, body, 18242, 7, 23))
  {
    TestTime(time, 7, 23);
    ExamDayTextWithout();
    assert Suffix(BriefingExamDay) == " Good luck!";
    assert id[1..] == "2019-12-12";
    OverrideExample(codec, None, id, time, BriefingExamDay, 7, 23, ExamDayTitle, body);
  }

  /** Without a time setting the briefing is refused with `badSettings`. */
  lemma MissingTimeIsBadSettings(codec: DateCodec)
    ensures ScheduleNotification(codec, BriefingCalendar, None, None, "d2019-08-29")
      == Failure(BadSettings("Missing time for day briefings"))
  {
  }

  /** With the fixed `% 8` wrap, 2019-09-06 is numbered 8 on this five-day
      calendar, so its briefing stops at the missing row of blocks instead of
      reading "Today is a Day 3 with blocks CDB.". */
  lemma StandardDayBriefingTrapsAsWritten(codec: DateCodec)
    requires codec.parseDate("2019-09-06") == Some(18145)
    ensures CycleNumber(BriefingCalendar, 18145) == 8
    ensures ScheduleNotification(codec, BriefingCalendar, None, Some("7:30"), "d2019-09-06").Failure?
    ensures ScheduleNotification(codec, BriefingCalendar, None, Some("7:30"), "d2019-09-06").error.Trap?
  {
    var c := BriefingCalendar;
    assert "d2019-09-06"[1..] == "2019-09-06";
    FixedWrapOutrunsFiveDayCycle();
    assert Counter(c, 8, 18144) == 7;
    assert Counter(c, 8, 18145) == 8;
    assert DayOn(c, 18145) == Success(StandardDay(18145, 8));
    assert !HasBlocks(StandardDay(18145, 8), c.timetable);
  }
}

=== FILE: calendar.dfy ===
/** The calendar and its cycle-day counter (SevenPlusH/SphCalendar.swift).
    The code as written differs from the design it was meant to follow in three
    ways, and the model follows the code:
    - `theExclusion` scans the base `exclusions` before the `overrides`;
    - the counter wraps with a fixed `% 8`, whatever the calendar's cycle size;
    - the counter asks for the day type without overrides, so override days never
      move the count, and a base `standard_day` exclusion counts as one more
      standard day rather than pinning the count to its number. */
module Calendars {
  import opened Wrappers
  import opened Errors
  import opened Text
  import opened Dates
  import opened Timetable
  import opened Days
  import opened Exclusions

  datatype Calendar = Calendar(
    name: string,
    version: int,
    allBlocks: seq<string>,
    cycleSize: UInt8,
    interval: DateInterval,
    exclusions: seq<Exclusion>,
    overrides: seq<Exclusion>,
    timetable: SphTimetable,
    semesters: seq<DateInterval>,
    releaseDate: int)

  /** An exclusion as the definition reader produces it: a non-reversed
      interval inside the calendar's, and a standard-day number within the cycle. */
  predicate ExclusionFits(ex: Exclusion, interval: DateInterval, cycleSize: nat) {
    && interval.start <= ex.interval.start <= ex.interval.end <= interval.end
    && (ex.generator.StandardGen? ==> 1 <= ex.generator.number <= cycleSize)
  }

  /** What every calendar read from a definition satisfies. */
  predicate WellFormed(cal: Calendar) {
    && cal.interval.start <= cal.interval.end
    && (forall i :: 0 <= i < |cal.exclusions| ==> ExclusionFits(cal.exclusions[i], cal.interval, cal.cycleSize))
    && (forall i :: 0 <= i < |cal.overrides| ==> ExclusionFits(cal.overrides[i], cal.interval, cal.cycleSize))
    && (forall i :: 0 <= i < |cal.semesters| ==> cal.semesters[i].start <= cal.semesters[i].end)
  }

  /** `includes`. */
  predicate InCalendar(cal: Calendar, d: Date) {
    Contains(cal.interval, d)
  }

  /** `theExclusion(for:includeOverrides:)`: the first covering exclusion of
      `exclusions + overrides`, or of `exclusions` alone. */
  function TheExclusion(cal: Calendar, d: Date, includeOverrides: bool): Option<Exclusion> {
    FirstIncluding(if includeOverrides then cal.exclusions + cal.overrides else cal.exclusions, d)
  }

  /** `dayType(on:includeOverrides:)`: nil outside the interval, else the type
      of the exclusion's day, or weekend, or standard day. */
  function DayType(cal: Calendar, d: Date, includeOverrides: bool): (r: Option<DayKind>)
    ensures r.None? <==> !InCalendar(cal, d)
  {
    if !InCalendar(cal, d) then None
    else match TheExclusion(cal, d, includeOverrides)
      case Some(ex) => Some(KindOf(Generate(ex.generator, d)))
      case None => if IsWeekend(d) then Some(WeekendKind) else Some(StandardKind)
  }

  /** Inside the calendar, the first covering exclusion decides the type, and
      an uncovered date is a weekend or a standard day by the day of the week. */
  lemma DayTypeInCalendar(cal: Calendar, d: Date, includeOverrides: bool)
    requires InCalendar(cal, d)
    ensures TheExclusion(cal, d, includeOverrides).Some? ==>
      DayType(cal, d, includeOverrides) == Some(GeneratorKind(TheExclusion(cal, d, includeOverrides).value.generator))
    ensures TheExclusion(cal, d, includeOverrides).None? ==>
      (DayType(cal, d, includeOverrides) == Some(WeekendKind) <==> IsWeekend(d))
      && (DayType(cal, d, includeOverrides) == Some(StandardKind) <==> !IsWeekend(d))
  {
  }

  /** `isSchoolDay(on:)`: the type (overrides included) conforms to `SchoolDay`. */
  predicate IsSchoolDay(cal: Calendar, d: Date) {
    var t := DayType(cal, d, true);
    t.Some? && IsSchoolKind(t.value)
  }

  /** The test of the recursive step: typed `StandardDay` when overrides are ignored. */
  predicate CountsAsStandard(cal: Calendar, d: Date) {
    DayType(cal, d, false) == Some(StandardKind)
  }

  /** The fixed modulus of the counter. */
  const SourceWrap: nat := 8

  /** The counter for a wrap modulus `w`: the interval's first date is day 1;
      every later date typed standard (overrides ignored) moves to
      `(previous % w) + 1`; any other date keeps the previous number. */
  function Counter(cal: Calendar, w: nat, d: Date): (n: nat)
    requires w >= 1 && d >= cal.interval.start
    ensures 1 <= n <= w
    decreases d - cal.interval.start
  {
    if d == cal.interval.start then 1
    else if CountsAsStandard(cal, d) then Counter(cal, w, d - 1) % w + 1
    else Counter(cal, w, d - 1)
  }

  /** The cycle-day number the code computes, wrapping at 8. */
  function CycleNumber(cal: Calendar, d: Date): (n: DayNumber)
    requires d >= cal.interval.start
    ensures 1 <= n <= 8
  {
    Counter(cal, SourceWrap, d)
  }

  /** The dates after the first one, up to `d`, that move the counter. */
  ghost function StandardDaysUpTo(cal: Calendar, d: Date): set<Date> {
    set k | cal.interval.start < k <= d && CountsAsStandard(cal, k)
  }

  lemma MulSign(k: int, w: int)
    requires w >= 1
    ensures k >= 1 ==> k * w >= w
    ensures k <= -1 ==> k * w <= -w
  {
  }

  /** Euclidean remainders are unique. */
  lemma ModUnique(a: int, q: int, w: int, r: int)
    requires w >= 1 && 0 <= r < w && a == q * w + r
    ensures a % w == r
  {
    var q0, r0 := a / w, a % w;
    assert a == q0 * w + r0;
    assert (q - q0) * w == r0 - r;
    MulSign(q - q0, w);
  }

  lemma ModSucc(a: nat, w: nat)
    requires w >= 1
    ensures (a % w + 1) % w == (a + 1) % w
  {
    var q, r := a / w, a % w;
    assert a == q * w + r;
    if r + 1 < w {
      ModUnique(a + 1, q, w, r + 1);
      ModUnique(r + 1, 0, w, r + 1);
    } else {
      assert a + 1 == (q + 1) * w;
      ModUnique(a + 1, q + 1, w, 0);
      ModUnique(r + 1, 1, w, 0);
    }
  }

  lemma StandardDaysStep(cal: Calendar, d: Date)
    requires d > cal.interval.start
    ensures CountsAsStandard(cal, d) ==>
      StandardDaysUpTo(cal, d) == StandardDaysUpTo(cal, d - 1) + {d} && d !in StandardDaysUpTo(cal, d - 1)
    ensures !CountsAsStandard(cal, d) ==> StandardDaysUpTo(cal, d) == StandardDaysUpTo(cal, d - 1)
  {
  }

  /** The arithmetic of one counter step. */
  lemma CounterStepArith(prev: nat, n: nat, w: nat, counts: bool, next: nat, m: nat)
    requires w >= 1 && prev == n % w + 1
    requires counts ==> m == n + 1 && next == prev % w + 1
    requires !counts ==> m == n && next == prev
    ensures next == m % w + 1
  {
    if counts {
      ModSucc(n, w);
    }
  }

  /** Closed form: the number is one plus the count of counting dates since the
      first date, modulo the wrap. */
  lemma {:induction false} CounterClosedForm(cal: Calendar, w: nat, d: Date)
    requires w >= 1 && d >= cal.interval.start
    ensures Counter(cal, w, d) == |StandardDaysUpTo(cal, d)| % w + 1
    decreases d - cal.interval.start
  {
    if d == cal.interval.start {
      assert StandardDaysUpTo(cal, d) == {};
      ModUnique(0, 0, w, 0);
    } else {
      CounterClosedForm(cal, w, d - 1);
      StandardDaysStep(cal, d);
      CounterStepArith(Counter(cal, w, d - 1), |StandardDaysUpTo(cal, d - 1)|, w,
        CountsAsStandard(cal, d), Counter(cal, w, d), |StandardDaysUpTo(cal, d)|);
    }
  }

  /** Dates that do not count carry the number over unchanged. */
  lemma {:induction false} CounterCarriesOver(cal: Calendar, w: nat, d1: Date, d2: Date)
    requires w >= 1 && cal.interval.start <= d1 <= d2
    requires forall k :: d1 < k <= d2 ==> !CountsAsStandard(cal, k)
    ensures Counter(cal, w, d2) == Counter(cal, w, d1)
    decreases d2 - d1
  {
    if d2 > d1 {
      CounterCarriesOver(cal, w, d1, d2 - 1);
    }
  }

  /** Two consecutive counting dates have consecutive numbers, wrapping at `w`. */
  lemma ConsecutiveCountingDays(cal: Calendar, w: nat, d1: Date, d2: Date)
    requires w >= 1 && cal.interval.start <= d1 < d2
    requires CountsAsStandard(cal, d2)
    requires forall k :: d1 < k < d2 ==> !CountsAsStandard(cal, k)
    ensures Counter(cal, w, d2) == Counter(cal, w, d1) % w + 1
  {
    CounterCarriesOver(cal, w, d1, d2 - 1);
  }

  /** Overrides never move the count: replacing them leaves every number alone. */
  lemma {:induction false} OverridesDoNotMoveCount(cal: Calendar, others: seq<Exclusion>, w: nat, d: Date)
    requires w >= 1 && d >= cal.interval.start
    ensures Counter(cal, w, d) == Counter(cal.(overrides := others), w, d)
    decreases d - cal.interval.start
  {
    var cal' := cal.(overrides := others);
    if d > cal.interval.start {
      OverridesDoNotMoveCount(cal, others, w, d - 1);
      assert CountsAsStandard(cal, d) == CountsAsStandard(cal', d);
    }
  }

  /** The cycle-day iterator's memo (`DayIterator.mapping`). */
  datatype DayIterator = DayIterator(mapping: map<Date, DayNumber>)

  /** `DayIterator.init(start:)`: only the first date is known, as day 1. */
  function InitialIterator(cal: Calendar): DayIterator {
    DayIterator(map[cal.interval.start := 1])
  }

  /** Every memo entry agrees with the counter, and the seed is present. */
  ghost predicate MemoConsistent(cal: Calendar, it: DayIterator) {
    && cal.interval.start in it.mapping
    && forall k :: k in it.mapping ==> k >= cal.interval.start && it.mapping[k] == CycleNumber(cal, k)
  }

  lemma InitialIteratorConsistent(cal: Calendar)
    ensures MemoConsistent(cal, InitialIterator(cal))
  {
  }

  /** `recursivelyIterate(from:)`: a memo hit, or one step back. */
  function RecursivelyIterate(cal: Calendar, it: DayIterator, d: Date): nat
    requires cal.interval.start in it.mapping && d >= cal.interval.start
    decreases d - cal.interval.start
  {
    if d in it.mapping then it.mapping[d]
    else if CountsAsStandard(cal, d) then RecursivelyIterate(cal, it, d - 1) % 8 + 1
    else RecursivelyIterate(cal, it, d - 1)
  }

  /** With a consistent memo, the memoised recursion computes the counter. */
  lemma {:induction false} RecursionMatchesCounter(cal: Calendar, it: DayIterator, d: Date)
    requires MemoConsistent(cal, it) && d >= cal.interval.start
    ensures RecursivelyIterate(cal, it, d) == CycleNumber(cal, d)
    decreases d - cal.interval.start
  {
    if d !in it.mapping {
      RecursionMatchesCounter(cal, it, d - 1);
    }
  }

  /** `numberOfDate(_:for:)`: nil for a date that is not a school day; otherwise
      the number, which is then memoised. */
  function NumberOfDate(cal: Calendar, it: DayIterator, d: Date): (r: (Option<DayNumber>, DayIterator))
    requires MemoConsistent(cal, it)
    ensures r.0.None? <==> !IsSchoolDay(cal, d)
    ensures r.0.Some? ==> d >= cal.interval.start && r.0.value == CycleNumber(cal, d)
    ensures MemoConsistent(cal, r.1)
    ensures it.mapping.Keys <= r.1.mapping.Keys
  {
    if !IsSchoolDay(cal, d) then (None, it)
    else
      RecursionMatchesCounter(cal, it, d);
      var n := RecursivelyIterate(cal, it, d);
      (Some(n), DayIterator(it.mapping[d := n]))
  }

  /** `day(on:)`, with the counter in place of the memo. */
  function DayOn(cal: Calendar, d: Date): (r: Result<Day, Error>)
    ensures r.Failure? <==> !(cal.interval.start <= d <= cal.interval.end)
    ensures r.Failure? ==> r.error == CalendarOutOfRange
    ensures r.Success? ==> r.value.date == d && Some(KindOf(r.value)) == DayType(cal, d, true)
  {
    if !InCalendar(cal, d) then Failure(CalendarOutOfRange)
    else match TheExclusion(cal, d, true)
      case Some(ex) => Success(Generate(ex.generator, d))
      case None =>
        if IsWeekend(d) then Success(Weekend(d))
        else Success(StandardDay(d, CycleNumber(cal, d)))
  }

  /** `day(on:)` as the source runs it, through the memo; the force unwrap of
      the number cannot fail, and the answer is the one `DayOn` gives. */
  function DayOnCached(cal: Calendar, it: DayIterator, d: Date): (r: (Result<Day, Error>, DayIterator))
    requires MemoConsistent(cal, it)
    ensures r.0 == DayOn(cal, d)
    ensures MemoConsistent(cal, r.1)
  {
    if !InCalendar(cal, d) then (Failure(CalendarOutOfRange), it)
    else match TheExclusion(cal, d, true)
      case Some(ex) => (Success(Generate(ex.generator, d)), it)
      case None =>
        if IsWeekend(d) then (Success(Weekend(d)), it)
        else
          var (n, it') := NumberOfDate(cal, it, d);
          if n.None? then (Failure(Trap("number! on a day that is not a school day")), it')
          else (Success(StandardDay(d, n.value)), it')
  }

  /** Asking twice through the memo gives the same day both times. */
  lemma RepeatedQueriesAgree(cal: Calendar, it: DayIterator, d: Date)
    requires MemoConsistent(cal, it)
    ensures DayOnCached(cal, DayOnCached(cal, it, d).1, d).0 == DayOnCached(cal, it, d).0
  {
  }

  /** A covering base exclusion decides the day, whatever the overrides say,
      and beats both the weekend and the standard classification. */
  lemma BaseExclusionWins(cal: Calendar, d: Date, i: nat)
    requires InCalendar(cal, d)
    requires i < |cal.exclusions| && Exclusions.Includes(cal.exclusions[i], d)
    requires forall j :: 0 <= j < i ==> !Exclusions.Includes(cal.exclusions[j], d)
    ensures DayOn(cal, d) == Success(Generate(cal.exclusions[i].generator, d))
  {
    FirstIncludingAt(cal.exclusions, d, i);
    FirstIncludingAppend(cal.exclusions, cal.overrides, d);
  }

  /** An override decides the day only when no base exclusion covers it. */
  lemma OverrideWinsWithoutBase(cal: Calendar, d: Date, i: nat)
    requires InCalendar(cal, d)
    requires forall j :: 0 <= j < |cal.exclusions| ==> !Exclusions.Includes(cal.exclusions[j], d)
    requires i < |cal.overrides| && Exclusions.Includes(cal.overrides[i], d)
    requires forall j :: 0 <= j < i ==> !Exclusions.Includes(cal.overrides[j], d)
    ensures DayOn(cal, d) == Success(Generate(cal.overrides[i].generator, d))
  {
    FirstIncludingAt(cal.overrides, d, i);
    FirstIncludingAppend(cal.exclusions, cal.overrides, d);
  }

  /** With no covering exclusion, a weekend date is a weekend and any other
      date is a standard day numbered by the counter. */
  lemma UncoveredDays(cal: Calendar, d: Date)
    requires InCalendar(cal, d)
    requires forall j :: 0 <= j < |cal.exclusions| ==> !Exclusions.Includes(cal.exclusions[j], d)
    requires forall j :: 0 <= j < |cal.overrides| ==> !Exclusions.Includes(cal.overrides[j], d)
    ensures IsWeekend(d) ==> DayOn(cal, d) == Success(Weekend(d))
    ensures !IsWeekend(d) ==> DayOn(cal, d) == Success(StandardDay(d, CycleNumber(cal, d)))
  {
    FirstIncludingAppend(cal.exclusions, cal.overrides, d);
  }

  /** A base `standard_day` exclusion is returned with its own number, yet it
      moves the counter by one like any standard day. */
  lemma BaseStandardDayCountsOnce(cal: Calendar, d: Date, i: nat, n: DayNumber)
    requires InCalendar(cal, d)
    requires i < |cal.exclusions| && Exclusions.Includes(cal.exclusions[i], d)
    requires forall j :: 0 <= j < i ==> !Exclusions.Includes(cal.exclusions[j], d)
    requires cal.exclusions[i].generator == StandardGen(n)
    ensures DayOn(cal, d) == Success(StandardDay(d, n))
    ensures d > cal.interval.start ==> CycleNumber(cal, d) == CycleNumber(cal, d - 1) % 8 + 1
  {
    BaseExclusionWins(cal, d, i);
    FirstIncludingAt(cal.exclusions, d, i);
  }

  /** `isSchoolDay` holds exactly when `day(on:)` gives a standard, half, exam
      or unknown day. */
  lemma SchoolDayIffDayKind(cal: Calendar, d: Date)
    ensures IsSchoolDay(cal, d) <==>
      (DayOn(cal, d).Success? && IsSchoolKind(KindOf(DayOn(cal, d).value)))
  {
  }

  /** The key of a block and a zero-based semester index: `block + String(i + 1)`. */
  function Key(block: string, semesterIndex: nat): string {
    block + NatToString(semesterIndex + 1)
  }

  function KeysOfBlock(block: string, count: nat): (ks: seq<string>)
    ensures |ks| == count
    ensures forall i :: 0 <= i < count ==> ks[i] == Key(block, i)
  {
    seq(count, i requires 0 <= i < count => Key(block, i))
  }

  function Combinations(blocks: seq<string>, count: nat): (ks: seq<string>)
    ensures forall b, i :: b in blocks && 0 <= i < count ==> Key(b, i) in ks
    ensures forall k :: k in ks ==> exists b, i :: b in blocks && 0 <= i < count && k == Key(b, i)
  {
    if |blocks| == 0 then []
    else
      var first := KeysOfBlock(blocks[0], count);
      var rest := Combinations(blocks[1..], count);
      assert forall i :: 0 <= i < count ==> first[i] == Key(blocks[0], i);
      assert forall b :: b in blocks ==> b == blocks[0] || b in blocks[1..];
      first + rest
  }

  /** `allBlockSemesterCombinations()`, which is not defined in SphCalendar.swift
      or SphSchedule.swift: every block with every one-based semester number, block by block. */
  function AllBlockSemesterCombinations(cal: Calendar): (ks: seq<string>)
    ensures forall b, i :: b in cal.allBlocks && 0 <= i < |cal.semesters| ==> Key(b, i) in ks
    ensures forall k :: k in ks ==>
      exists b, i :: b in cal.allBlocks && 0 <= i < |cal.semesters| && k == Key(b, i)
  {
    Combinations(cal.allBlocks, |cal.semesters|)
  }

  function FirstContaining(ivs: seq<DateInterval>, d: Date): (r: Option<nat>)
    ensures r.Some? ==> r.value < |ivs| && Contains(ivs[r.value], d)
                        && forall j :: 0 <= j < r.value ==> !Contains(ivs[j], d)
    ensures r.None? ==> forall j :: 0 <= j < |ivs| ==> !Contains(ivs[j], d)
  {
    if |ivs| == 0 then None
    else if Contains(ivs[0], d) then Some(0)
    else match FirstContaining(ivs[1..], d)
      case None => None
      case Some(i) => Some(i + 1)
  }

  /** `semesterIndexOf(date:)`, which is not defined in SphCalendar.swift or
      SphSchedule.swift: the first semester containing the date, as a `UInt8`; none when that index does not
      fit. */
  function SemesterIndexOf(cal: Calendar, d: Date): (r: Option<UInt8>)
    ensures r.Some? ==> r.value < |cal.semesters| && Contains(cal.semesters[r.value], d)
  {
    match FirstContaining(cal.semesters, d)
    case Some(i) => if i < 256 then Some(i) else None
    case None => None
  }

  /** The semester found is the first one containing the date, and none is
      found exactly when none of the first 256 semesters contains it. */
  lemma SemesterIndexIsFirst(cal: Calendar, d: Date)
    ensures SemesterIndexOf(cal, d).Some? ==>
      forall j :: 0 <= j < SemesterIndexOf(cal, d).value ==> !Contains(cal.semesters[j], d)
    ensures SemesterIndexOf(cal, d).None? <==>
      forall j :: 0 <= j < |cal.semesters| && j < 256 ==> !Contains(cal.semesters[j], d)
  {
  }
}

=== FILE: calendar_examples.dfy ===
/** The calendar used by SevenPlusHTests/CalendarTests.swift, and the day-number
    scenario it checks (school year 2018-08-29 to 2019-06-14, a Labor Day holiday
    from 2018-08-31 to 2018-09-03 and Rosh Hashanah on 2018-09-10). */
module CalendarExamples {
  import opened Wrappers
  import opened Errors
  import opened Dates
  import opened Timetable
  import opened Days
  import opened Exclusions
  import opened Calendars

  const Aug29: Date := 17772
  const Aug30: Date := 17773
  const Aug31: Date := 17774
  const Sep01: Date := 17775
  const Sep03: Date := 17777
  const Sep06: Date := 17780
  const Sep10: Date := 17784
  const Sep13: Date := 17787
  const Sep18: Date := 17792
  const Jun14: Date := 18061

  const TestTimetable: SphTimetable := SphTimetable(
    ["A", "B", "C", "D", "E", "F", "G"],
    [["A", "C", "H", "E", "G"], ["B", "D", "F", "G", "E"], ["A", "H", "D", "C", "F"],
     ["B", "A", "H", "G", "E"], ["C", "B", "F", "D", "G"], ["A", "H", "E", "F", "C"],
     ["B", "A", "D", "E", "G"], ["C", "B", "H", "F", "D"]],
    [Period(Time(7, 44), Time(8, 44)), Period(Time(8, 48), Time(10, 3)), Period(Time(10, 7), Time(11, 7)),
     Period(Time(11, 11), Time(13, 1)), Period(Time(13, 5), Time(14, 5))],
    [Period(Time(7, 44), Time(8, 29)), Period(Time(8, 33), Time(9, 16)),
     Period(Time(9, 20), Time(10, 3)), Period(Time(10, 7), Time(10, 50))],
    [Period(Time(8, 0), Time(9, 30)), Period(Time(10, 0), Time(11, 30)), Period(Time(13, 0), Time(14, 0))])

  const TestCalendar: Calendar := Calendar(
    "The Testing Definition", 1, ["A", "B", "C", "D", "E", "F", "G"], 8,
    DateInterval(Aug29, Jun14),
    [Exclusion(DateInterval(Aug31, Sep03), HolidayGen("Labor Day")),
     Exclusion(DateInterval(Sep10, Sep10), HolidayGen("Rosh Hashanah"))],
    [], TestTimetable,
    [DateInterval(Aug29, 17918), DateInterval(17919, Jun14)],
    17765)

  /** The counter over the first week: standard days count on, the Labor Day
      holiday and the weekend do not. */
  lemma TestCycleNumbersEarly()
    ensures CycleNumber(TestCalendar, Aug29) == 1
    ensures CycleNumber(TestCalendar, Aug30) == 2
    ensures CycleNumber(TestCalendar, Sep06) == 5
  {
    var c := TestCalendar;
    assert CycleNumber(c, Aug29) == 1;
    assert CycleNumber(c, Aug30) == 2;
    assert CycleNumber(c, Aug31) == 2;
    assert CycleNumber(c, Sep01) == 2;
    assert CycleNumber(c, Sep01 + 1) == 2;
    assert CycleNumber(c, Sep03) == 2;
    assert CycleNumber(c, Sep03 + 1) == 3;
    assert CycleNumber(c, Sep03 + 2) == 4;
  }

  /** The counter over the next two weeks: it wraps after day 8, and Rosh
      Hashanah does not count. */
  lemma TestCycleNumbersLate()
    ensures CycleNumber(TestCalendar, Sep13) == 1
    ensures CycleNumber(TestCalendar, Sep18) == 4
  {
    var c := TestCalendar;
    TestCycleNumbersAtRoshHashanah();
    assert CycleNumber(c, Sep10 + 1) == 7;
    assert CycleNumber(c, Sep10 + 2) == 8;
    assert CycleNumber(c, Sep13) == 1;
    assert CycleNumber(c, Sep13 + 1) == 2;
    assert CycleNumber(c, Sep13 + 2) == 2;
    assert CycleNumber(c, Sep13 + 3) == 2;
    assert CycleNumber(c, Sep13 + 4) == 3;
  }

  /** The counter over the second weekend and Rosh Hashanah, which does not
      count. */
  lemma TestCycleNumbersAtRoshHashanah()
    ensures CycleNumber(TestCalendar, Sep10) == 6
  {
    var c := TestCalendar;
    TestCycleNumbersEarly();
    assert CycleNumber(c, Sep06 + 1) == 6;
    assert CycleNumber(c, Sep06 + 2) == 6;
    assert CycleNumber(c, Sep06 + 3) == 6;
    FirstIncludingAt(c.exclusions, Sep10, 1);
  }

  /** The days of the test calendar: numbered standard days, the two
      holidays, and outOfRange past the last day. */
  lemma TestCalendarDayNumbers()
    ensures DayOn(TestCalendar, Aug29) == Success(StandardDay(Aug29, 1))
    ensures DayOn(TestCalendar, Aug30) == Success(StandardDay(Aug30, 2))
    ensures DayOn(TestCalendar, Sep06) == Success(StandardDay(Sep06, 5))
    ensures DayOn(TestCalendar, Sep13) == Success(StandardDay(Sep13, 1))
    ensures DayOn(TestCalendar, Sep18) == Success(StandardDay(Sep18, 4))
    ensures DayOn(TestCalendar, Sep01) == Success(Holiday(Sep01, "Labor Day"))
    ensures DayOn(TestCalendar, Sep10) == Success(Holiday(Sep10, "Rosh Hashanah"))
    ensures DayOn(TestCalendar, Jun14 + 1) == Failure(CalendarOutOfRange)
  {
    var c := TestCalendar;
    TestCycleNumbersEarly();
    TestCycleNumbersLate();
    FirstIncludingAppend(c.exclusions, c.overrides, Sep01);
    FirstIncludingAppend(c.exclusions, c.overrides, Sep10);
  }

  /** The semester index of a date in each half of the year, and none outside. */
  lemma TestCalendarSemesters()
    ensures SemesterIndexOf(TestCalendar, Sep18) == Some(0)
    ensures SemesterIndexOf(TestCalendar, Jun14) == Some(1)
    ensures SemesterIndexOf(TestCalendar, Aug29 - 1) == None
  {
    var sems := TestCalendar.semesters;
    assert FirstContaining(sems[1..], Jun14) == Some(0);
  }

  /** The calendar of PreMatchTests/NODayBriefingTest.swift: a five-day cycle
      from 2019-08-28 to 2020-06-11 with a half-day and an exam-day override. */
  const BriefingTimetable: SphTimetable := SphTimetable(
    ["A", "B", "C", "D", "E"],
    [["B", "C", "E"], ["E", "A", "D"], ["C", "D", "B"], ["A", "E", "B"], ["D", "C", "A"]],
    [Period(Time(7, 44), Time(8, 44)), Period(Time(8, 47), Time(9, 47)), Period(Time(9, 50), Time(10, 50))],
    [Period(Time(7, 44), Time(8, 30)), Period(Time(8, 33), Time(9, 28))],
    [Period(Time(7, 44), Time(10, 0))])

  const BriefingCalendar: Calendar := Calendar(
    "NotificationOption Test Calendar", 1, ["A", "B", "C", "D", "E"], 5,
    DateInterval(18136, 18424),
    [],
    [Exclusion(DateInterval(18211, 18211), HalfDayGen(["B", "D"])),
     Exclusion(DateInterval(18242, 18242), ExamDayGen(["A"]))],
    BriefingTimetable,
    [DateInterval(18136, 18282), DateInterval(18283, 18425)],
    18128)

  /** With a five-day cycle the fixed `% 8` wrap gives 2019-09-04 the number 6,
      where wrapping at the cycle size gives the day 1 the briefing expects; and
      a standard day numbered 6 has no row among five rows of blocks. */
  lemma FixedWrapOutrunsFiveDayCycle()
    ensures CycleNumber(BriefingCalendar, 18143) == 6
    ensures Counter(BriefingCalendar, BriefingCalendar.cycleSize, 18143) == 1
    ensures Counter(BriefingCalendar, BriefingCalendar.cycleSize, 18145) == 3
    ensures Counter(BriefingCalendar, BriefingCalendar.cycleSize, 18148) == 4
    ensures !HasBlocks(StandardDay(18143, CycleNumber(BriefingCalendar, 18143)), BriefingTimetable)
  {
    var c := BriefingCalendar;
    var w: nat := 5;
    assert Counter(c, 8, 18136) == 1 && Counter(c, w, 18136) == 1;
    assert Counter(c, 8, 18137) == 2 && Counter(c, w, 18137) == 2;
    assert Counter(c, 8, 18138) == 3 && Counter(c, w, 18138) == 3;
    assert Counter(c, 8, 18139) == 3 && Counter(c, w, 18139) == 3;
    assert Counter(c, 8, 18140) == 3 && Counter(c, w, 18140) == 3;
    assert Counter(c, 8, 18141) == 4 && Counter(c, w, 18141) == 4;
    assert Counter(c, 8, 18142) == 5 && Counter(c, w, 18142) == 5;
    assert Counter(c, 8, 18143) == 6 && Counter(c, w, 18143) == 1;
    assert Counter(c, w, 18144) == 2;
    assert Counter(c, w, 18145) == 3;
    assert Counter(c, w, 18146) == 3;
    assert Counter(c, w, 18147) == 3;
    assert Counter(c, w, 18148) == 4;
  }
}

=== FILE: dates.dfy ===
/** Calendar dates as day ordinals: the number of days since 1970-01-01 in the
    reference time zone. Stripping the time of day is therefore the identity,
    the day before `d` is `d - 1`, and the day after is `d + 1`. */
module Dates {
  import opened Wrappers

  type Date = int

  /** Foundation's `DateInterval`: both ends inclusive. Building one whose end
      precedes its start traps, so every constructed interval has start <= end. */
  datatype DateInterval = DateInterval(start: Date, end: Date)

  predicate Contains(iv: DateInterval, d: Date) {
    iv.start <= d <= iv.end
  }

  /** 0 = Monday, ..., 5 = Saturday, 6 = Sunday; 1970-01-01 was a Thursday. */
  function Weekday(d: Date): nat {
    (d + 3) % 7
  }

  /** The Gregorian weekend of the reference time zone. */
  predicate IsWeekend(d: Date) {
    Weekday(d) >= 5
  }

  /** ISO 8601 text handling is Foundation's, not part of this model: the
      full-date formatter and parser, and the stricter date-time parser used for
      the schedule release date, are passed in. */
  datatype DateCodec = DateCodec(
    format: Date -> string,
    parseDate: string -> Option<Date>,
    parseDateTime: string -> Option<int>)

  /** The full-date parser reads back what the formatter writes. */
  ghost predicate RoundTrips(codec: DateCodec) {
    forall d: Date :: codec.parseDate(codec.format(d)) == Some(d)
  }
}

=== FILE: day.dfy ===
/** The day variants and the `SchoolDay` time lookups (SevenPlusH/Day.swift).
    The back-reference from a day to its calendar is dropped: the lookups that
    need the calendar's timetable take it as an argument. */
module Days {
  import opened Wrappers
  import opened Errors
  import opened Text
  import opened Dates
  import opened Timetable

  /** `DayNumber`, a `UInt8`. */
  type DayNumber = UInt8

  datatype Day =
    | StandardDay(date: Date, number: DayNumber)
    | HalfDay(date: Date, description: string, blocks: seq<string>)
    | ExamDay(date: Date, description: string, blocks: seq<string>)
    | UnknownDay(date: Date, description: string)
    | Holiday(date: Date, description: string)
    | Weekend(date: Date)

  /** The dynamic type of a day, as compared with `type(of:)`. */
  datatype DayKind = StandardKind | HalfKind | ExamKind | UnknownKind | HolidayKind | WeekendKind

  function KindOf(d: Day): DayKind {
    match d
    case StandardDay(_, _) => StandardKind
    case HalfDay(_, _, _) => HalfKind
    case ExamDay(_, _, _) => ExamKind
    case UnknownDay(_, _) => UnknownKind
    case Holiday(_, _) => HolidayKind
    case Weekend(_) => WeekendKind
  }

  /** `is SchoolDay.Type`: `UnknownDay` conforms to `SchoolDay`, so it counts. */
  predicate IsSchoolKind(k: DayKind) {
    k == StandardKind || k == HalfKind || k == ExamKind || k == UnknownKind
  }

  const DefaultHalfDayDescription: string := "a half-day"
  const DefaultExamDayDescription: string := "an exam day"

  /** `description`. A weekend's description is the weekday name from a date
      formatter, which is not part of this model. */
  function Description(d: Day): (s: string)
    requires !d.Weekend?
    ensures d.StandardDay? ==> HasPrefix(s, "day ") && ParseNat(s[4..]) == Some(d.number)
    ensures !d.StandardDay? ==> s == d.description
  {
    if d.StandardDay? then
      ParseNatToString(d.number);
      "day " + NatToString(d.number)
    else d.description
  }

  /** A standard day's blocks are row `number - 1` of the rotation table; the
      subtraction traps for day number 0 and the index for a short table. */
  predicate HasBlocks(d: Day, tt: SphTimetable) {
    IsSchoolKind(KindOf(d)) && (d.StandardDay? ==> 1 <= d.number <= |tt.standardBlocks|)
  }

  /** `blocks` of a school day. */
  function Blocks(d: Day, tt: SphTimetable): (bs: seq<string>)
    requires HasBlocks(d, tt)
    ensures d.StandardDay? ==> bs == tt.standardBlocks[d.number - 1]
    ensures d.HalfDay? || d.ExamDay? ==> bs == d.blocks
    ensures d.UnknownDay? ==> bs == []
  {
    match d
    case StandardDay(_, n) => tt.standardBlocks[n - 1]
    case HalfDay(_, _, bs) => bs
    case ExamDay(_, _, bs) => bs
    case UnknownDay(_, _) => []
  }

  /** `periods` of a school day: shared per day type, empty for an unknown day. */
  function Periods(d: Day, tt: SphTimetable): (ps: seq<Period>)
    requires IsSchoolKind(KindOf(d))
    ensures d.StandardDay? ==> ps == tt.standardDayPeriods
    ensures d.HalfDay? ==> ps == tt.halfDayPeriods
    ensures d.ExamDay? ==> ps == tt.examDayPeriods
    ensures d.UnknownDay? ==> ps == []
  {
    match d
    case StandardDay(_, _) => tt.standardDayPeriods
    case HalfDay(_, _, _) => tt.halfDayPeriods
    case ExamDay(_, _, _) => tt.examDayPeriods
    case UnknownDay(_, _) => []
  }

  const DefaultStart: Time := MakeTime(7, 44)
  const DefaultEnd: Time := MakeTime(14, 20)

  /** `start`: the first period's start, or 7:44 when there are no periods. */
  function Start(periods: seq<Period>): (t: Time)
    ensures |periods| > 0 ==> t == periods[0].start
    ensures |periods| == 0 ==> t == Time(7, 44)
  {
    if |periods| > 0 then periods[0].start else DefaultStart
  }

  /** `end`: the last period's end, or 14:20 when there are no periods. */
  function End(periods: seq<Period>): (t: Time)
    ensures |periods| > 0 ==> t == periods[|periods| - 1].end
    ensures |periods| == 0 ==> t == Time(14, 20)
  {
    if |periods| > 0 then periods[|periods| - 1].end else DefaultEnd
  }

  /** A school day seen as a `TimeSpan`. */
  function Span(periods: seq<Period>): Period {
    Period(Start(periods), End(periods))
  }

  /** `periods.firstIndex { time.isInside($0) }`: the first index whose period
      includes `t`. */
  function FirstIncludingIndex(periods: seq<Period>, t: Time): (r: Option<nat>)
    ensures r.Some? ==> r.value < |periods| && Includes(periods[r.value], t)
                        && forall j :: 0 <= j < r.value ==> !Includes(periods[j], t)
    ensures r.None? ==> forall j :: 0 <= j < |periods| ==> !Includes(periods[j], t)
  {
    if |periods| == 0 then None
    else if Includes(periods[0], t) then Some(0)
    else match FirstIncludingIndex(periods[1..], t)
      case None => None
      case Some(i) => Some(i + 1)
  }

  /** `.map { UInt8($0) }` on an array index: an index past 255 traps. */
  function IndexAsUInt8(i: Option<nat>): (r: Result<Option<UInt8>, Error>)
    ensures i.None? ==> r == Success(None)
    ensures i.Some? && i.value < 256 ==> r == Success(Some(i.value))
    ensures i.Some? && i.value >= 256 ==> r == Failure(Trap("UInt8 conversion overflow"))
  {
    match i
    case None => Success(None)
    case Some(n) => if n < 256 then Success(Some(n)) else Failure(Trap("UInt8 conversion overflow"))
  }

  /** `periodIndex(at:)`: the first index whose period includes `t`, as a
      `UInt8`; a first match past index 255 traps in the conversion. */
  function PeriodIndex(periods: seq<Period>, t: Time): (r: Result<Option<UInt8>, Error>)
    ensures r.Success? && r.value.Some? ==>
      && r.value.value < |periods| && Includes(periods[r.value.value], t)
      && forall j :: 0 <= j < r.value.value ==> !Includes(periods[j], t)
    ensures r == Success(None) <==> forall j :: 0 <= j < |periods| ==> !Includes(periods[j], t)
    ensures r.Failure? <==>
      && (exists j :: 0 <= j < |periods| && Includes(periods[j], t))
      && (forall j :: 0 <= j < |periods| && j < 256 ==> !Includes(periods[j], t))
    ensures r.Failure? ==> r.error.Trap?
  {
    IndexAsUInt8(FirstIncludingIndex(periods, t))
  }

  /** `period(at:)`: the first period that includes `t`, found by its own scan. */
  function PeriodAt(periods: seq<Period>, t: Time): Option<Period> {
    if |periods| == 0 then None
    else if Includes(periods[0], t) then Some(periods[0])
    else PeriodAt(periods[1..], t)
  }

  /** `period(at:)` picks the period at the first including index, and is nil
      exactly when there is none. */
  lemma {:induction false} PeriodAtAgreesWithFirstIndex(periods: seq<Period>, t: Time)
    ensures FirstIncludingIndex(periods, t).None? <==> PeriodAt(periods, t).None?
    ensures FirstIncludingIndex(periods, t).Some? ==>
      PeriodAt(periods, t) == Some(periods[FirstIncludingIndex(periods, t).value])
  {
    if |periods| > 0 && !Includes(periods[0], t) {
      PeriodAtAgreesWithFirstIndex(periods[1..], t);
    }
  }

  /** `period(at:)` is the period at `periodIndex(at:)`, and nil exactly when
      the index is. */
  lemma PeriodAtAgreesWithIndex(periods: seq<Period>, t: Time)
    ensures PeriodIndex(periods, t) == Success(None) <==> PeriodAt(periods, t).None?
    ensures PeriodIndex(periods, t).Success? && PeriodIndex(periods, t).value.Some? ==>
      PeriodAt(periods, t) == Some(periods[PeriodIndex(periods, t).value.value])
  {
    PeriodAtAgreesWithFirstIndex(periods, t);
  }

  /** `periods.firstIndex { time.isBefore($0) }`: the first index whose period
      starts after `t`. */
  function FirstAfterIndex(periods: seq<Period>, t: Time): (r: Option<nat>)
    ensures r.Some? ==> r.value < |periods| && IsBefore(t, periods[r.value])
                        && forall j :: 0 <= j < r.value ==> !IsBefore(t, periods[j])
    ensures r.None? ==> forall j :: 0 <= j < |periods| ==> !IsBefore(t, periods[j])
  {
    if |periods| == 0 then None
    else if IsBefore(t, periods[0]) then Some(0)
    else match FirstAfterIndex(periods[1..], t)
      case None => None
      case Some(i) => Some(i + 1)
  }

  /** `nextPeriodIndex(at:)`: the first index whose period starts after `t`,
      as a `UInt8`; a first match past index 255 traps in the conversion. */
  function NextPeriodIndex(periods: seq<Period>, t: Time): (r: Result<Option<UInt8>, Error>)
    ensures r.Success? && r.value.Some? ==>
      && r.value.value < |periods| && IsBefore(t, periods[r.value.value])
      && forall j :: 0 <= j < r.value.value ==> !IsBefore(t, periods[j])
    ensures r == Success(None) <==> forall j :: 0 <= j < |periods| ==> !IsBefore(t, periods[j])
    ensures r.Failure? <==>
      && (exists j :: 0 <= j < |periods| && IsBefore(t, periods[j]))
      && (forall j :: 0 <= j < |periods| && j < 256 ==> !IsBefore(t, periods[j]))
    ensures r.Failure? ==> r.error.Trap?
  {
    IndexAsUInt8(FirstAfterIndex(periods, t))
  }

  /** `nextPeriod(at:)`. */
  function NextPeriod(periods: seq<Period>, t: Time): Option<Period> {
    if |periods| == 0 then None
    else if IsBefore(t, periods[0]) then Some(periods[0])
    else NextPeriod(periods[1..], t)
  }

  /** `nextPeriod(at:)` picks the period at the first index after `t`, and is
      nil exactly when there is none. */
  lemma {:induction false} NextPeriodAgreesWithFirstIndex(periods: seq<Period>, t: Time)
    ensures FirstAfterIndex(periods, t).None? <==> NextPeriod(periods, t).None?
    ensures FirstAfterIndex(periods, t).Some? ==>
      NextPeriod(periods, t) == Some(periods[FirstAfterIndex(periods, t).value])
  {
    if |periods| > 0 && !IsBefore(t, periods[0]) {
      NextPeriodAgreesWithFirstIndex(periods[1..], t);
    }
  }

  /** `nextPeriod(at:)` and `nextPeriodIndex(at:)` pick the same period. */
  lemma NextPeriodAgreesWithIndex(periods: seq<Period>, t: Time)
    ensures NextPeriodIndex(periods, t) == Success(None) <==> NextPeriod(periods, t).None?
    ensures NextPeriodIndex(periods, t).Success? && NextPeriodIndex(periods, t).value.Some? ==>
      NextPeriod(periods, t) == Some(periods[NextPeriodIndex(periods, t).value.value])
  {
    NextPeriodAgreesWithFirstIndex(periods, t);
  }

  /** A day of at most 256 periods never traps converting an index. */
  lemma ShortDayIndexesFit(periods: seq<Period>, t: Time)
    requires |periods| <= 256
    ensures PeriodIndex(periods, t).Success?
    ensures NextPeriodIndex(periods, t).Success?
  {
  }

  /** `block(at:)` succeeds when the period index converts and, if there is
      one, indexes into `blocks`. */
  predicate BlockLookupSafe(blocks: seq<string>, periods: seq<Period>, t: Time) {
    PeriodIndex(periods, t).Success?
    && (PeriodIndex(periods, t).value.Some? ==> PeriodIndex(periods, t).value.value < |blocks|)
  }

  /** `block(at:)`: the block of the period that includes `t`, or nil; the
      index conversion and `blocks[Int(index!)]` can both trap. */
  function BlockAt(blocks: seq<string>, periods: seq<Period>, t: Time): (r: Result<Option<string>, Error>)
    ensures r.Success? <==> BlockLookupSafe(blocks, periods, t)
    ensures r == Success(None) <==> forall j :: 0 <= j < |periods| ==> !Includes(periods[j], t)
    ensures r.Success? && r.value.Some? ==>
      (exists j :: 0 <= j < |periods| && j < |blocks| && Includes(periods[j], t) && r.value.value == blocks[j]
                   && (forall k :: 0 <= k < j ==> !Includes(periods[k], t)))
    ensures r.Failure? ==> r.error.Trap?
  {
    var index :- PeriodIndex(periods, t);
    match index
    case None => Success(None)
    case Some(i) => if i < |blocks| then Success(Some(blocks[i])) else Failure(Trap("index out of range"))
  }

  /** A day of at most 256 periods, with at least as many blocks as periods,
      never traps in `block(at:)`. */
  lemma BlockLookupSafeWhenLongEnough(blocks: seq<string>, periods: seq<Period>, t: Time)
    requires |periods| <= |blocks| && |periods| <= 256
    ensures BlockLookupSafe(blocks, periods, t)
  {
  }

  /** An unknown day has no periods, so every time lookup on it is nil. */
  lemma UnknownDayLookups(d: Day, tt: SphTimetable, t: Time)
    requires d.UnknownDay?
    ensures PeriodIndex(Periods(d, tt), t) == Success(None)
    ensures PeriodAt(Periods(d, tt), t).None?
    ensures NextPeriodIndex(Periods(d, tt), t) == Success(None)
    ensures NextPeriod(Periods(d, tt), t).None?
    ensures BlockAt(Blocks(d, tt), Periods(d, tt), t) == Success(None)
    ensures Start(Periods(d, tt)) == Time(7, 44) && End(Periods(d, tt)) == Time(14, 20)
  {
  }
}

=== FILE: day_briefing.dfy ===
/** The school-day briefing notification option (PreMatch/Notify/NODayBriefing.swift):
    its identifiers, the dates it yields, and the text of each briefing. The
    delivery time setting is passed in as the optional stored string. */
module DayBriefing {
  import opened Wrappers
  import opened Errors
  import opened Text
  import opened Dates
  import opened Timetable
  import opened Days
  import opened Json
  import opened Calendars
  import opened Schedules

  /** The option's identifier character, the first character of every
      identifier it schedules. */
  const OptionId: char := 'd'

  /** `humanFriendlyJoin`: "none", one item, "a and b", or a serial list with
      the Oxford comma. */
  function HumanFriendlyJoin(items: seq<string>): (s: string)
    ensures |items| == 0 ==> s == "none"
    ensures |items| == 1 ==> s == items[0]
    ensures |items| == 2 ==> s == items[0] + " and " + items[1]
  {
    if |items| == 0 then "none"
    else if |items| == 1 then items[0]
    else if |items| == 2 then
      assert Join(items[1..], " and ") == items[1];
      Join(items, " and ")
    else Join(items[..|items| - 1], ", ") + ", and " + items[|items| - 1]
  }

  /** A serial list built from the front: "a, b, and c". */
  function SerialList(items: seq<string>): string
    requires |items| >= 2
  {
    if |items| == 2 then items[0] + ", and " + items[1]
    else items[0] + ", " + SerialList(items[1..])
  }

  /** For three or more items the join is the serial list. */
  lemma {:induction false} HumanFriendlyJoinIsSerialList(items: seq<string>)
    requires |items| >= 3
    ensures HumanFriendlyJoin(items) == SerialList(items)
  {
    var n := |items|;
    if n == 3 {
      var front := items[..2];
      assert front[1..] == [items[1]];
      assert Join(front, ", ") == items[0] + ", " + items[1];
      assert items[1..][1..] == [items[2]];
      assert SerialList(items[1..]) == items[1] + ", and " + items[2];
    } else {
      var rest := items[1..];
      HumanFriendlyJoinIsSerialList(rest);
      assert items[..n - 1][1..] == rest[..|rest| - 1];
      assert items[..n - 1][0] == items[0];
    }
  }

  lemma HumanFriendlyJoinExamples()
    ensures HumanFriendlyJoin(["Bach", "Caveney", "Emery"]) == "Bach, Caveney, and Emery"
    ensures HumanFriendlyJoin(["Bach", "DiBenedetto"]) == "Bach and DiBenedetto"
    ensures HumanFriendlyJoin(["Aubrey"]) == "Aubrey"
    ensures HumanFriendlyJoin([]) == "none"
  {
    HumanFriendlyJoinIsSerialList(["Bach", "Caveney", "Emery"]);
  }

  /** A teacher for the briefing, `(try? teacher(for:in:)) ?? "(unknown)"`: a
      thrown error reads "(unknown)", but a trap inside the lookup is not
      caught and stops the briefing. */
  function TeacherOrUnknown(s: Schedule, block: string, semester: UInt8): (r: Result<string, Error>)
    ensures Teacher(s, block, semester).Success? ==> r == Teacher(s, block, semester)
    ensures Teacher(s, block, semester).Failure? && Teacher(s, block, semester).error.Trap? ==>
      r == Teacher(s, block, semester)
    ensures Teacher(s, block, semester).Failure? && !Teacher(s, block, semester).error.Trap? ==>
      r == Success("(unknown)")
  {
    match Teacher(s, block, semester)
    case Success(name) => Success(name)
    case Failure(Trap(reason)) => Failure(Trap(reason))
    case Failure(_) => Success("(unknown)")
  }

  /** On a schedule that applies, the lookup never traps below the last
      semester index: a known block in a known semester gives its teacher, and
      anything else reads "(unknown)". */
  lemma TeacherOrUnknownOfBuiltSchedule(mapping: map<string, string>, cal: Calendar, block: string, semester: UInt8)
    requires Init(mapping, cal).Success?
    requires semester < 255
    ensures block in cal.allBlocks && semester < |cal.semesters| ==>
      TeacherOrUnknown(Init(mapping, cal).value, block, semester) == Success(mapping[Key(block, semester)])
    ensures !(block in cal.allBlocks && semester < |cal.semesters|) ==>
      TeacherOrUnknown(Init(mapping, cal).value, block, semester) == Success("(unknown)")
  {
    TeacherOfBuiltSchedule(mapping, cal, block, semester);
    var s := Init(mapping, cal).value;
    if !(block in cal.allBlocks && semester < |cal.semesters|) {
      assert s.calendar == cal;
    }
  }

  /** `TeacherOrUnknown` for one schedule and semester, as the element reader of `map`. */
  function TeacherLookup(s: Schedule, semester: UInt8): string -> Result<string, Error> {
    (block: string) => TeacherOrUnknown(s, block, semester)
  }

  /** `dayText(for:initial:)`: the opening words, the day's blocks run together
      and a full stop; with a schedule, the teachers of those blocks in the
      semester of the day. Both the day's blocks and the semester index are
      unwrapped without a check and trap when missing, and a teacher lookup
      that traps stops the text. */
  function DayText(cal: Calendar, schedule: Option<Schedule>, day: Day, initial: string): (r: Result<string, Error>)
    requires IsSchoolKind(KindOf(day))
    ensures r.Success? <==> (HasBlocks(day, cal.timetable)
                             && (schedule.Some? ==>
                                   && SemesterIndexOf(cal, day.date).Some?
                                   && forall i :: 0 <= i < |Blocks(day, cal.timetable)| ==>
                                        TeacherOrUnknown(schedule.value, Blocks(day, cal.timetable)[i],
                                                         SemesterIndexOf(cal, day.date).value).Success?))
    ensures r.Success? && schedule.None? ==>
      r.value == initial + " " + Concat(Blocks(day, cal.timetable)) + "."
    ensures r.Success? && schedule.Some? ==>
      var blocks := Blocks(day, cal.timetable);
      var teachers := MapResult(blocks, TeacherLookup(schedule.value, SemesterIndexOf(cal, day.date).value));
      && teachers.Success?
      && r.value == initial + " " + Concat(blocks) + "." + " Your teachers for today are "
                    + HumanFriendlyJoin(teachers.value) + "."
  {
    if !HasBlocks(day, cal.timetable) then Failure(Trap("index out of range"))
    else
      var blocks := Blocks(day, cal.timetable);
      var part1 := initial + " " + Concat(blocks) + ".";
      match schedule
      case None => Success(part1)
      case Some(s) =>
        match SemesterIndexOf(cal, day.date)
        case None => Failure(Trap("semesterIndexOf is nil"))
        case Some(semester) =>
          if forall i :: 0 <= i < |blocks| ==> TeacherOrUnknown(s, blocks[i], semester).Success? then
            MapResultAllSucceed(blocks, TeacherLookup(s, semester));
            var teachers := MapResult(blocks, TeacherLookup(s, semester)).value;
            Success(part1 + " Your teachers for today are " + HumanFriendlyJoin(teachers) + ".")
          else
            MapResult(blocks, TeacherLookup(s, semester)).PropagateFailure()
  }

  /** `identifier(for:)`: the option character and the ISO date. */
  function Identifier(codec: DateCodec, d: Date): (id: string)
    ensures |id| > 0 && id[0] == OptionId && id[1..] == codec.format(d)
  {
    [OptionId] + codec.format(d)
  }

  /** An identifier is the option character followed by the formatted date,
      and nothing else is. */
  lemma IdentifierIsOptionAndDate(codec: DateCodec, d: Date, id: string)
    ensures Identifier(codec, d) == id <==> |id| > 0 && id[0] == OptionId && id[1..] == codec.format(d)
  {
    if |id| > 0 && id[0] == OptionId && id[1..] == codec.format(d) {
      assert id == [id[0]] + id[1..];
    }
  }

  /** `date(for:)`: the date after the first character, force-unwrapped. */
  function DateFor(codec: DateCodec, id: string): (r: Result<Date, Error>)
    ensures r.Success? <==> codec.parseDate(if |id| == 0 then "" else id[1..]).Some?
    ensures r.Success? ==> Some(r.value) == codec.parseDate(if |id| == 0 then "" else id[1..])
  {
    match codec.parseDate(if |id| == 0 then "" else id[1..])
    case Some(d) => Success(d)
    case None => Failure(Trap("date(for:) on an identifier without a date"))
  }

  /** `date(for:)` inverts `identifier(for:)`. */
  lemma DateForIdentifier(codec: DateCodec, d: Date)
    requires RoundTrips(codec)
    ensures DateFor(codec, Identifier(codec, d)) == Success(d)
  {
  }

  predicate IsUInt8Text(s: string) {
    ParseNat(s).Some? && ParseNat(s).value < 256
  }

  /** `parseTime`: "H:M" split at colons, every piece forced to a `UInt8`, the
      first two returned. A piece that is not a `UInt8`, or fewer than two
      pieces, trap. */
  function ParseTime(text: string): (r: Result<(UInt8, UInt8), Error>)
    ensures r.Success? <==>
      var pieces := Split(text, ':');
      |pieces| >= 2 && forall k :: 0 <= k < |pieces| ==> IsUInt8Text(pieces[k])
    ensures r.Success? ==>
      Some(r.value.0 as nat) == ParseNat(Split(text, ':')[0]) && Some(r.value.1 as nat) == ParseNat(Split(text, ':')[1])
  {
    var pieces := Split(text, ':');
    if exists k :: 0 <= k < |pieces| && !IsUInt8Text(pieces[k]) then Failure(Trap("UInt8(_:) of a non-number"))
    else if |pieces| < 2 then Failure(Trap("index out of range"))
    else Success((ParseNat(pieces[0]).value, ParseNat(pieces[1]).value))
  }

  lemma DigitsHaveNoColon(s: string)
    requires AllDigits(s)
    ensures ':' !in s
  {
  }

  /** The stored "hour:minute" text reads back as that hour and minute. */
  lemma ParseTimeRoundTrip(hour: UInt8, minute: UInt8)
    ensures ParseTime(NatToString(hour) + ":" + NatToString(minute)) == Success((hour, minute))
  {
    var h, m := NatToString(hour), NatToString(minute);
    DigitsHaveNoColon(h);
    DigitsHaveNoColon(m);
    SplitAroundOne(h, ':', m);
    assert h + ":" + m == h + [':'] + m;
    ParseNatToString(hour);
    ParseNatToString(minute);
  }

  /** A scheduled briefing: identifier, title, body and the trigger's date,
      hour and minute. */
  datatype Briefing = Briefing(identifier: string, title: string, body: string, date: Date, hour: UInt8, minute: UInt8)

  const DailyTitle: string := "Your Daily Briefing"
  const HalfDayTitle: string := "Your Half Day Briefing"
  const ExamDayTitle: string := "Your Exam Day Briefing"
  const ExamDaySuffix: string := " Good luck!"

  /** `requestForDay`: the body is the day text followed by the suffix; the
      trigger fires on the day at the stored time. */
  function RequestForDay(codec: DateCodec, cal: Calendar, schedule: Option<Schedule>, day: Day,
                         title: string, suffix: string, initial: string, notifyTime: string): (r: Result<Briefing, Error>)
    requires IsSchoolKind(KindOf(day))
    ensures r.Success? <==> DayText(cal, schedule, day, initial).Success? && ParseTime(notifyTime).Success?
    ensures r.Success? ==> r.value == Briefing(Identifier(codec, day.date), title,
      DayText(cal, schedule, day, initial).value + suffix, day.date,
      ParseTime(notifyTime).value.0, ParseTime(notifyTime).value.1)
  {
    var text :- DayText(cal, schedule, day, initial);
    var time :- ParseTime(notifyTime);
    Success(Briefing(Identifier(codec, day.date), title, text + suffix, day.date, time.0, time.1))
  }

  /** The days a briefing is written for. */
  predicate IsBriefingKind(day: Day) {
    day.StandardDay? || day.HalfDay? || day.ExamDay?
  }

  /** The title of each kind of briefing. */
  function Title(day: Day): string
    requires IsBriefingKind(day)
  {
    if day.StandardDay? then DailyTitle else if day.HalfDay? then HalfDayTitle else ExamDayTitle
  }

  /** The opening words of each kind of briefing. */
  function Opening(day: Day): string
    requires IsBriefingKind(day)
  {
    match day
    case StandardDay(_, n) => "Today is a Day " + NatToString(n) + " with blocks"
    case HalfDay(_, _, _) => "Today is a half day with blocks"
    case ExamDay(_, _, _) => "Today is an exam day with blocks"
  }

  /** The words after the text: only the exam day has any. */
  function Suffix(day: Day): string
    requires IsBriefingKind(day)
  {
    if day.ExamDay? then ExamDaySuffix else ""
  }

  /** `scheduleNotification(withIdentifier:)`: a missing time setting is
      `badSettings`; the day of the identifier picks the title, the opening
      words and the suffix; any other kind of day is a fatal error. */
  function ScheduleNotification(codec: DateCodec, cal: Calendar, schedule: Option<Schedule>,
                                notifyTime: Option<string>, id: string): (r: Result<Briefing, Error>)
    ensures notifyTime.None? ==> r == Failure(BadSettings("Missing time for day briefings"))
    ensures notifyTime.Some? && DateFor(codec, id).Success? && DayOn(cal, DateFor(codec, id).value).Failure? ==>
      r == Failure(CalendarOutOfRange)
    ensures (notifyTime.Some? && DateFor(codec, id).Success? && DayOn(cal, DateFor(codec, id).value).Success?
             && !IsBriefingKind(DayOn(cal, DateFor(codec, id).value).value)) ==>
      r == Failure(Trap("identifier with unsupported day encountered"))
    ensures r.Success? ==>
      && DateFor(codec, id).Success? && r.value.date == DateFor(codec, id).value
      && DayOn(cal, r.value.date).Success?
      && var day := DayOn(cal, r.value.date).value;
         && IsBriefingKind(day)
         && r.value.identifier == Identifier(codec, r.value.date)
         && r.value.title == Title(day)
         && HasPrefix(r.value.body, Opening(day))
         && (day.ExamDay? ==> r.value.body[|r.value.body| - |ExamDaySuffix|..] == ExamDaySuffix)
  {
    match notifyTime
    case None => Failure(BadSettings("Missing time for day briefings"))
    case Some(time) =>
      var theDate :- DateFor(codec, id);
      var day :- DayOn(cal, theDate);
      if IsBriefingKind(day) then
        var r := RequestForDay(codec, cal, schedule, day, Title(day), Suffix(day), Opening(day), time);
        assert r.Success? ==> HasPrefix(r.value.body, Opening(day)) by {
          if r.Success? {
            var t := DayText(cal, schedule, day, Opening(day)).value;
            assert r.value.body == t + Suffix(day);
          }
        }
        r
      else Failure(Trap("identifier with unsupported day encountered"))
  }

  /** The whole briefing for an identifier whose day has a text and whose time
      setting reads as a time. */
  lemma BriefingOfDay(codec: DateCodec, cal: Calendar, schedule: Option<Schedule>,
                       time: string, id: string, day: Day)
    requires DateFor(codec, id).Success? && DayOn(cal, DateFor(codec, id).value) == Success(day)
    requires IsBriefingKind(day)
    requires DayText(cal, schedule, day, Opening(day)).Success? && ParseTime(time).Success?
    ensures ScheduleNotification(codec, cal, schedule, Some(time), id) ==
      Success(Briefing(Identifier(codec, day.date), Title(day), DayText(cal, schedule, day, Opening(day)).value + Suffix(day),
                       day.date, ParseTime(time).value.0, ParseTime(time).value.1))
  {
  }

  /** A date the briefing is sent for: a standard, half or exam day. */
  predicate IsBriefingDay(cal: Calendar, d: Date) {
    var day := DayOn(cal, d);
    day.Success? && (day.value.StandardDay? || day.value.HalfDay? || day.value.ExamDay?)
  }

  /** The same test through the day type, which does not need the day number. */
  lemma BriefingDayByType(cal: Calendar, d: Date)
    ensures IsBriefingDay(cal, d) <==>
      DayType(cal, d, true) in {Some(StandardKind), Some(HalfKind), Some(ExamKind)}
  {
  }

  /** The inner loop of `notificationIdentifiers(from:)`: the next day after
      `d`, stopping at the first date outside the calendar or the first
      briefing day. */
  function NextBriefingDate(cal: Calendar, d: Date): (n: Date)
    ensures n > d
    ensures forall k :: d < k < n ==> InCalendar(cal, k) && !IsBriefingDay(cal, k)
    ensures !InCalendar(cal, n) || IsBriefingDay(cal, n)
    decreases cal.interval.end - d
  {
    var next := d + 1;
    if !InCalendar(cal, next) || IsBriefingDay(cal, next) then next
    else NextBriefingDate(cal, next)
  }

  /** The dates `notificationIdentifiers(from:)` yields, in order: `from`
      itself, then each next date, while not past the calendar's end. */
  function BriefingDates(cal: Calendar, from: Date): (ds: seq<Date>)
    ensures from > cal.interval.end ==> ds == []
    ensures from <= cal.interval.end ==> |ds| > 0 && ds[0] == from
    ensures forall i :: 0 <= i < |ds| ==> from <= ds[i] <= cal.interval.end
    ensures forall i, j :: 0 <= i < j < |ds| ==> ds[i] < ds[j]
    decreases cal.interval.end - from
  {
    if from > cal.interval.end then []
    else [from] + BriefingDates(cal, NextBriefingDate(cal, from))
  }

  /** After the first, exactly the dates up to the end that are outside the
      calendar or are briefing days are yielded. */
  lemma {:induction false} BriefingDatesMembership(cal: Calendar, from: Date, k: Date)
    requires from < k <= cal.interval.end
    ensures k in BriefingDates(cal, from) <==> !InCalendar(cal, k) || IsBriefingDay(cal, k)
    decreases cal.interval.end - from
  {
    var next := NextBriefingDate(cal, from);
    var rest := BriefingDates(cal, next);
    assert BriefingDates(cal, from) == [from] + rest;
    if k < next {
      assert k !in rest;
    } else if k == next {
      assert rest[0] == k;
    } else {
      BriefingDatesMembership(cal, next, k);
    }
  }

  /** `notificationIdentifiers(from:)`: each yielded date with its identifier. */
  function NotificationIdentifiers(codec: DateCodec, cal: Calendar, from: Date): (r: seq<(string, Date)>)
    ensures |r| == |BriefingDates(cal, from)|
    ensures forall i :: 0 <= i < |r| ==>
      r[i].1 == BriefingDates(cal, from)[i] && r[i].0 == Identifier(codec, r[i].1)
  {
    var ds := BriefingDates(cal, from);
    seq(|ds|, i requires 0 <= i < |ds| => (Identifier(codec, ds[i]), ds[i]))
  }
}

=== FILE: definition_reader.dfy ===
/** Reading a whole calendar definition (SevenPlusH/DefinitionReader.swift).
    Fields are read in the order the source evaluates them, so the first
    problem met is the one reported. */
module DefinitionReader {
  import opened Wrappers
  import opened Errors
  import opened Dates
  import opened Timetable
  import opened Exclusions
  import opened Json
  import opened Calendars
  import opened ExclusionParser

  /** `Time.fromJSON`: `[hour, minute]`, each an eight-bit number, reduced
      modulo 24 and 60; otherwise `invalidFormat("time", stringValue)`. */
  function TimeFromJson(j: Json): (r: Result<Time, Error>)
    ensures r.Success? <==> AsUInt8(At(j, 0)).Some? && AsUInt8(At(j, 1)).Some?
    ensures r.Success? ==> r.value == MakeTime(AsUInt8(At(j, 0)).value, AsUInt8(At(j, 1)).value)
    ensures r.Failure? ==> r.error == InvalidFormat("time", StringValue(j))
  {
    var hour := AsUInt8(At(j, 0));
    var minute := AsUInt8(At(j, 1));
    if hour.None? || minute.None? then Failure(InvalidFormat("time", StringValue(j)))
    else Success(MakeTime(hour.value, minute.value))
  }

  /** `Period.fromJSON`: `[[h, m], [h, m]]`, start time read first. */
  function PeriodFromJson(j: Json): (r: Result<Period, Error>)
    ensures r.Success? <==> TimeFromJson(At(j, 0)).Success? && TimeFromJson(At(j, 1)).Success?
    ensures r.Success? ==> r.value == MakePeriod(TimeFromJson(At(j, 0)).value, TimeFromJson(At(j, 1)).value)
    ensures r.Success? ==> Ordered(r.value)
  {
    var start :- TimeFromJson(At(j, 0));
    var end :- TimeFromJson(At(j, 1));
    Success(MakePeriod(start, end))
  }

  /** `readPeriods(from:name:)`: a required array of periods. */
  function ReadPeriods(j: Json, name: string): (r: Result<seq<Period>, Error>)
    ensures !j.JArray? ==> r == Failure(MissingField(name))
    ensures r.Success? ==>
      (j.JArray? && |r.value| == |j.items|
       && forall i :: 0 <= i < |j.items| ==> PeriodFromJson(j.items[i]) == Success(r.value[i]))
  {
    var items :- RequiredField(name, AsArray(j));
    MapResult(items, PeriodFromJson)
  }

  function TimeToJson(t: Time): Json {
    JArray([JNumber(t.hour), JNumber(t.minute)])
  }

  function PeriodToJson(p: Period): Json {
    JArray([TimeToJson(p.start), TimeToJson(p.end)])
  }

  /** A valid time reads back from `[hour, minute]`. */
  lemma TimeRoundTrip(t: Time)
    requires t.Valid()
    ensures TimeFromJson(TimeToJson(t)) == Success(t)
  {
  }

  /** An ordered period of valid times reads back from its encoding. */
  lemma PeriodRoundTrip(p: Period)
    requires p.start.Valid() && p.end.Valid() && Ordered(p)
    ensures PeriodFromJson(PeriodToJson(p)) == Success(p)
  {
    TimeRoundTrip(p.start);
    TimeRoundTrip(p.end);
    TimeOrderIsTotal(p.start, p.end);
  }

  /** `parseJsonDate`: the `yyyy-MM-dd'T'HH:mm:ss` release date, or
      `invalidFormat("schedule release date", text)`. */
  function ParseJsonDate(codec: DateCodec, s: string): (r: Result<int, Error>)
    ensures codec.parseDateTime(s).Some? ==> r == Success(codec.parseDateTime(s).value)
    ensures codec.parseDateTime(s).None? ==> r == Failure(InvalidFormat("schedule release date", s))
  {
    match codec.parseDateTime(s)
    case Some(t) => Success(t)
    case None => Failure(InvalidFormat("schedule release date", s))
  }

  function BlockString(j: Json): Result<string, Error> {
    RequiredField("standard day block string", AsString(j))
  }

  /** One row of `day_blocks`: a required array of required strings. */
  function DayBlockRow(j: Json): (r: Result<seq<string>, Error>)
    ensures !j.JArray? ==> r == Failure(MissingField("standard day block array"))
    ensures j.JArray? && (exists i :: 0 <= i < |j.items| && !j.items[i].JString?) ==>
      r == Failure(MissingField("standard day block string"))
    ensures r.Success? <==> j.JArray? && forall i :: 0 <= i < |j.items| ==> j.items[i].JString?
    ensures r.Success? ==>
      (j.JArray? && |r.value| == |j.items|
       && forall i :: 0 <= i < |j.items| ==> j.items[i] == JString(r.value[i]))
  {
    var items :- RequiredField("standard day block array", AsArray(j));
    var r := MapResult(items, BlockString);
    if forall i :: 0 <= i < |items| ==> items[i].JString? then
      MapResultAllSucceed(items, BlockString);
      r
    else
      r
  }

  /** `parseISODate($0.stringValue)` for one codec, as the element reader of `map`. */
  function SemesterDate(codec: DateCodec): Json -> Result<Date, Error> {
    (x: Json) => ParseISODate(codec, StringValue(x))
  }

  /** Every element of a semester array reads as a date. */
  predicate SemesterDatesParse(codec: DateCodec, items: seq<Json>) {
    forall i :: 0 <= i < |items| ==> codec.parseDate(StringValue(items[i])).Some?
  }

  /** One semester: an array of dates, every element parsed through
      `stringValue`; the first two make the interval. The first element that
      does not parse is reported; fewer than two dates, or an end before the
      start, trap. */
  function SemesterFromJson(codec: DateCodec, j: Json): (r: Result<DateInterval, Error>)
    ensures !j.JArray? ==> r == Failure(MissingField("semester date interval"))
    ensures forall k :: j.JArray? && 0 <= k < |j.items| && codec.parseDate(StringValue(j.items[k])).None?
                        && (forall i :: 0 <= i < k ==> codec.parseDate(StringValue(j.items[i])).Some?) ==>
                          r == Failure(InvalidFormat("Date", StringValue(j.items[k])))
    ensures j.JArray? && SemesterDatesParse(codec, j.items) && |j.items| < 2 ==>
      r == Failure(Trap("index out of range"))
    ensures j.JArray? && SemesterDatesParse(codec, j.items) && |j.items| >= 2
            && codec.parseDate(StringValue(j.items[1])).value < codec.parseDate(StringValue(j.items[0])).value ==>
      r == Failure(Trap("DateInterval with end before start"))
    ensures r.Success? <==>
      && j.JArray? && SemesterDatesParse(codec, j.items) && |j.items| >= 2
      && codec.parseDate(StringValue(j.items[0])).value <= codec.parseDate(StringValue(j.items[1])).value
    ensures r.Success? ==>
      (j.JArray? && |j.items| >= 2 && r.value.start <= r.value.end
       && codec.parseDate(StringValue(j.items[0])) == Some(r.value.start)
       && codec.parseDate(StringValue(j.items[1])) == Some(r.value.end))
  {
    var items :- RequiredField("semester date interval", AsArray(j));
    var dates :- MapResult(items, SemesterDate(codec));
    if |dates| < 2 then Failure(Trap("index out of range"))
    else if dates[1] < dates[0] then Failure(Trap("DateInterval with end before start"))
    else Success(DateInterval(dates[0], dates[1]))
  }

  /** A semester written as its two formatted dates. */
  function SemesterToJson(codec: DateCodec, iv: DateInterval): Json {
    JArray([JString(codec.format(iv.start)), JString(codec.format(iv.end))])
  }

  /** An ordered semester written as two dates reads back as itself. */
  lemma SemesterRoundTrip(codec: DateCodec, iv: DateInterval)
    requires RoundTrips(codec)
    requires iv.start <= iv.end
    ensures SemesterFromJson(codec, SemesterToJson(codec, iv)) == Success(iv)
  {
    var j := SemesterToJson(codec, iv);
    assert codec.parseDate(StringValue(j.items[0])) == Some(iv.start);
    assert codec.parseDate(StringValue(j.items[1])) == Some(iv.end);
  }

  /** The first three fields `read` takes: the block names and the
      definition's start and end dates. */
  datatype BlocksAndDates = BlocksAndDates(blocks: seq<Json>, start: Date, end: Date)

  function ReadDates(codec: DateCodec, json: Json): (r: Result<BlocksAndDates, Error>)
    ensures !Field(json, "blocks").JArray? ==> r == Failure(MissingField("blocks"))
    ensures Field(json, "blocks").JArray? && DefinitionDate(codec, json, "start_date", "start date").Failure? ==>
      r == Failure(DefinitionDate(codec, json, "start_date", "start date").error)
    ensures Field(json, "blocks").JArray? && DefinitionDate(codec, json, "start_date", "start date").Success?
            && DefinitionDate(codec, json, "end_date", "end date").Failure? ==>
      r == Failure(DefinitionDate(codec, json, "end_date", "end date").error)
    ensures r.Success? ==>
      && Field(json, "blocks") == JArray(r.value.blocks)
      && DefinitionDate(codec, json, "start_date", "start date") == Success(r.value.start)
      && DefinitionDate(codec, json, "end_date", "end date") == Success(r.value.end)
  {
    var blocks :- RequiredField("blocks", AsArray(Field(json, "blocks")));
    var startDate :- DefinitionDate(codec, json, "start_date", "start date");
    var endDate :- DefinitionDate(codec, json, "end_date", "end date");
    Success(BlocksAndDates(blocks, startDate, endDate))
  }

  /** `SemesterFromJson` for one codec, as the element reader of `map`. */
  function SemesterReader(codec: DateCodec): Json -> Result<DateInterval, Error> {
    (j: Json) => SemesterFromJson(codec, j)
  }

  /** The collections `read` takes next: the exclusion and override arrays
      (parsed later), the rotation rows and the semesters. */
  datatype Collections = Collections(
    exclusionJsons: seq<Json>, overrideJsons: seq<Json>, dayBlocks: seq<seq<string>>, semesters: seq<DateInterval>)

  function ReadCollections(codec: DateCodec, json: Json): (r: Result<Collections, Error>)
    ensures !Field(json, "exclusions").JArray? ==> r == Failure(MissingField("exclusions"))
    ensures Field(json, "exclusions").JArray? && !Field(json, "overrides").JArray? ==>
      r == Failure(MissingField("overrides"))
    ensures Field(json, "exclusions").JArray? && Field(json, "overrides").JArray? && !Field(json, "day_blocks").JArray? ==>
      r == Failure(MissingField("standard day blocks collection"))
    ensures Field(json, "exclusions").JArray? && Field(json, "overrides").JArray? && Field(json, "day_blocks").JArray?
            && MapResult(Field(json, "day_blocks").items, DayBlockRow).Failure? ==>
      r == Failure(MapResult(Field(json, "day_blocks").items, DayBlockRow).error)
    ensures Field(json, "exclusions").JArray? && Field(json, "overrides").JArray? && Field(json, "day_blocks").JArray?
            && MapResult(Field(json, "day_blocks").items, DayBlockRow).Success? && !Field(json, "semesters").JArray? ==>
      r == Failure(MissingField("semesters"))
    ensures Field(json, "exclusions").JArray? && Field(json, "overrides").JArray? && Field(json, "day_blocks").JArray?
            && MapResult(Field(json, "day_blocks").items, DayBlockRow).Success? && Field(json, "semesters").JArray?
            && MapResult(Field(json, "semesters").items, SemesterReader(codec)).Failure? ==>
      r == Failure(MapResult(Field(json, "semesters").items, SemesterReader(codec)).error)
    ensures r.Success? ==>
      && Field(json, "exclusions") == JArray(r.value.exclusionJsons)
      && Field(json, "overrides") == JArray(r.value.overrideJsons)
      && Field(json, "day_blocks").JArray? && |r.value.dayBlocks| == |Field(json, "day_blocks").items|
      && (forall i :: 0 <= i < |r.value.dayBlocks| ==>
            DayBlockRow(Field(json, "day_blocks").items[i]) == Success(r.value.dayBlocks[i]))
      && Field(json, "semesters").JArray? && |r.value.semesters| == |Field(json, "semesters").items|
      && (forall i :: 0 <= i < |r.value.semesters| ==>
            SemesterFromJson(codec, Field(json, "semesters").items[i]) == Success(r.value.semesters[i]))
  {
    var exclusionJsons :- RequiredField("exclusions", AsArray(Field(json, "exclusions")));
    var overrideJsons :- RequiredField("overrides", AsArray(Field(json, "overrides")));
    var dayBlockJsons :- RequiredField("standard day blocks collection", AsArray(Field(json, "day_blocks")));
    var dayBlocks :- MapResult(dayBlockJsons, DayBlockRow);
    var semesterJsons :- RequiredField("semesters", AsArray(Field(json, "semesters")));
    var semesters :- MapResult(semesterJsons, SemesterReader(codec));
    Success(Collections(exclusionJsons, overrideJsons, dayBlocks, semesters))
  }

  /** The scalars `read` takes last: the release date, the name, the version
      and the cycle size. */
  datatype Scalars = Scalars(releaseDate: int, name: string, version: int, cycleSize: UInt8)

  function ReadScalars(codec: DateCodec, json: Json): (r: Result<Scalars, Error>)
    ensures !Field(json, "schedule_release").JString? ==> r == Failure(MissingField("schedule release date"))
    ensures Field(json, "schedule_release").JString? && codec.parseDateTime(Field(json, "schedule_release").s).None? ==>
      r == Failure(InvalidFormat("schedule release date", Field(json, "schedule_release").s))
    ensures Field(json, "schedule_release").JString? && codec.parseDateTime(Field(json, "schedule_release").s).Some?
            && !Field(json, "name").JString? ==>
      r == Failure(MissingField("definition name"))
    ensures Field(json, "schedule_release").JString? && codec.parseDateTime(Field(json, "schedule_release").s).Some?
            && Field(json, "name").JString? && AsNumber(Field(json, "version")).None? ==>
      r == Failure(MissingField("version"))
    ensures Field(json, "schedule_release").JString? && codec.parseDateTime(Field(json, "schedule_release").s).Some?
            && Field(json, "name").JString? && AsNumber(Field(json, "version")).Some?
            && AsUInt8(Field(json, "cycle_size")).None? ==>
      r == Failure(MissingField("cycle size"))
    ensures r.Success? ==>
      && Field(json, "schedule_release").JString?
      && codec.parseDateTime(Field(json, "schedule_release").s) == Some(r.value.releaseDate)
      && Field(json, "name") == JString(r.value.name)
      && AsNumber(Field(json, "version")) == Some(r.value.version)
      && AsUInt8(Field(json, "cycle_size")) == Some(r.value.cycleSize)
  {
    var releaseIso :- RequiredField("schedule release date", AsString(Field(json, "schedule_release")));
    var releaseDate :- ParseJsonDate(codec, releaseIso);
    var name :- RequiredField("definition name", AsString(Field(json, "name")));
    var version :- RequiredField("version", AsNumber(Field(json, "version")));
    var cycleSize :- RequiredField("cycle size", AsUInt8(Field(json, "cycle_size")));
    Success(Scalars(releaseDate, name, version, cycleSize))
  }

  /** The fields `read` takes before it builds the calendar's interval, in the
      order it takes them: the first stage to fail gives the error. */
  datatype Header = Header(dates: BlocksAndDates, collections: Collections, scalars: Scalars)

  function ReadHeader(codec: DateCodec, json: Json): (r: Result<Header, Error>)
    ensures ReadDates(codec, json).Failure? ==> r == Failure(ReadDates(codec, json).error)
    ensures ReadDates(codec, json).Success? && ReadCollections(codec, json).Failure? ==>
      r == Failure(ReadCollections(codec, json).error)
    ensures ReadDates(codec, json).Success? && ReadCollections(codec, json).Success? && ReadScalars(codec, json).Failure? ==>
      r == Failure(ReadScalars(codec, json).error)
    ensures r.Success? ==>
      && ReadDates(codec, json) == Success(r.value.dates)
      && ReadCollections(codec, json) == Success(r.value.collections)
      && ReadScalars(codec, json) == Success(r.value.scalars)
  {
    var dates :- ReadDates(codec, json);
    var collections :- ReadCollections(codec, json);
    var scalars :- ReadScalars(codec, json);
    Success(Header(dates, collections, scalars))
  }

  /** Exclusions parsed against the definition all fit its interval and cycle. */
  lemma ParsedExclusionsFit(codec: DateCodec, json: Json, jsons: seq<Json>, exs: seq<Exclusion>,
                            interval: DateInterval, cycleSize: UInt8)
    requires DefinitionInterval(codec, json) == Some(interval)
    requires AsUInt8(Field(json, "cycle_size")) == Some(cycleSize)
    requires |exs| == |jsons| && forall i :: 0 <= i < |jsons| ==> Parse(codec, jsons[i], json) == Success(exs[i])
    ensures forall i :: 0 <= i < |exs| ==> ExclusionFits(exs[i], interval, cycleSize)
  {
    forall i | 0 <= i < |exs| ensures ExclusionFits(exs[i], interval, cycleSize) {
      ParsedExclusionFits(codec, jsons[i], json);
    }
  }

  /** `parseExclusion(_:inDef:)` against one definition, as the element reader of `map`. */
  function ParserFor(codec: DateCodec, def: Json): Json -> Result<Exclusion, Error> {
    (j: Json) => Parse(codec, j, def)
  }

  /** The parts `read` takes after the interval: the exclusions and overrides,
      each parsed against the definition, then the three period lists. */
  datatype Body = Body(
    exclusions: seq<Exclusion>, overrides: seq<Exclusion>,
    standardPeriods: seq<Period>, halfDayPeriods: seq<Period>, examPeriods: seq<Period>)

  function ReadBody(codec: DateCodec, json: Json, exclusionJsons: seq<Json>, overrideJsons: seq<Json>): (r: Result<Body, Error>)
    ensures MapResult(exclusionJsons, ParserFor(codec, json)).Failure? ==>
      r == Failure(MapResult(exclusionJsons, ParserFor(codec, json)).error)
    ensures MapResult(exclusionJsons, ParserFor(codec, json)).Success?
            && MapResult(overrideJsons, ParserFor(codec, json)).Failure? ==>
      r == Failure(MapResult(overrideJsons, ParserFor(codec, json)).error)
    ensures MapResult(exclusionJsons, ParserFor(codec, json)).Success?
            && MapResult(overrideJsons, ParserFor(codec, json)).Success? ==>
      && (ReadPeriods(Field(json, "periods"), "standard periods").Failure? ==>
            r == Failure(ReadPeriods(Field(json, "periods"), "standard periods").error))
      && (ReadPeriods(Field(json, "periods"), "standard periods").Success?
          && ReadPeriods(Field(json, "half_day_periods"), "half day periods").Failure? ==>
            r == Failure(ReadPeriods(Field(json, "half_day_periods"), "half day periods").error))
      && (ReadPeriods(Field(json, "periods"), "standard periods").Success?
          && ReadPeriods(Field(json, "half_day_periods"), "half day periods").Success?
          && ReadPeriods(Field(json, "exam_day_periods"), "exam day periods").Failure? ==>
            r == Failure(ReadPeriods(Field(json, "exam_day_periods"), "exam day periods").error))
    ensures r.Success? ==>
      && |r.value.exclusions| == |exclusionJsons|
      && (forall i :: 0 <= i < |exclusionJsons| ==> Parse(codec, exclusionJsons[i], json) == Success(r.value.exclusions[i]))
      && |r.value.overrides| == |overrideJsons|
      && (forall i :: 0 <= i < |overrideJsons| ==> Parse(codec, overrideJsons[i], json) == Success(r.value.overrides[i]))
      && ReadPeriods(Field(json, "periods"), "standard periods") == Success(r.value.standardPeriods)
      && ReadPeriods(Field(json, "half_day_periods"), "half day periods") == Success(r.value.halfDayPeriods)
      && ReadPeriods(Field(json, "exam_day_periods"), "exam day periods") == Success(r.value.examPeriods)
  {
    var exclusions :- MapResult(exclusionJsons, ParserFor(codec, json));
    var overrides :- MapResult(overrideJsons, ParserFor(codec, json));
    var standardPeriods :- ReadPeriods(Field(json, "periods"), "standard periods");
    var halfDayPeriods :- ReadPeriods(Field(json, "half_day_periods"), "half day periods");
    var examPeriods :- ReadPeriods(Field(json, "exam_day_periods"), "exam day periods");
    Success(Body(exclusions, overrides, standardPeriods, halfDayPeriods, examPeriods))
  }

  /** What a successfully read header says about the JSON it was read from. */
  lemma HeaderFacts(codec: DateCodec, json: Json, h: Header)
    requires ReadHeader(codec, json) == Success(h)
    ensures
      && Field(json, "blocks") == JArray(h.dates.blocks)
      && DefinitionDate(codec, json, "start_date", "start date") == Success(h.dates.start)
      && DefinitionDate(codec, json, "end_date", "end date") == Success(h.dates.end)
      && Field(json, "exclusions") == JArray(h.collections.exclusionJsons)
      && Field(json, "overrides") == JArray(h.collections.overrideJsons)
      && Field(json, "day_blocks").JArray? && |h.collections.dayBlocks| == |Field(json, "day_blocks").items|
      && (forall i :: 0 <= i < |h.collections.dayBlocks| ==>
            DayBlockRow(Field(json, "day_blocks").items[i]) == Success(h.collections.dayBlocks[i]))
      && Field(json, "semesters").JArray? && |h.collections.semesters| == |Field(json, "semesters").items|
      && (forall i :: 0 <= i < |h.collections.semesters| ==>
            SemesterFromJson(codec, Field(json, "semesters").items[i]) == Success(h.collections.semesters[i]))
      && Field(json, "schedule_release").JString?
      && codec.parseDateTime(Field(json, "schedule_release").s) == Some(h.scalars.releaseDate)
      && Field(json, "name") == JString(h.scalars.name)
      && AsNumber(Field(json, "version")) == Some(h.scalars.version)
      && AsUInt8(Field(json, "cycle_size")) == Some(h.scalars.cycleSize)
  {
    assert ReadDates(codec, json) == Success(h.dates);
    assert ReadCollections(codec, json) == Success(h.collections);
  }

  /** The calendar `read` builds from a header and a body. */
  function Build(h: Header, b: Body): Calendar {
    var blocks := BlockNames(h.dates.blocks);
    Calendar(
      h.scalars.name, h.scalars.version, blocks, h.scalars.cycleSize, DateInterval(h.dates.start, h.dates.end),
      b.exclusions, b.overrides,
      SphTimetable(blocks, h.collections.dayBlocks, b.standardPeriods, b.halfDayPeriods, b.examPeriods),
      h.collections.semesters, h.scalars.releaseDate)
  }

  /** A calendar built from an ordered interval, fitting exclusions and
      ordered semesters is well formed. */
  lemma BuildWellFormed(h: Header, b: Body)
    requires h.dates.start <= h.dates.end
    requires forall i :: 0 <= i < |b.exclusions| ==>
      ExclusionFits(b.exclusions[i], DateInterval(h.dates.start, h.dates.end), h.scalars.cycleSize)
    requires forall i :: 0 <= i < |b.overrides| ==>
      ExclusionFits(b.overrides[i], DateInterval(h.dates.start, h.dates.end), h.scalars.cycleSize)
    requires forall i :: 0 <= i < |h.collections.semesters| ==>
      h.collections.semesters[i].start <= h.collections.semesters[i].end
    ensures WellFormed(Build(h, b))
  {
  }

  /** Semesters read one by one are ordered intervals. */
  lemma SemestersOrdered(codec: DateCodec, items: seq<Json>, semesters: seq<DateInterval>)
    requires |semesters| == |items|
    requires forall i :: 0 <= i < |items| ==> SemesterFromJson(codec, items[i]) == Success(semesters[i])
    ensures forall i :: 0 <= i < |semesters| ==> semesters[i].start <= semesters[i].end
  {
  }

  /** A calendar `read` builds is well formed, over the definition's interval. */
  lemma ReadWellFormed(codec: DateCodec, json: Json, h: Header, b: Body)
    requires DefinitionDate(codec, json, "start_date", "start date") == Success(h.dates.start)
    requires DefinitionDate(codec, json, "end_date", "end date") == Success(h.dates.end)
    requires h.dates.start <= h.dates.end
    requires AsUInt8(Field(json, "cycle_size")) == Some(h.scalars.cycleSize)
    requires |b.exclusions| == |h.collections.exclusionJsons|
      && forall i :: 0 <= i < |b.exclusions| ==> Parse(codec, h.collections.exclusionJsons[i], json) == Success(b.exclusions[i])
    requires |b.overrides| == |h.collections.overrideJsons|
      && forall i :: 0 <= i < |b.overrides| ==> Parse(codec, h.collections.overrideJsons[i], json) == Success(b.overrides[i])
    requires Field(json, "semesters").JArray? && |h.collections.semesters| == |Field(json, "semesters").items|
    requires forall i :: 0 <= i < |h.collections.semesters| ==>
      SemesterFromJson(codec, Field(json, "semesters").items[i]) == Success(h.collections.semesters[i])
    ensures WellFormed(Build(h, b))
    ensures DefinitionInterval(codec, json) == Some(Build(h, b).interval)
  {
    var interval := DateInterval(h.dates.start, h.dates.end);
    assert DefinitionInterval(codec, json) == Some(interval);
    ParsedExclusionsFit(codec, json, h.collections.exclusionJsons, b.exclusions, interval, h.scalars.cycleSize);
    ParsedExclusionsFit(codec, json, h.collections.overrideJsons, b.overrides, interval, h.scalars.cycleSize);
    SemestersOrdered(codec, Field(json, "semesters").items, h.collections.semesters);
    BuildWellFormed(h, b);
  }

  /** A calendar `read` builds carries the header's fields as read from `json`. */
  lemma ReadHeaderFields(codec: DateCodec, json: Json, h: Header, b: Body)
    requires ReadHeader(codec, json) == Success(h)
    ensures Some(Build(h, b).cycleSize) == AsUInt8(Field(json, "cycle_size"))
    ensures Field(json, "name") == JString(Build(h, b).name)
    ensures AsNumber(Field(json, "version")) == Some(Build(h, b).version)
    ensures Field(json, "schedule_release").JString?
      && codec.parseDateTime(Field(json, "schedule_release").s) == Some(Build(h, b).releaseDate)
    ensures Field(json, "blocks").JArray?
      && Build(h, b).allBlocks == BlockNames(Field(json, "blocks").items)
      && Build(h, b).timetable.blocks == Build(h, b).allBlocks
    ensures Field(json, "day_blocks").JArray? && |Build(h, b).timetable.standardBlocks| == |Field(json, "day_blocks").items|
      && forall i :: 0 <= i < |Build(h, b).timetable.standardBlocks| ==>
            DayBlockRow(Field(json, "day_blocks").items[i]) == Success(Build(h, b).timetable.standardBlocks[i])
    ensures Field(json, "semesters").JArray? && |Build(h, b).semesters| == |Field(json, "semesters").items|
      && forall i :: 0 <= i < |Build(h, b).semesters| ==>
            SemesterFromJson(codec, Field(json, "semesters").items[i]) == Success(Build(h, b).semesters[i])
  {
    HeaderFacts(codec, json, h);
  }

  /** A calendar `read` builds carries the exclusions, overrides and period
      lists as read from `json`. */
  lemma ReadBodyFields(codec: DateCodec, json: Json, h: Header, b: Body)
    requires ReadHeader(codec, json) == Success(h) && h.dates.start <= h.dates.end
    requires ReadBody(codec, json, h.collections.exclusionJsons, h.collections.overrideJsons) == Success(b)
    ensures Field(json, "exclusions").JArray? && |Build(h, b).exclusions| == |Field(json, "exclusions").items|
      && forall i :: 0 <= i < |Build(h, b).exclusions| ==>
            Parse(codec, Field(json, "exclusions").items[i], json) == Success(Build(h, b).exclusions[i])
    ensures Field(json, "overrides").JArray? && |Build(h, b).overrides| == |Field(json, "overrides").items|
      && forall i :: 0 <= i < |Build(h, b).overrides| ==>
            Parse(codec, Field(json, "overrides").items[i], json) == Success(Build(h, b).overrides[i])
    ensures ReadPeriods(Field(json, "periods"), "standard periods") == Success(Build(h, b).timetable.standardDayPeriods)
      && ReadPeriods(Field(json, "half_day_periods"), "half day periods") == Success(Build(h, b).timetable.halfDayPeriods)
      && ReadPeriods(Field(json, "exam_day_periods"), "exam day periods") == Success(Build(h, b).timetable.examDayPeriods)
  {
    HeaderFacts(codec, json, h);
  }

  /** `DefinitionReader.read`: the header's first error, then a trap when the
      definition's end date precedes its start date, then the body's first
      error; a calendar read is well formed and carries every field as read. */
  function Read(codec: DateCodec, json: Json): (r: Result<Calendar, Error>)
    ensures ReadHeader(codec, json).Failure? ==> r == Failure(ReadHeader(codec, json).error)
    ensures ReadHeader(codec, json).Success?
            && ReadHeader(codec, json).value.dates.end < ReadHeader(codec, json).value.dates.start ==>
      r == Failure(Trap("DateInterval with end before start"))
    ensures ReadHeader(codec, json).Success?
            && ReadHeader(codec, json).value.dates.start <= ReadHeader(codec, json).value.dates.end
            && ReadBody(codec, json, ReadHeader(codec, json).value.collections.exclusionJsons,
                        ReadHeader(codec, json).value.collections.overrideJsons).Failure? ==>
      r == Failure(ReadBody(codec, json, ReadHeader(codec, json).value.collections.exclusionJsons,
                            ReadHeader(codec, json).value.collections.overrideJsons).error)
    ensures r.Success? ==> WellFormed(r.value)
    ensures r.Success? ==> DefinitionInterval(codec, json) == Some(r.value.interval)
    ensures r.Success? ==> Some(r.value.cycleSize) == AsUInt8(Field(json, "cycle_size"))
    ensures r.Success? ==> Field(json, "name") == JString(r.value.name)
    ensures r.Success? ==> AsNumber(Field(json, "version")) == Some(r.value.version)
    ensures r.Success? ==> Field(json, "schedule_release").JString?
                           && codec.parseDateTime(Field(json, "schedule_release").s) == Some(r.value.releaseDate)
    ensures r.Success? ==> Field(json, "blocks").JArray?
                           && r.value.allBlocks == BlockNames(Field(json, "blocks").items)
                           && r.value.timetable.blocks == r.value.allBlocks
    ensures r.Success? ==>
      (&& Field(json, "exclusions").JArray? && |r.value.exclusions| == |Field(json, "exclusions").items|
       && forall i :: 0 <= i < |r.value.exclusions| ==>
            Parse(codec, Field(json, "exclusions").items[i], json) == Success(r.value.exclusions[i]))
    ensures r.Success? ==>
      (&& Field(json, "overrides").JArray? && |r.value.overrides| == |Field(json, "overrides").items|
       && forall i :: 0 <= i < |r.value.overrides| ==>
            Parse(codec, Field(json, "overrides").items[i], json) == Success(r.value.overrides[i]))
    ensures r.Success? ==>
      (&& Field(json, "day_blocks").JArray? && |r.value.timetable.standardBlocks| == |Field(json, "day_blocks").items|
       && forall i :: 0 <= i < |r.value.timetable.standardBlocks| ==>
            DayBlockRow(Field(json, "day_blocks").items[i]) == Success(r.value.timetable.standardBlocks[i]))
    ensures r.Success? ==>
      (&& Field(json, "semesters").JArray? && |r.value.semesters| == |Field(json, "semesters").items|
       && forall i :: 0 <= i < |r.value.semesters| ==>
            SemesterFromJson(codec, Field(json, "semesters").items[i]) == Success(r.value.semesters[i]))
    ensures r.Success? ==>
      && ReadPeriods(Field(json, "periods"), "standard periods") == Success(r.value.timetable.standardDayPeriods)
      && ReadPeriods(Field(json, "half_day_periods"), "half day periods") == Success(r.value.timetable.halfDayPeriods)
      && ReadPeriods(Field(json, "exam_day_periods"), "exam day periods") == Success(r.value.timetable.examDayPeriods)
  {
    var h :- ReadHeader(codec, json);
    if h.dates.end < h.dates.start then Failure(Trap("DateInterval with end before start"))
    else
      var b :- ReadBody(codec, json, h.collections.exclusionJsons, h.collections.overrideJsons);
      HeaderFacts(codec, json, h);
      ReadWellFormed(codec, json, h, b);
      ReadHeaderFields(codec, json, h, b);
      ReadBodyFields(codec, json, h, b);
      Success(Build(h, b))
  }
}

=== FILE: exclusion.dfy ===
/** Exclusions (SevenPlusH/Exclusion.swift). The source stores a closure that
    builds the day; every closure the parser creates only wraps the parsed
    fields, so the closure is kept here as data. */
module Exclusions {
  import opened Wrappers
  import opened Dates
  import opened Days

  /** The five day generators built by the exclusion parser. */
  datatype Generator =
    | HolidayGen(description: string)
    | HalfDayGen(blocks: seq<string>)
    | ExamDayGen(blocks: seq<string>)
    | UnknownGen(description: string)
    | StandardGen(number: DayNumber)

  datatype Exclusion = Exclusion(interval: DateInterval, generator: Generator)

  /** Running the generator on a date. Half and exam days get the default
      descriptions, as the parser's closures do not pass one. */
  function Generate(g: Generator, d: Date): (day: Day)
    ensures day.date == d
  {
    match g
    case HolidayGen(desc) => Holiday(d, desc)
    case HalfDayGen(bs) => HalfDay(d, DefaultHalfDayDescription, bs)
    case ExamDayGen(bs) => ExamDay(d, DefaultExamDayDescription, bs)
    case UnknownGen(desc) => UnknownDay(d, desc)
    case StandardGen(n) => StandardDay(d, n)
  }

  /** The type of the day a generator makes, whatever the date. */
  function GeneratorKind(g: Generator): (k: DayKind)
    ensures forall d :: KindOf(Generate(g, d)) == k
  {
    match g
    case HolidayGen(_) => HolidayKind
    case HalfDayGen(_) => HalfKind
    case ExamDayGen(_) => ExamKind
    case UnknownGen(_) => UnknownKind
    case StandardGen(_) => StandardKind
  }

  /** `includes`: the interval holds the date, both ends included. */
  predicate Includes(ex: Exclusion, d: Date) {
    Contains(ex.interval, d)
  }

  /** `day(on:in:)`: the generated day when the date is covered, else nil. */
  function ExclusionDay(ex: Exclusion, d: Date): (r: Option<Day>)
    ensures r.None? <==> !(ex.interval.start <= d <= ex.interval.end)
    ensures r.Some? ==> r.value == Generate(ex.generator, d) && r.value.date == d
  {
    if Includes(ex, d) then Some(Generate(ex.generator, d)) else None
  }

  /** A single-date exclusion covers exactly that date. */
  lemma SingleDateExclusion(day: Date, g: Generator, d: Date)
    ensures ExclusionDay(Exclusion(DateInterval(day, day), g), d).Some? <==> d == day
  {
  }

  /** The first exclusion of the list that covers the date (`first { $0.includes(date) }`). */
  function FirstIncluding(exs: seq<Exclusion>, d: Date): (r: Option<Exclusion>)
    ensures r.Some? ==> exists i :: 0 <= i < |exs| && exs[i] == r.value && Includes(exs[i], d)
                                    && (forall j :: 0 <= j < i ==> !Includes(exs[j], d))
    ensures r.None? ==> forall j :: 0 <= j < |exs| ==> !Includes(exs[j], d)
  {
    if |exs| == 0 then None
    else if Includes(exs[0], d) then Some(exs[0])
    else
      var r := FirstIncluding(exs[1..], d);
      assert r.Some? ==> exists i :: 0 <= i < |exs| - 1 && exs[1..][i] == r.value && Includes(exs[1..][i], d)
                                     && (forall j :: 0 <= j < i ==> !Includes(exs[1..][j], d));
      r
  }

  /** The match is determined by the first covering position. */
  lemma FirstIncludingAt(exs: seq<Exclusion>, d: Date, i: nat)
    requires i < |exs| && Includes(exs[i], d)
    requires forall j :: 0 <= j < i ==> !Includes(exs[j], d)
    ensures FirstIncluding(exs, d) == Some(exs[i])
  {
    var r := FirstIncluding(exs, d);
    var k :| 0 <= k < |exs| && exs[k] == r.value && Includes(exs[k], d)
             && (forall j :: 0 <= j < k ==> !Includes(exs[j], d));
    assert k == i;
  }

  /** Scanning a concatenation scans the first list to the end before the second. */
  lemma {:induction false} FirstIncludingAppend(a: seq<Exclusion>, b: seq<Exclusion>, d: Date)
    ensures FirstIncluding(a + b, d) ==
      (if FirstIncluding(a, d).Some? then FirstIncluding(a, d) else FirstIncluding(b, d))
  {
    if |a| == 0 {
      assert a + b == b;
    } else {
      assert (a + b)[0] == a[0];
      assert (a + b)[1..] == a[1..] + b;
      if !Includes(a[0], d) {
        FirstIncludingAppend(a[1..], b, d);
      }
    }
  }
}

=== FILE: exclusion_parser.dfy ===
/** Reading one exclusion or override object of a calendar definition
    (SevenPlusH/ExclusionParser.swift). The definition's own `start_date`,
    `end_date` and `cycle_size` are consulted again for every exclusion. */
module ExclusionParser {
  import opened Wrappers
  import opened Errors
  import opened Text
  import opened Dates
  import opened Timetable
  import opened Days
  import opened Exclusions
  import opened Json
  import Calendars

  /** `requiredField`: the value, or `missingField(name)`. */
  function RequiredField<T>(name: string, value: Option<T>): (r: Result<T, Error>)
    ensures value.Some? ==> r == Success(value.value)
    ensures value.None? ==> r == Failure(MissingField(name))
  {
    match value
    case Some(v) => Success(v)
    case None => Failure(MissingField(name))
  }

  /** `parseISODate`: a full date, or `invalidFormat("Date", text)`. */
  function ParseISODate(codec: DateCodec, iso: string): (r: Result<Date, Error>)
    ensures codec.parseDate(iso).Some? ==> r == Success(codec.parseDate(iso).value)
    ensures codec.parseDate(iso).None? ==> r == Failure(InvalidFormat("Date", iso))
  {
    match codec.parseDate(iso)
    case Some(d) => Success(d)
    case None => Failure(InvalidFormat("Date", iso))
  }

  /** The definition's date field `key` parsed, as `requiredField(name, ...)`. */
  function DefinitionDate(codec: DateCodec, def: Json, key: string, name: string): (r: Result<Date, Error>)
    ensures r.Success? <==> exists s :: Field(def, key) == JString(s) && codec.parseDate(s).Some?
    ensures r.Success? ==> codec.parseDate(Field(def, key).s) == Some(r.value)
    ensures !Field(def, key).JString? ==> r == Failure(MissingField(name))
    ensures Field(def, key).JString? && codec.parseDate(Field(def, key).s).None? ==>
      r == Failure(InvalidFormat("Date", Field(def, key).s))
  {
    var s :- RequiredField(name, AsString(Field(def, key)));
    ParseISODate(codec, s)
  }

  /** `dateField`: the date must be present and parse, the definition's start
      and end dates must be present and parse, and the date must lie within
      them; otherwise `outOfRange("date", text)`. A definition whose end date
      precedes its start date traps building the interval. */
  function DateField(codec: DateCodec, value: Option<string>, def: Json, name: string): (r: Result<Date, Error>)
    ensures value.None? ==> r == Failure(MissingField(name))
    ensures r.Success? ==>
      && value.Some? && codec.parseDate(value.value) == Some(r.value)
      && DefinitionDate(codec, def, "start_date", "start date").Success?
      && DefinitionDate(codec, def, "end_date", "end date").Success?
      && DefinitionDate(codec, def, "start_date", "start date").value <= r.value
      && r.value <= DefinitionDate(codec, def, "end_date", "end date").value
    ensures r.Failure? && value.Some? && codec.parseDate(value.value).Some?
            && DefinitionDate(codec, def, "start_date", "start date").Success?
            && DefinitionDate(codec, def, "end_date", "end date").Success?
            && DefinitionDate(codec, def, "start_date", "start date").value
               <= DefinitionDate(codec, def, "end_date", "end date").value
            ==> r.error == OutOfRange("date", value.value)
    ensures value.Some? && codec.parseDate(value.value).None? ==> r == Failure(InvalidFormat("Date", value.value))
    ensures value.Some? && codec.parseDate(value.value).Some?
            && DefinitionDate(codec, def, "start_date", "start date").Failure? ==>
      r == Failure(DefinitionDate(codec, def, "start_date", "start date").error)
    ensures value.Some? && codec.parseDate(value.value).Some?
            && DefinitionDate(codec, def, "start_date", "start date").Success?
            && DefinitionDate(codec, def, "end_date", "end date").Failure? ==>
      r == Failure(DefinitionDate(codec, def, "end_date", "end date").error)
    ensures value.Some? && codec.parseDate(value.value).Some?
            && DefinitionDate(codec, def, "start_date", "start date").Success?
            && DefinitionDate(codec, def, "end_date", "end date").Success?
            && DefinitionDate(codec, def, "end_date", "end date").value
               < DefinitionDate(codec, def, "start_date", "start date").value ==>
      r == Failure(Trap("DateInterval with end before start"))
    ensures value.Some? && codec.parseDate(value.value).Some?
            && DefinitionDate(codec, def, "start_date", "start date").Success?
            && DefinitionDate(codec, def, "end_date", "end date").Success?
            && DefinitionDate(codec, def, "start_date", "start date").value <= codec.parseDate(value.value).value
            && codec.parseDate(value.value).value <= DefinitionDate(codec, def, "end_date", "end date").value ==>
      r == Success(codec.parseDate(value.value).value)
  {
    var s :- RequiredField(name, value);
    var date :- ParseISODate(codec, s);
    var start :- DefinitionDate(codec, def, "start_date", "start date");
    var end :- DefinitionDate(codec, def, "end_date", "end date");
    if end < start then Failure(Trap("DateInterval with end before start"))
    else if !(start <= date <= end) then Failure(OutOfRange("date", s))
    else Success(date)
  }

  /** `standardDayField`: the day number must be present, the definition's
      cycle size must be present, and 1 <= number <= cycle size; otherwise
      `outOfRange("day number", String(number))`. */
  function StandardDayField(value: Option<UInt8>, def: Json): (r: Result<DayNumber, Error>)
    ensures r.Success? <==>
      value.Some? && AsUInt8(Field(def, "cycle_size")).Some?
      && 1 <= value.value <= AsUInt8(Field(def, "cycle_size")).value
    ensures r.Success? ==> r.value == value.value
    ensures value.None? ==> r == Failure(MissingField("day number"))
    ensures value.Some? && AsUInt8(Field(def, "cycle_size")).None? ==> r == Failure(MissingField("cycle size"))
    ensures value.Some? && AsUInt8(Field(def, "cycle_size")).Some? && r.Failure? ==>
      r.error == OutOfRange("day number", NatToString(value.value))
  {
    var number :- RequiredField("day number", value);
    var cycleSize :- RequiredField("cycle size", AsUInt8(Field(def, "cycle_size")));
    if number < 1 || number > cycleSize then Failure(OutOfRange("day number", NatToString(number)))
    else Success(number)
  }

  /** The `holiday` parser: a start date, an end date and a description.
      Building the interval traps when the end date precedes the start date. */
  function ParseHoliday(codec: DateCodec, json: Json, def: Json): (r: Result<Exclusion, Error>)
    ensures DateField(codec, AsString(Field(json, "start_date")), def, "start date").Failure? ==>
      r == Failure(DateField(codec, AsString(Field(json, "start_date")), def, "start date").error)
    ensures DateField(codec, AsString(Field(json, "start_date")), def, "start date").Success?
            && DateField(codec, AsString(Field(json, "end_date")), def, "end date").Failure? ==>
      r == Failure(DateField(codec, AsString(Field(json, "end_date")), def, "end date").error)
    ensures DateField(codec, AsString(Field(json, "start_date")), def, "start date").Success?
            && DateField(codec, AsString(Field(json, "end_date")), def, "end date").Success?
            && !Field(json, "description").JString? ==>
      r == Failure(MissingField("description"))
    ensures DateField(codec, AsString(Field(json, "start_date")), def, "start date").Success?
            && DateField(codec, AsString(Field(json, "end_date")), def, "end date").Success?
            && Field(json, "description").JString? ==>
      var start := DateField(codec, AsString(Field(json, "start_date")), def, "start date").value;
      var end := DateField(codec, AsString(Field(json, "end_date")), def, "end date").value;
      r == if end < start then Failure(Trap("DateInterval with end before start"))
           else Success(Exclusion(DateInterval(start, end), HolidayGen(Field(json, "description").s)))
    ensures r.Success? ==>
      && Field(json, "start_date").JString? && codec.parseDate(Field(json, "start_date").s) == Some(r.value.interval.start)
      && Field(json, "end_date").JString? && codec.parseDate(Field(json, "end_date").s) == Some(r.value.interval.end)
      && r.value.interval.start <= r.value.interval.end
      && r.value.generator.HolidayGen? && Field(json, "description") == JString(r.value.generator.description)
  {
    var start :- DateField(codec, AsString(Field(json, "start_date")), def, "start date");
    var end :- DateField(codec, AsString(Field(json, "end_date")), def, "end date");
    var description :- RequiredField("description", AsString(Field(json, "description")));
    if end < start then Failure(Trap("DateInterval with end before start"))
    else Success(Exclusion(DateInterval(start, end), HolidayGen(description)))
  }

  /** The block names of a `blocks` array, each through `stringValue`. */
  function BlockNames(items: seq<Json>): (bs: seq<string>)
    ensures |bs| == |items| && forall i :: 0 <= i < |items| ==> bs[i] == StringValue(items[i])
  {
    seq(|items|, i requires 0 <= i < |items| => StringValue(items[i]))
  }

  /** The `half_day` parser: one date and the day's blocks. */
  function ParseHalfDay(codec: DateCodec, json: Json, def: Json): (r: Result<Exclusion, Error>)
    ensures DateField(codec, AsString(Field(json, "date")), def, "date").Failure? ==>
      r == Failure(DateField(codec, AsString(Field(json, "date")), def, "date").error)
    ensures DateField(codec, AsString(Field(json, "date")), def, "date").Success? && !Field(json, "blocks").JArray? ==>
      r == Failure(MissingField("blocks"))
    ensures r.Success? ==>
      && Field(json, "date").JString? && codec.parseDate(Field(json, "date").s) == Some(r.value.interval.start)
      && r.value.interval.end == r.value.interval.start
      && r.value.generator.HalfDayGen? && Field(json, "blocks").JArray?
      && r.value.generator.blocks == BlockNames(Field(json, "blocks").items)
  {
    var date :- DateField(codec, AsString(Field(json, "date")), def, "date");
    var blocks :- RequiredField("blocks", AsArray(Field(json, "blocks")));
    Success(Exclusion(DateInterval(date, date), HalfDayGen(BlockNames(blocks))))
  }

  /** The `exam_day` parser: one date and the day's blocks. */
  function ParseExamDay(codec: DateCodec, json: Json, def: Json): (r: Result<Exclusion, Error>)
    ensures DateField(codec, AsString(Field(json, "date")), def, "date").Failure? ==>
      r == Failure(DateField(codec, AsString(Field(json, "date")), def, "date").error)
    ensures DateField(codec, AsString(Field(json, "date")), def, "date").Success? && !Field(json, "blocks").JArray? ==>
      r == Failure(MissingField("blocks"))
    ensures r.Success? ==>
      && Field(json, "date").JString? && codec.parseDate(Field(json, "date").s) == Some(r.value.interval.start)
      && r.value.interval.end == r.value.interval.start
      && r.value.generator.ExamDayGen? && Field(json, "blocks").JArray?
      && r.value.generator.blocks == BlockNames(Field(json, "blocks").items)
  {
    var date :- DateField(codec, AsString(Field(json, "date")), def, "date");
    var blocks :- RequiredField("blocks", AsArray(Field(json, "blocks")));
    Success(Exclusion(DateInterval(date, date), ExamDayGen(BlockNames(blocks))))
  }

  /** The `unknown` parser: one date and a description. */
  function ParseUnknown(codec: DateCodec, json: Json, def: Json): (r: Result<Exclusion, Error>)
    ensures DateField(codec, AsString(Field(json, "date")), def, "date").Failure? ==>
      r == Failure(DateField(codec, AsString(Field(json, "date")), def, "date").error)
    ensures DateField(codec, AsString(Field(json, "date")), def, "date").Success? && !Field(json, "description").JString? ==>
      r == Failure(MissingField("description"))
    ensures r.Success? ==>
      && Field(json, "date").JString? && codec.parseDate(Field(json, "date").s) == Some(r.value.interval.start)
      && r.value.interval.end == r.value.interval.start
      && r.value.generator.UnknownGen? && Field(json, "description") == JString(r.value.generator.description)
  {
    var date :- DateField(codec, AsString(Field(json, "date")), def, "date");
    var description :- RequiredField("description", AsString(Field(json, "description")));
    Success(Exclusion(DateInterval(date, date), UnknownGen(description)))
  }

  /** The `standard_day` parser: one date and its asserted day number. */
  function ParseStandardDay(codec: DateCodec, json: Json, def: Json): (r: Result<Exclusion, Error>)
    ensures DateField(codec, AsString(Field(json, "date")), def, "date").Failure? ==>
      r == Failure(DateField(codec, AsString(Field(json, "date")), def, "date").error)
    ensures DateField(codec, AsString(Field(json, "date")), def, "date").Success? ==>
      r.Failure? == StandardDayField(AsUInt8(Field(json, "day_number")), def).Failure?
      && (r.Failure? ==> r.error == StandardDayField(AsUInt8(Field(json, "day_number")), def).error)
    ensures r.Success? ==>
      && Field(json, "date").JString? && codec.parseDate(Field(json, "date").s) == Some(r.value.interval.start)
      && r.value.interval.end == r.value.interval.start
      && r.value.generator.StandardGen? && AsUInt8(Field(json, "day_number")) == Some(r.value.generator.number)
  {
    var date :- DateField(codec, AsString(Field(json, "date")), def, "date");
    var number :- StandardDayField(AsUInt8(Field(json, "day_number")), def);
    Success(Exclusion(DateInterval(date, date), StandardGen(number)))
  }

  /** The exclusion type each `type` value produces. */
  function KindOfType(t: string): Option<DayKind> {
    if t == "holiday" then Some(HolidayKind)
    else if t == "half_day" then Some(HalfKind)
    else if t == "exam_day" then Some(ExamKind)
    else if t == "unknown" then Some(UnknownKind)
    else if t == "standard_day" then Some(StandardKind)
    else None
  }

  /** `ExclusionParser.parse`: dispatch on the `type` field. */
  function Parse(codec: DateCodec, json: Json, def: Json): (r: Result<Exclusion, Error>)
    ensures !Field(json, "type").JString? ==> r == Failure(MissingField("type"))
    ensures Field(json, "type").JString? && KindOfType(Field(json, "type").s).None? ==>
      r == Failure(InvalidFormat("type", Field(json, "type").s))
    ensures r.Success? ==>
      (Field(json, "type").JString? && KindOfType(Field(json, "type").s) == Some(GeneratorKind(r.value.generator)))
    ensures r.Success? && r.value.generator.HolidayGen? ==>
      && Field(json, "start_date").JString? && codec.parseDate(Field(json, "start_date").s) == Some(r.value.interval.start)
      && Field(json, "end_date").JString? && codec.parseDate(Field(json, "end_date").s) == Some(r.value.interval.end)
      && Field(json, "description") == JString(r.value.generator.description)
    ensures r.Success? && !r.value.generator.HolidayGen? ==>
      && Field(json, "date").JString? && codec.parseDate(Field(json, "date").s) == Some(r.value.interval.start)
      && r.value.interval.end == r.value.interval.start
    ensures r.Success? && (r.value.generator.HalfDayGen? || r.value.generator.ExamDayGen?) ==>
      Field(json, "blocks").JArray? && r.value.generator.blocks == BlockNames(Field(json, "blocks").items)
    ensures r.Success? && r.value.generator.UnknownGen? ==>
      Field(json, "description") == JString(r.value.generator.description)
    ensures r.Success? && r.value.generator.StandardGen? ==>
      AsUInt8(Field(json, "day_number")) == Some(r.value.generator.number)
    ensures Field(json, "type").JString? && Field(json, "type").s != "holiday" && KindOfType(Field(json, "type").s).Some?
            && DateField(codec, AsString(Field(json, "date")), def, "date").Failure? ==>
      r == Failure(DateField(codec, AsString(Field(json, "date")), def, "date").error)
    ensures Field(json, "type") == JString("holiday")
            && DateField(codec, AsString(Field(json, "start_date")), def, "start date").Failure? ==>
      r == Failure(DateField(codec, AsString(Field(json, "start_date")), def, "start date").error)
  {
    var dayType :- RequiredField("type", AsString(Field(json, "type")));
    if dayType == "holiday" then ParseHoliday(codec, json, def)
    else if dayType == "half_day" then ParseHalfDay(codec, json, def)
    else if dayType == "exam_day" then ParseExamDay(codec, json, def)
    else if dayType == "unknown" then ParseUnknown(codec, json, def)
    else if dayType == "standard_day" then ParseStandardDay(codec, json, def)
    else Failure(InvalidFormat("type", dayType))
  }

  /** The definition's interval, when its dates are present, parse and are in order. */
  function DefinitionInterval(codec: DateCodec, def: Json): Option<DateInterval> {
    match (DefinitionDate(codec, def, "start_date", "start date"), DefinitionDate(codec, def, "end_date", "end date"))
    case (Success(s), Success(e)) => if s <= e then Some(DateInterval(s, e)) else None
    case _ => None
  }

  /** Every parsed exclusion fits the definition: its interval is in order and
      inside the definition's dates, and a standard day's number is within the
      definition's cycle size. */
  lemma ParsedExclusionFits(codec: DateCodec, json: Json, def: Json)
    requires Parse(codec, json, def).Success?
    ensures DefinitionInterval(codec, def).Some?
    ensures Calendars.ExclusionFits(Parse(codec, json, def).value, DefinitionInterval(codec, def).value,
      if Field(def, "cycle_size").JNumber? || Field(def, "cycle_size").JBool? then AsUInt8(Field(def, "cycle_size")).value else 0)
  {
  }

  /** The object an exclusion is written as, with dates through `format`. */
  function Encode(codec: DateCodec, ex: Exclusion): (j: Json)
    ensures Field(j, "type").JString? && KindOfType(Field(j, "type").s) == Some(GeneratorKind(ex.generator))
  {
    var iv := ex.interval;
    match ex.generator
    case HolidayGen(description) => JObject(map[
      "type" := JString("holiday"), "start_date" := JString(codec.format(iv.start)),
      "end_date" := JString(codec.format(iv.end)), "description" := JString(description)])
    case HalfDayGen(blocks) => JObject(map[
      "type" := JString("half_day"), "date" := JString(codec.format(iv.start)),
      "blocks" := JArray(seq(|blocks|, i requires 0 <= i < |blocks| => JString(blocks[i])))])
    case ExamDayGen(blocks) => JObject(map[
      "type" := JString("exam_day"), "date" := JString(codec.format(iv.start)),
      "blocks" := JArray(seq(|blocks|, i requires 0 <= i < |blocks| => JString(blocks[i])))])
    case UnknownGen(description) => JObject(map[
      "type" := JString("unknown"), "date" := JString(codec.format(iv.start)),
      "description" := JString(description)])
    case StandardGen(number) => JObject(map[
      "type" := JString("standard_day"), "date" := JString(codec.format(iv.start)),
      "day_number" := JNumber(number)])
  }

  /** The definition fragment an exclusion is parsed against. */
  function EncodeDefinition(codec: DateCodec, interval: DateInterval, cycleSize: UInt8): Json {
    JObject(map[
      "start_date" := JString(codec.format(interval.start)),
      "end_date" := JString(codec.format(interval.end)),
      "cycle_size" := JNumber(cycleSize)])
  }

  /** The definition fragment's dates read back through a round-tripping codec,
      and so does the exclusion's own start date. */
  lemma EncodedDatesParse(codec: DateCodec, ex: Exclusion, interval: DateInterval, cycleSize: UInt8)
    requires RoundTrips(codec)
    requires interval.start <= interval.end
    requires Calendars.ExclusionFits(ex, interval, cycleSize)
    ensures DefinitionDate(codec, EncodeDefinition(codec, interval, cycleSize), "start_date", "start date") == Success(interval.start)
    ensures DefinitionDate(codec, EncodeDefinition(codec, interval, cycleSize), "end_date", "end date") == Success(interval.end)
    ensures DateField(codec, Some(codec.format(ex.interval.start)), EncodeDefinition(codec, interval, cycleSize), "date")
            == Success(ex.interval.start)
    ensures DateField(codec, Some(codec.format(ex.interval.start)), EncodeDefinition(codec, interval, cycleSize), "start date")
            == Success(ex.interval.start)
    ensures DateField(codec, Some(codec.format(ex.interval.end)), EncodeDefinition(codec, interval, cycleSize), "end date")
            == Success(ex.interval.end)
  {
    assert codec.parseDate(codec.format(interval.start)) == Some(interval.start);
    assert codec.parseDate(codec.format(interval.end)) == Some(interval.end);
    assert codec.parseDate(codec.format(ex.interval.start)) == Some(ex.interval.start);
    assert codec.parseDate(codec.format(ex.interval.end)) == Some(ex.interval.end);
  }

  /** The round trip below, one exclusion type at a time. */
  lemma ParseEncodeHoliday(codec: DateCodec, ex: Exclusion, interval: DateInterval, cycleSize: UInt8)
    requires RoundTrips(codec)
    requires interval.start <= interval.end
    requires Calendars.ExclusionFits(ex, interval, cycleSize)
    requires ex.generator.HolidayGen?
    ensures Parse(codec, Encode(codec, ex), EncodeDefinition(codec, interval, cycleSize)) == Success(ex)
  {
    EncodedDatesParse(codec, ex, interval, cycleSize);
  }

  lemma ParseEncodeHalfDay(codec: DateCodec, ex: Exclusion, interval: DateInterval, cycleSize: UInt8)
    requires RoundTrips(codec)
    requires interval.start <= interval.end
    requires Calendars.ExclusionFits(ex, interval, cycleSize)
    requires ex.generator.HalfDayGen? && ex.interval.start == ex.interval.end
    ensures Parse(codec, Encode(codec, ex), EncodeDefinition(codec, interval, cycleSize)) == Success(ex)
  {
    EncodedDatesParse(codec, ex, interval, cycleSize);
    assert BlockNames(Encode(codec, ex).fields["blocks"].items) == ex.generator.blocks;
  }

  lemma ParseEncodeExamDay(codec: DateCodec, ex: Exclusion, interval: DateInterval, cycleSize: UInt8)
    requires RoundTrips(codec)
    requires interval.start <= interval.end
    requires Calendars.ExclusionFits(ex, interval, cycleSize)
    requires ex.generator.ExamDayGen? && ex.interval.start == ex.interval.end
    ensures Parse(codec, Encode(codec, ex), EncodeDefinition(codec, interval, cycleSize)) == Success(ex)
  {
    EncodedDatesParse(codec, ex, interval, cycleSize);
    assert BlockNames(Encode(codec, ex).fields["blocks"].items) == ex.generator.blocks;
  }

  lemma ParseEncodeUnknown(codec: DateCodec, ex: Exclusion, interval: DateInterval, cycleSize: UInt8)
    requires RoundTrips(codec)
    requires interval.start <= interval.end
    requires Calendars.ExclusionFits(ex, interval, cycleSize)
    requires ex.generator.UnknownGen? && ex.interval.start == ex.interval.end
    ensures Parse(codec, Encode(codec, ex), EncodeDefinition(codec, interval, cycleSize)) == Success(ex)
  {
    EncodedDatesParse(codec, ex, interval, cycleSize);
  }

  lemma ParseEncodeStandardDay(codec: DateCodec, ex: Exclusion, interval: DateInterval, cycleSize: UInt8)
    requires RoundTrips(codec)
    requires interval.start <= interval.end
    requires Calendars.ExclusionFits(ex, interval, cycleSize)
    requires ex.generator.StandardGen? && ex.interval.start == ex.interval.end
    ensures Parse(codec, Encode(codec, ex), EncodeDefinition(codec, interval, cycleSize)) == Success(ex)
  {
    EncodedDatesParse(codec, ex, interval, cycleSize);
  }

  /** Round trip: an exclusion that fits a definition, single-dated unless it is
      a holiday, parses back from its encoding. */
  lemma ParseEncode(codec: DateCodec, ex: Exclusion, interval: DateInterval, cycleSize: UInt8)
    requires RoundTrips(codec)
    requires interval.start <= interval.end
    requires Calendars.ExclusionFits(ex, interval, cycleSize)
    requires !ex.generator.HolidayGen? ==> ex.interval.start == ex.interval.end
    ensures Parse(codec, Encode(codec, ex), EncodeDefinition(codec, interval, cycleSize)) == Success(ex)
  {
    match ex.generator
    case HolidayGen(_) => ParseEncodeHoliday(codec, ex, interval, cycleSize);
    case HalfDayGen(_) => ParseEncodeHalfDay(codec, ex, interval, cycleSize);
    case ExamDayGen(_) => ParseEncodeExamDay(codec, ex, interval, cycleSize);
    case UnknownGen(_) => ParseEncodeUnknown(codec, ex, interval, cycleSize);
    case StandardGen(_) => ParseEncodeStandardDay(codec, ex, interval, cycleSize);
  }
}

=== FILE: json.dfy ===
/** The slice of SwiftyJSON the definition and schedule readers use. Numbers
    are integers here; a subscript that misses gives `null`, as SwiftyJSON's
    error-carrying null does. */
module Json {
  import opened Wrappers
  import opened Text
  import opened Timetable

  datatype Json =
    | JNull
    | JBool(b: bool)
    | JNumber(n: int)
    | JString(s: string)
    | JArray(items: seq<Json>)
    | JObject(fields: map<string, Json>)

  /** `json["key"]`: the member of an object, or null. */
  function Field(j: Json, key: string): (r: Json)
    ensures j.JObject? && key in j.fields ==> r == j.fields[key]
    ensures !(j.JObject? && key in j.fields) ==> r == JNull
  {
    if j.JObject? && key in j.fields then j.fields[key] else JNull
  }

  /** `json[i]`: the element of an array, or null. */
  function At(j: Json, i: nat): (r: Json)
    ensures j.JArray? && i < |j.items| ==> r == j.items[i]
    ensures !(j.JArray? && i < |j.items|) ==> r == JNull
  {
    if j.JArray? && i < |j.items| then j.items[i] else JNull
  }

  /** `.string`: present only for a string. */
  function AsString(j: Json): (r: Option<string>)
    ensures r.Some? <==> j.JString?
    ensures r.Some? ==> r.value == j.s
  {
    if j.JString? then Some(j.s) else None
  }

  /** `.array`: present only for an array. */
  function AsArray(j: Json): (r: Option<seq<Json>>)
    ensures r.Some? <==> j.JArray?
    ensures r.Some? ==> r.value == j.items
  {
    if j.JArray? then Some(j.items) else None
  }

  /** `.dictionary`: present only for an object. */
  function AsObject(j: Json): (r: Option<map<string, Json>>)
    ensures r.Some? <==> j.JObject?
    ensures r.Some? ==> r.value == j.fields
  {
    if j.JObject? then Some(j.fields) else None
  }

  /** `.uInt8`: numbers and booleans go through `NSNumber.uint8Value`, which
      keeps the low eight bits (`true` is 1); anything else is absent. */
  function AsUInt8(j: Json): (r: Option<UInt8>)
    ensures r.Some? <==> j.JNumber? || j.JBool?
    ensures j.JNumber? && 0 <= j.n < 256 ==> r == Some(j.n)
    ensures j.JNumber? ==> r.Some? && (r.value - j.n) % 256 == 0
    ensures j.JBool? ==> r == Some(if j.b then 1 else 0)
  {
    match j
    case JNumber(n) => Some(n % 256)
    case JBool(b) => Some(if b then 1 else 0)
    case _ => None
  }

  /** `.double`, on integral numbers: numbers and booleans, else absent. */
  function AsNumber(j: Json): (r: Option<int>)
    ensures r.Some? <==> j.JNumber? || j.JBool?
    ensures j.JNumber? ==> r == Some(j.n)
    ensures j.JBool? ==> r == Some(if j.b then 1 else 0)
  {
    match j
    case JNumber(n) => Some(n)
    case JBool(b) => Some(if b then 1 else 0)
    case _ => None
  }

  /** `.stringValue`: the text of a string, the decimal form of a number,
      "true"/"false" for a boolean, and "" for anything else. */
  function StringValue(j: Json): (s: string)
    ensures j.JString? ==> s == j.s
    ensures j.JNumber? && j.n >= 0 ==> ParseNat(s) == Some(j.n)
    ensures j.JNull? || j.JArray? || j.JObject? ==> s == ""
  {
    match j
    case JString(s) => s
    case JNumber(n) =>
      assert n >= 0 ==> ParseNat(IntToString(n)) == Some(n) by {
        if n >= 0 { ParseNatToString(n); }
      }
      IntToString(n)
    case JBool(b) => if b then "true" else "false"
    case _ => ""
  }

  /** Swift's `array.map { try f($0) }`: every element mapped in order, or the
      first element's error. */
  function MapResult<A, B, E>(xs: seq<A>, f: A -> Result<B, E>): (r: Result<seq<B>, E>)
    ensures r.Success? ==> |r.value| == |xs| && forall i :: 0 <= i < |xs| ==> f(xs[i]) == Success(r.value[i])
    ensures r.Failure? ==> exists i :: 0 <= i < |xs| && f(xs[i]) == Failure(r.error)
                                       && forall k :: 0 <= k < i ==> f(xs[k]).Success?
  {
    if |xs| == 0 then Success([])
    else match f(xs[0])
      case Failure(e) => Failure(e)
      case Success(y) =>
        match MapResult(xs[1..], f)
        case Failure(e) =>
          ghost var i :| 0 <= i < |xs[1..]| && f(xs[1..][i]) == Failure(e)
                         && forall k :: 0 <= k < i ==> f(xs[1..][k]).Success?;
          assert f(xs[i + 1]) == Failure(e);
          Failure(e)
        case Success(ys) => Success([y] + ys)
  }

  /** When every element maps successfully, so does the whole sequence. */
  lemma {:induction false} MapResultAllSucceed<A, B, E>(xs: seq<A>, f: A -> Result<B, E>)
    requires forall i :: 0 <= i < |xs| ==> f(xs[i]).Success?
    ensures MapResult(xs, f).Success?
    ensures forall i :: 0 <= i < |xs| ==> MapResult(xs, f).value[i] == f(xs[i]).value
  {
    if |xs| > 0 {
      MapResultAllSucceed(xs[1..], f);
    }
  }
}

=== FILE: legacy_calendar.dfy ===
/** The superseded calendar of SevenPlusH/Schedule/SphCalendar.swift. It has no
    timetable and no semesters; its day type always includes the overrides, and
    its `DayIterator` can number a date either by a memoised backward recursion
    or by walking forward from the latest memoised date. */
module LegacyCalendars {
  import opened Wrappers
  import opened Errors
  import opened Dates
  import Timetable
  import opened Days
  import opened Exclusions
  import Calendars

  datatype LegacyCalendar = LegacyCalendar(
    name: string,
    version: int,
    allBlocks: seq<string>,
    cycleSize: int,
    interval: DateInterval,
    exclusions: seq<Exclusion>,
    overrides: seq<Exclusion>)

  /** `includes`. */
  predicate InCalendar(lc: LegacyCalendar, d: Date) {
    Contains(lc.interval, d)
  }

  /** `theExclusion(for:)`: the first covering exclusion of `exclusions + overrides`,
      so a base exclusion always wins over an override (the two lemmas below). */
  function TheExclusion(lc: LegacyCalendar, d: Date): (r: Option<Exclusion>)
    ensures r.Some? ==> Includes(r.value, d) && (r.value in lc.exclusions || r.value in lc.overrides)
    ensures r.None? <==>
      ((forall j :: 0 <= j < |lc.exclusions| ==> !Includes(lc.exclusions[j], d))
       && (forall j :: 0 <= j < |lc.overrides| ==> !Includes(lc.overrides[j], d)))
  {
    var all := lc.exclusions + lc.overrides;
    var r := FirstIncluding(all, d);
    assert forall j :: 0 <= j < |lc.exclusions| ==> lc.exclusions[j] == all[j];
    assert forall j :: 0 <= j < |lc.overrides| ==> lc.overrides[j] == all[|lc.exclusions| + j];
    r
  }

  /** The first base exclusion covering a date decides it, whatever the overrides say. */
  lemma BaseExclusionWins(lc: LegacyCalendar, d: Date, i: nat)
    requires i < |lc.exclusions| && Includes(lc.exclusions[i], d)
    requires forall j :: 0 <= j < i ==> !Includes(lc.exclusions[j], d)
    ensures TheExclusion(lc, d) == Some(lc.exclusions[i])
  {
    FirstIncludingAt(lc.exclusions, d, i);
    FirstIncludingAppend(lc.exclusions, lc.overrides, d);
  }

  /** An override decides a date only when no base exclusion covers it. */
  lemma OverrideWinsWithoutBase(lc: LegacyCalendar, d: Date, i: nat)
    requires forall j :: 0 <= j < |lc.exclusions| ==> !Includes(lc.exclusions[j], d)
    requires i < |lc.overrides| && Includes(lc.overrides[i], d)
    requires forall j :: 0 <= j < i ==> !Includes(lc.overrides[j], d)
    ensures TheExclusion(lc, d) == Some(lc.overrides[i])
  {
    FirstIncludingAt(lc.overrides, d, i);
    FirstIncludingAppend(lc.exclusions, lc.overrides, d);
  }

  /** `dayType(on:)`: nil outside the interval, else the type of the covering
      exclusion's day, or weekend, or standard day. */
  function DayType(lc: LegacyCalendar, d: Date): (r: Option<DayKind>)
    ensures r.None? <==> !InCalendar(lc, d)
    ensures r.Some? && TheExclusion(lc, d).Some? ==> r.value == GeneratorKind(TheExclusion(lc, d).value.generator)
    ensures r.Some? && TheExclusion(lc, d).None? ==> r.value == (if IsWeekend(d) then WeekendKind else StandardKind)
  {
    if !InCalendar(lc, d) then None
    else match TheExclusion(lc, d)
      case Some(ex) => Some(KindOf(Generate(ex.generator, d)))
      case None => if IsWeekend(d) then Some(WeekendKind) else Some(StandardKind)
  }

  /** `isSchoolDay(on:)`. */
  predicate IsSchoolDay(lc: LegacyCalendar, d: Date) {
    var t := DayType(lc, d);
    t.Some? && IsSchoolKind(t.value)
  }

  /** The test of both counting strategies: the date is typed `StandardDay`,
      overrides included. */
  predicate CountsAsStandard(lc: LegacyCalendar, d: Date) {
    DayType(lc, d) == Some(StandardKind)
  }

  /** One counting step: `(n % 8) + 1` on a standard date, else `n`. */
  function Step(lc: LegacyCalendar, d: Date, n: DayNumber): (m: DayNumber)
    ensures 1 <= m <= 8 || m == n
  {
    if CountsAsStandard(lc, d) then n % 8 + 1 else n
  }

  /** The number reached from day `n` at date `from` after stepping through
      every date up to `d`. */
  function Advance(lc: LegacyCalendar, from: Date, n: DayNumber, d: Date): DayNumber
    requires from <= d
    decreases d - from
  {
    if d == from then n else Step(lc, d, Advance(lc, from, n, d - 1))
  }

  /** The number the calendar assigns to a date: day 1 at the first date, then
      one step per date. */
  function LegacyNumber(lc: LegacyCalendar, d: Date): (n: DayNumber)
    requires d >= lc.interval.start
    ensures 1 <= n <= 8
    decreases d - lc.interval.start
  {
    if d == lc.interval.start then 1 else Step(lc, d, LegacyNumber(lc, d - 1))
  }

  /** Walking from a date whose number is known reaches the number of `d`. */
  lemma {:induction false} AdvanceFromKnown(lc: LegacyCalendar, from: Date, d: Date)
    requires lc.interval.start <= from <= d
    ensures Advance(lc, from, LegacyNumber(lc, from), d) == LegacyNumber(lc, d)
    decreases d - from
  {
    if d > from {
      AdvanceFromKnown(lc, from, d - 1);
    }
  }

  /** `DayIterator.mapping`: the memo of numbers already computed. */
  type Memo = map<Date, DayNumber>

  /** `DayIterator.init(start:)`: the first date is day 1. */
  function InitialMemo(lc: LegacyCalendar): (m: Memo)
    ensures lc.interval.start in m && m[lc.interval.start] == LegacyNumber(lc, lc.interval.start)
  {
    map[lc.interval.start := 1]
  }

  /** The latest memoised date at or before `d`. */
  ghost predicate IsMostRecent(memo: Memo, d: Date, k: Date) {
    k in memo && k <= d && forall k' :: k' in memo && k' <= d ==> k' <= k
  }

  /** `mostRecentMapping(from:)`: the memo entry with the greatest date at or
      before `d`; the force unwrap needs one to exist. */
  method MostRecentMapping(memo: Memo, d: Date) returns (k: Date, n: DayNumber)
    requires exists k0 :: k0 in memo && k0 <= d
    ensures IsMostRecent(memo, d, k) && n == memo[k]
  {
    var candidates := set k0 | k0 in memo && k0 <= d;
    var seed :| seed in memo && seed <= d;
    assert seed in candidates;
    var best :| best in candidates;
    var rest := candidates - {best};
    while rest != {}
      invariant rest <= candidates && best in candidates
      invariant forall k0 :: k0 in candidates && k0 !in rest ==> k0 <= best
      decreases |rest|
    {
      var next :| next in rest;
      if next > best {
        best := next;
      }
      rest := rest - {next};
    }
    assert forall k0 :: k0 in memo && k0 <= d ==> k0 in candidates;
    k, n := best, memo[best];
  }

  /** `recursivelyIterate(from:)`: the memoised number, or one step on from
      the day before. The memo always holds the first date, so the recursion
      stops there at the latest. */
  function RecursivelyIterate(lc: LegacyCalendar, memo: Memo, d: Date): DayNumber
    requires lc.interval.start in memo && d >= lc.interval.start
    decreases d - lc.interval.start
  {
    if d in memo then memo[d]
    else Step(lc, d, RecursivelyIterate(lc, memo, d - 1))
  }

  /** The recursion stops at the latest memoised date and steps forward from
      there, which is the walk `iterate` performs. */
  lemma {:induction false} RecursionWalksFromMostRecent(lc: LegacyCalendar, memo: Memo, k: Date, d: Date)
    requires lc.interval.start in memo && lc.interval.start <= k
    requires IsMostRecent(memo, d, k)
    ensures RecursivelyIterate(lc, memo, d) == Advance(lc, k, memo[k], d)
    decreases d - k
  {
    if d > k {
      assert d !in memo;
      RecursionWalksFromMostRecent(lc, memo, k, d - 1);
    }
  }

  /** `iterate(from:)`: from the latest memoised date, walk forward one day at
      a time, stepping the number on standard dates. It agrees with the
      recursive strategy on every memo. */
  method Iterate(lc: LegacyCalendar, memo: Memo, d: Date) returns (n: DayNumber)
    requires lc.interval.start in memo && d >= lc.interval.start
    ensures n == RecursivelyIterate(lc, memo, d)
  {
    var k, n0 := MostRecentMapping(memo, d);
    var current := k;
    n := n0;
    while current < d
      invariant k <= current <= d
      invariant n == Advance(lc, k, n0, current)
      decreases d - current
    {
      current := current + 1;
      n := Step(lc, current, n);
    }
    assert lc.interval.start <= k by {
      assert lc.interval.start in memo && lc.interval.start <= d;
    }
    RecursionWalksFromMostRecent(lc, memo, k, d);
  }

  /** Every memo entry holds the date's number, and the first date is present. */
  ghost predicate MemoConsistent(lc: LegacyCalendar, memo: Memo) {
    && lc.interval.start in memo
    && forall k :: k in memo ==> k >= lc.interval.start && memo[k] == LegacyNumber(lc, k)
  }

  /** With a consistent memo the recursion computes the date's number. */
  lemma {:induction false} RecursionComputesNumber(lc: LegacyCalendar, memo: Memo, d: Date)
    requires MemoConsistent(lc, memo) && d >= lc.interval.start
    ensures RecursivelyIterate(lc, memo, d) == LegacyNumber(lc, d)
    decreases d - lc.interval.start
  {
    if d !in memo {
      RecursionComputesNumber(lc, memo, d - 1);
    }
  }

  /** `numberOfDate(_:for:_:)`: nil for a date that is not a school day;
      otherwise the number by either strategy, which is then memoised. Both
      strategies give the same number, and on a consistent memo it is the
      date's number and the memo stays consistent. */
  method NumberOfDate(lc: LegacyCalendar, memo: Memo, d: Date, useRecursion: bool)
    returns (r: Option<DayNumber>, memo': Memo)
    requires lc.interval.start in memo
    ensures r.None? <==> !IsSchoolDay(lc, d)
    ensures r.None? ==> memo' == memo
    ensures r.Some? ==> d >= lc.interval.start && r.value == RecursivelyIterate(lc, memo, d) && memo' == memo[d := r.value]
    ensures r.Some? && MemoConsistent(lc, memo) ==> r.value == LegacyNumber(lc, d)
    ensures MemoConsistent(lc, memo) ==> MemoConsistent(lc, memo')
  {
    if !IsSchoolDay(lc, d) {
      return None, memo;
    }
    var n;
    if useRecursion {
      n := RecursivelyIterate(lc, memo, d);
    } else {
      n := Iterate(lc, memo, d);
    }
    if MemoConsistent(lc, memo) {
      RecursionComputesNumber(lc, memo, d);
    }
    r, memo' := Some(n), memo[d := n];
  }

  /** `day(on:)`: `outOfRange` outside the interval; the covering exclusion's
      day; a weekend; or a standard day numbered by the iterator (with the
      default, recursive strategy). */
  method DayOn(lc: LegacyCalendar, memo: Memo, d: Date) returns (r: Result<Day, Error>, memo': Memo)
    requires MemoConsistent(lc, memo)
    ensures r.Failure? <==> !InCalendar(lc, d)
    ensures r.Failure? ==> r.error == CalendarOutOfRange
    ensures r.Success? ==> r.value.date == d && DayType(lc, d) == Some(KindOf(r.value))
    ensures r.Success? && TheExclusion(lc, d).Some? ==> r.value == Generate(TheExclusion(lc, d).value.generator, d)
    ensures r.Success? && r.value.StandardDay? && TheExclusion(lc, d).None? ==> r.value.number == LegacyNumber(lc, d)
    ensures MemoConsistent(lc, memo')
  {
    if !InCalendar(lc, d) {
      return Failure(CalendarOutOfRange), memo;
    }
    match TheExclusion(lc, d)
    case Some(ex) =>
      r, memo' := Success(Generate(ex.generator, d)), memo;
    case None =>
      if IsWeekend(d) {
        r, memo' := Success(Weekend(d)), memo;
      } else {
        var number;
        number, memo' := NumberOfDate(lc, memo, d, true);
        r := Success(StandardDay(d, number.value));
      }
  }

  /** The legacy calendar with the fields the current calendar shares. */
  function AsLegacy(cal: Calendars.Calendar): LegacyCalendar {
    LegacyCalendar(cal.name, cal.version, cal.allBlocks, cal.cycleSize, cal.interval, cal.exclusions, cal.overrides)
  }

  /** The legacy counter is the current counter applied to a calendar whose
      overrides have been moved to the end of the base exclusions: the legacy
      day type sees overrides, while the current counter ignores them. */
  lemma {:induction false} LegacyNumberIsCurrentCounter(cal: Calendars.Calendar, d: Date)
    requires d >= cal.interval.start
    ensures LegacyNumber(AsLegacy(cal), d) ==
      Calendars.CycleNumber(cal.(exclusions := cal.exclusions + cal.overrides, overrides := []), d)
    decreases d - cal.interval.start
  {
    var flat := cal.(exclusions := cal.exclusions + cal.overrides, overrides := []);
    if d > cal.interval.start {
      LegacyNumberIsCurrentCounter(cal, d - 1);
      assert CountsAsStandard(AsLegacy(cal), d) == Calendars.CountsAsStandard(flat, d);
    }
  }

  /** Without overrides, both calendars number every date alike. */
  lemma NoOverridesSameNumbers(cal: Calendars.Calendar, d: Date)
    requires d >= cal.interval.start && cal.overrides == []
    ensures LegacyNumber(AsLegacy(cal), d) == Calendars.CycleNumber(cal, d)
  {
    LegacyNumberIsCurrentCounter(cal, d);
    assert cal.exclusions + cal.overrides == cal.exclusions;
    assert cal.(exclusions := cal.exclusions + cal.overrides, overrides := []) == cal;
  }
}

=== FILE: notification_option.dfy ===
/** `schedulingRange(from:inCalendar:)` (PreMatch/Notify/NotificationOption.swift):
    the part of a semester from which notifications are scheduled. */
module NotificationOption {
  import opened Wrappers
  import opened Errors
  import opened Dates
  import opened Calendars

  const PastYearMessage: string := "Cannot schedule notifications for a school year in the past"

  /** The scan over the semesters from index `n` on: a semester that has not
      begun is returned whole, one that contains the date is returned from the
      date to its end; semesters already over are skipped. */
  function RangeFrom(sems: seq<DateInterval>, date: Date, n: nat): (r: Result<(DateInterval, nat), Error>)
    requires n <= |sems|
    ensures r.Failure? <==> forall j :: n <= j < |sems| ==> !(date < sems[j].start) && !Contains(sems[j], date)
    ensures r.Failure? ==> r.error == DateOutOfRange(PastYearMessage)
    ensures r.Success? ==>
      var (iv, k) := r.value;
      && n <= k < |sems|
      && (forall j :: n <= j < k ==> !(date < sems[j].start) && !Contains(sems[j], date))
      && (date < sems[k].start ==> iv == sems[k])
      && (!(date < sems[k].start) ==> Contains(sems[k], date) && iv == DateInterval(date, sems[k].end))
    decreases |sems| - n
  {
    if n == |sems| then Failure(DateOutOfRange(PastYearMessage))
    else if date < sems[n].start then Success((sems[n], n))
    else if Contains(sems[n], date) then Success((DateInterval(date, sems[n].end), n))
    else RangeFrom(sems, date, n + 1)
  }

  /** `schedulingRange(from:inCalendar:)`. */
  function SchedulingRange(date: Date, cal: Calendar): (r: Result<(DateInterval, nat), Error>)
    ensures r.Failure? ==> r.error == DateOutOfRange(PastYearMessage)
    ensures r.Success? ==>
      && r.value.1 < |cal.semesters|
      && r.value.0.end == cal.semesters[r.value.1].end
      && cal.semesters[r.value.1].start <= r.value.0.start
      && date <= r.value.0.start
  {
    RangeFrom(cal.semesters, date, 0)
  }

  /** The first semester that has not ended by `date`, when there is one. */
  function FirstUnfinished(sems: seq<DateInterval>, date: Date): (r: Option<nat>)
    ensures r.Some? ==> r.value < |sems| && date <= sems[r.value].end
                        && forall j :: 0 <= j < r.value ==> sems[j].end < date
    ensures r.None? ==> forall j :: 0 <= j < |sems| ==> sems[j].end < date
  {
    if |sems| == 0 then None
    else if date <= sems[0].end then Some(0)
    else match FirstUnfinished(sems[1..], date)
      case None => None
      case Some(i) => Some(i + 1)
  }

  /** Every semester a calendar holds was built as a `DateInterval`, so its end
      is not before its start. */
  predicate SemestersOrdered(sems: seq<DateInterval>) {
    forall j :: 0 <= j < |sems| ==> sems[j].start <= sems[j].end
  }

  /** With ordered semesters, the scan picks the first semester not yet over,
      fails exactly when every semester is over, and covers the rest of that
      semester from the date (or all of it, before it begins). */
  lemma SchedulingRangeIsFirstUnfinished(date: Date, cal: Calendar)
    requires SemestersOrdered(cal.semesters)
    ensures SchedulingRange(date, cal).Failure? <==> FirstUnfinished(cal.semesters, date).None?
    ensures SchedulingRange(date, cal).Success? ==>
      var n := FirstUnfinished(cal.semesters, date).value;
      var sem := cal.semesters[n];
      SchedulingRange(date, cal).value == (DateInterval(if date < sem.start then sem.start else date, sem.end), n)
  {
    var sems := cal.semesters;
    var r := SchedulingRange(date, cal);
    var f := FirstUnfinished(sems, date);
    if r.Success? {
      var k := r.value.1;
      assert date <= sems[k].end;
      assert f.Some? && f.value == k;
    } else {
      forall j | 0 <= j < |sems|
        ensures sems[j].end < date
      {
        assert !(date < sems[j].start) && !Contains(sems[j], date);
      }
    }
  }
}

/** The cases of PreMatchTests/NotificationOptionTest.swift on the calendar of
    the day-briefing tests: before, during the first and during the second
    semester, and after the year. */
module NotificationOptionExamples {
  import opened Wrappers
  import opened Errors
  import opened Dates
  import opened CalendarExamples
  import opened NotificationOption

  lemma SchedulingRangeExamples()
    ensures SchedulingRange(18128, BriefingCalendar) == Success((DateInterval(18136, 18282), 0))
    ensures SchedulingRange(18173, BriefingCalendar) == Success((DateInterval(18173, 18282), 0))
    ensures SchedulingRange(18293, BriefingCalendar) == Success((DateInterval(18293, 18425), 1))
    ensures SchedulingRange(18453, BriefingCalendar) == Failure(DateOutOfRange(PastYearMessage))
  {
  }
}

=== FILE: notification_preferences.dfy ===
/** The `notify` preference of PreMatch/Notify/NotificationPreferences.swift:
    nil before permission is granted (or after it is revoked), otherwise one
    entry per enabled notification option, made of the option's identifier
    character followed by the numbers of its scheduled semesters, as in
    ["r1", "e12"]. The stored value is passed in and returned. */
module NotificationPreferences {
  import opened Wrappers
  import opened Text
  import opened Timetable

  type Notify = Option<seq<string>>

  /** Every entry this code stores is non-empty; `idIs` force-unwraps the
      first character and would trap on an empty one. */
  predicate WellFormedEntries(xs: seq<string>) {
    forall i :: 0 <= i < |xs| ==> |xs[i]| > 0
  }

  predicate WellFormed(st: Notify) {
    st.Some? ==> WellFormedEntries(st.value)
  }

  /** `idIs(_:)`: the entry's first character is the option's identifier. */
  predicate IdIs(c: char, entry: string)
    requires |entry| > 0
  {
    entry[0] == c
  }

  /** The index of the first entry of option `c`. */
  function FirstWithId(xs: seq<string>, c: char): (r: Option<nat>)
    requires WellFormedEntries(xs)
    ensures r.Some? ==> r.value < |xs| && IdIs(c, xs[r.value]) && forall j :: 0 <= j < r.value ==> !IdIs(c, xs[j])
    ensures r.None? ==> forall j :: 0 <= j < |xs| ==> !IdIs(c, xs[j])
  {
    if |xs| == 0 then None
    else if IdIs(c, xs[0]) then Some(0)
    else match FirstWithId(xs[1..], c)
      case None => None
      case Some(i) => Some(i + 1)
  }

  /** `removeAll(where: idIs(c))`: the entries of other options, in order. */
  function RemoveId(xs: seq<string>, c: char): (r: seq<string>)
    requires WellFormedEntries(xs)
    ensures WellFormedEntries(r) && |r| <= |xs|
    ensures forall i :: 0 <= i < |r| ==> !IdIs(c, r[i])
    ensures forall i :: 0 <= i < |xs| && !IdIs(c, xs[i]) ==> xs[i] in r
    ensures forall s :: s in r ==> s in xs
  {
    if |xs| == 0 then []
    else if IdIs(c, xs[0]) then RemoveId(xs[1..], c)
    else [xs[0]] + RemoveId(xs[1..], c)
  }

  /** Removing entries distributes over concatenation. */
  lemma {:induction false} RemoveIdAppend(xs: seq<string>, ys: seq<string>, c: char)
    requires WellFormedEntries(xs) && WellFormedEntries(ys)
    ensures WellFormedEntries(xs + ys)
    ensures RemoveId(xs + ys, c) == RemoveId(xs, c) + RemoveId(ys, c)
  {
    if |xs| > 0 {
      assert (xs + ys)[1..] == xs[1..] + ys;
      RemoveIdAppend(xs[1..], ys, c);
    } else {
      assert xs + ys == ys;
    }
  }

  /** Removing entries of an option that has none changes nothing. */
  lemma {:induction false} RemoveIdAbsent(xs: seq<string>, c: char)
    requires WellFormedEntries(xs) && FirstWithId(xs, c).None?
    ensures RemoveId(xs, c) == xs
  {
    if |xs| > 0 {
      RemoveIdAbsent(xs[1..], c);
    }
  }

  /** An option's first entry, appended to entries of other options, is found last. */
  lemma FirstWithIdAfter(xs: seq<string>, item: string, c: char)
    requires WellFormedEntries(xs) && FirstWithId(xs, c).None? && |item| > 0 && IdIs(c, item)
    ensures WellFormedEntries(xs + [item])
    ensures FirstWithId(xs + [item], c) == Some(|xs|)
  {
    var ys := xs + [item];
    assert ys[|xs|] == item;
    assert forall j :: 0 <= j < |xs| ==> ys[j] == xs[j];
  }

  /** The number of entries of option `c`. */
  function CountId(xs: seq<string>, c: char): nat
    requires WellFormedEntries(xs)
  {
    if |xs| == 0 then 0 else (if IdIs(c, xs[0]) then 1 else 0) + CountId(xs[1..], c)
  }

  lemma {:induction false} CountIdAppend(xs: seq<string>, ys: seq<string>, c: char)
    requires WellFormedEntries(xs) && WellFormedEntries(ys)
    ensures WellFormedEntries(xs + ys)
    ensures CountId(xs + ys, c) == CountId(xs, c) + CountId(ys, c)
  {
    if |xs| > 0 {
      assert (xs + ys)[1..] == xs[1..] + ys;
      CountIdAppend(xs[1..], ys, c);
    } else {
      assert xs + ys == ys;
    }
  }

  lemma {:induction false} CountIdRemoved(xs: seq<string>, c: char)
    requires WellFormedEntries(xs)
    ensures CountId(RemoveId(xs, c), c) == 0
  {
    if |xs| > 0 {
      CountIdRemoved(xs[1..], c);
    }
  }

  /** `isOptionEnabled(identifier:)`: some entry belongs to the option. */
  predicate IsOptionEnabled(st: Notify, c: char)
    requires WellFormed(st)
  {
    st.Some? && FirstWithId(st.value, c).Some?
  }

  lemma IsOptionEnabledMeans(st: Notify, c: char)
    requires WellFormed(st)
    ensures IsOptionEnabled(st, c) <==> st.Some? && exists i :: 0 <= i < |st.value| && IdIs(c, st.value[i])
  {
  }

  /** `isSemesterScheduled(identifier:semester:)`: the option's first entry
      contains the semester's decimal text anywhere, the identifier included. */
  predicate IsSemesterScheduled(st: Notify, c: char, semester: UInt8)
    requires WellFormed(st)
  {
    st.Some? && FirstWithId(st.value, c).Some?
    && ContainsText(st.value[FirstWithId(st.value, c).value], NatToString(semester))
  }

  /** `permissionGranted()`. */
  predicate PermissionGranted(st: Notify) {
    st.Some?
  }

  /** `didGrantPermission()`: an empty array, unless one is already stored. */
  function Grant(st: Notify): (r: Notify)
    ensures PermissionGranted(r)
    ensures PermissionGranted(st) ==> r == st
  {
    if st.None? then Some([]) else st
  }

  /** `didRevokePermission()`. */
  function Revoke(st: Notify): (r: Notify)
    ensures !PermissionGranted(r)
  {
    None
  }

  /** `didClearNotifications()`: every option disabled, permission kept. */
  function Clear(st: Notify): (r: Notify)
    ensures PermissionGranted(r) <==> PermissionGranted(st)
    ensures PermissionGranted(r) ==> r.value == []
  {
    if PermissionGranted(st) then Some([]) else st
  }

  /** `updatePermissionGranted()` with the authorization status passed in. */
  function UpdatePermissionGranted(st: Notify, granted: bool): (r: Notify)
    ensures PermissionGranted(r) <==> granted
    ensures granted && PermissionGranted(st) ==> r == st
  {
    if granted then Grant(st) else Revoke(st)
  }

  /** Granting twice is granting once; clearing twice is clearing once. */
  lemma GrantIdempotent(st: Notify)
    ensures Grant(Grant(st)) == Grant(st)
    ensures Clear(Clear(st)) == Clear(st)
  {
  }

  /** `didEnableOption(identifier:semester:)`. A new option gets the entry
      "<id><semester>" appended, when permission is granted; an enabled one has
      its entries removed and its first entry appended again, with the semester
      added when its text does not yet occur in it. */
  function DidEnableOption(st: Notify, c: char, semester: UInt8): (r: Notify)
    requires WellFormed(st)
    ensures WellFormed(r)
    ensures PermissionGranted(r) <==> PermissionGranted(st)
  {
    if !IsOptionEnabled(st, c) then
      if st.Some? then Some(st.value + [[c] + NatToString(semester)]) else st
    else
      var item := st.value[FirstWithId(st.value, c).value];
      var item' := if ContainsText(item, NatToString(semester)) then item else item + NatToString(semester);
      Some(RemoveId(st.value, c) + [item'])
  }

  /** `didDisableOption(identifier:semester:)`: the option's entries are
      removed; its first entry loses every character equal to the first digit
      of the semester and is appended again only if more than the identifier is
      left. Without permission or without an entry nothing changes. */
  function DidDisableOption(st: Notify, c: char, semester: UInt8): (r: Notify)
    requires WellFormed(st)
    ensures WellFormed(r)
    ensures PermissionGranted(r) <==> PermissionGranted(st)
    ensures !IsOptionEnabled(st, c) ==> r == st
  {
    if !IsOptionEnabled(st, c) then st
    else
      var item := st.value[FirstWithId(st.value, c).value];
      var item' := FilterChar(item, NatToString(semester)[0]);
      if |item'| > 1 then Some(RemoveId(st.value, c) + [item']) else Some(RemoveId(st.value, c))
  }

  /** `filter { $0 != ch }`. */
  function FilterChar(s: string, ch: char): (r: string)
    ensures ch !in r && |r| <= |s|
    ensures forall x :: x in r ==> x in s
    ensures forall i :: 0 <= i < |s| && s[i] != ch ==> s[i] in r
  {
    if |s| == 0 then "" else (if s[0] == ch then "" else [s[0]]) + FilterChar(s[1..], ch)
  }

  /** Filtering out a digit keeps a non-digit identifier in front. */
  lemma FilterKeepsId(s: string, digit: char, c: char)
    requires |s| > 0 && s[0] == c && c != digit
    ensures |FilterChar(s, digit)| > 0 && FilterChar(s, digit)[0] == c
  {
  }

  lemma {:induction false} ContainsOneChar(s: string, ch: char)
    requires ContainsText(s, [ch])
    ensures ch in s
    decreases |s|
  {
    if HasPrefix(s, [ch]) {
      assert s[0] == s[..1][0];
    } else {
      ContainsOneChar(s[1..], ch);
      var k :| 0 <= k < |s[1..]| && s[1..][k] == ch;
      assert s[k + 1] == ch;
    }
  }

  /** The entry an enabled option is stored with. */
  function EnabledEntry(xs: seq<string>, c: char, semester: UInt8): (item: string)
    requires WellFormedEntries(xs)
    ensures |item| > 0 && IdIs(c, item) && ContainsText(item, NatToString(semester))
  {
    var text := NatToString(semester);
    match FirstWithId(xs, c)
    case None =>
      assert ([c] + text)[1..] == text;
      ContainsTextOfSplit([c], text, []);
      assert [c] + text + [] == [c] + text;
      [c] + text
    case Some(i) =>
      if ContainsText(xs[i], text) then xs[i]
      else
        ContainsTextOfSplit(xs[i], text, []);
        assert xs[i] + text + [] == xs[i] + text;
        xs[i] + text
  }

  /** With permission, enabling stores the entries of the other options and
      then the option's entry. */
  lemma EnableShape(st: Notify, c: char, semester: UInt8)
    requires WellFormed(st) && PermissionGranted(st)
    ensures DidEnableOption(st, c, semester) == Some(RemoveId(st.value, c) + [EnabledEntry(st.value, c, semester)])
  {
    if !IsOptionEnabled(st, c) {
      RemoveIdAbsent(st.value, c);
    }
  }

  /** After enabling with permission: the option is enabled, exactly one entry
      belongs to it, that entry schedules the semester, and the entries of the
      other options are kept in their order. */
  lemma EnableSchedules(st: Notify, c: char, semester: UInt8)
    requires WellFormed(st) && PermissionGranted(st)
    ensures var r := DidEnableOption(st, c, semester);
      && IsOptionEnabled(r, c)
      && CountId(r.value, c) == 1
      && IsSemesterScheduled(r, c, semester)
      && RemoveId(r.value, c) == RemoveId(st.value, c)
  {
    var xs := st.value;
    var base := RemoveId(xs, c);
    var item := EnabledEntry(xs, c, semester);
    EnableShape(st, c, semester);
    RemoveIdAppend(base, [item], c);
    CountIdAppend(base, [item], c);
    CountIdRemoved(xs, c);
    RemoveIdAbsent(base, c);
    assert RemoveId([item], c) == [];
    assert FirstWithId(base, c).None?;
    FirstWithIdAfter(base, item, c);
  }

  /** Without permission, enabling changes nothing. */
  lemma EnableWithoutPermission(st: Notify, c: char, semester: UInt8)
    requires !PermissionGranted(st)
    ensures DidEnableOption(st, c, semester) == st
  {
  }

  /** After disabling a semester below ten: the semester is no longer
      scheduled for the option, at most one entry belongs to it, and the
      entries of the other options are kept in their order. */
  lemma {:induction false} DisableUnschedules(st: Notify, c: char, semester: UInt8)
    requires WellFormed(st) && semester < 10 && !IsDigit(c)
    ensures var r := DidDisableOption(st, c, semester);
      && !IsSemesterScheduled(r, c, semester)
      && (r.Some? ==> CountId(r.value, c) <= 1 && RemoveId(r.value, c) == RemoveId(st.value, c))
  {
    var r := DidDisableOption(st, c, semester);
    var text := NatToString(semester);
    if IsOptionEnabled(st, c) {
      var xs := st.value;
      var item' := FilterChar(xs[FirstWithId(xs, c).value], text[0]);
      var base := RemoveId(xs, c);
      CountIdRemoved(xs, c);
      RemoveIdAbsent(base, c);
      if |item'| > 1 {
        assert r.value == base + [item'];
        RemoveIdAppend(base, [item'], c);
        CountIdAppend(base, [item'], c);
        assert FirstWithId(base, c).None?;
        FilterKeepsId(xs[FirstWithId(xs, c).value], text[0], c);
        FirstWithIdAfter(base, item', c);
        assert text == [text[0]];
        if ContainsText(item', text) {
          ContainsOneChar(item', text[0]);
        }
      } else {
        assert r.value == base;
      }
    } else {
      if st.Some? {
        RemoveIdAbsent(st.value, c);
        CountIdRemoved(st.value, c);
      }
    }
  }

  /** Enabling an option that was not enabled and then disabling the same
      semester gives back the stored value, for a semester below ten and an
      identifier that is not a digit. */
  lemma {:induction false} EnableThenDisable(st: Notify, c: char, semester: UInt8)
    requires WellFormed(st) && !IsOptionEnabled(st, c) && semester < 10 && !IsDigit(c)
    ensures DidDisableOption(DidEnableOption(st, c, semester), c, semester) == st
  {
    if st.Some? {
      var xs := st.value;
      var text := NatToString(semester);
      var item := [c] + text;
      var e := DidEnableOption(st, c, semester);
      assert e.value == xs + [item];
      RemoveIdAppend(xs, [item], c);
      RemoveIdAbsent(xs, c);
      assert RemoveId([item], c) == [];
      FirstWithIdAfter(xs, item, c);
      assert (xs + [item])[|xs|] == item;
      assert xs + [] == xs;
      assert text == [text[0]];
      assert FilterChar(item, text[0]) == [c] by {
        assert item == [c, text[0]];
        assert item[1..] == [text[0]];
        assert FilterChar(item[1..][1..], text[0]) == "";
      }
    }
  }

  /** Every operation keeps the entries non-empty, so `idIs` never traps on
      what this code stores. */
  lemma OperationsKeepWellFormed(st: Notify, c: char, semester: UInt8, granted: bool)
    requires WellFormed(st)
    ensures WellFormed(Grant(st)) && WellFormed(Revoke(st)) && WellFormed(Clear(st))
    ensures WellFormed(UpdatePermissionGranted(st, granted))
    ensures WellFormed(DidEnableOption(st, c, semester)) && WellFormed(DidDisableOption(st, c, semester))
  {
  }

  /** `removeAll(where:)` as a loop over the array, checked against `RemoveId`. */
  method RemoveAllWithId(xs: seq<string>, c: char) returns (r: seq<string>)
    requires WellFormedEntries(xs)
    ensures r == RemoveId(xs, c)
    ensures forall i :: 0 <= i < |r| ==> !IdIs(c, r[i])
  {
    r := [];
    var i := 0;
    while i < |xs|
      invariant 0 <= i <= |xs|
      invariant WellFormedEntries(xs[..i])
      invariant r == RemoveId(xs[..i], c)
    {
      assert xs[..i + 1] == xs[..i] + [xs[i]];
      RemoveIdAppend(xs[..i], [xs[i]], c);
      if !IdIs(c, xs[i]) {
        r := r + [xs[i]];
      }
      i := i + 1;
    }
    assert xs[..i] == xs;
  }
}

=== FILE: notification_scheduler.dfy ===
/** Choosing which notifications to keep pending
    (PreMatch/Notify/NotificationScheduler.swift): every notification option
    yields candidates in date order, and the scheduler keeps the `limit`
    earliest of all of them, pulling from the sources round by round. */
module Scheduler {
  /** An identifier and its delivery instant. */
  datatype Candidate = Candidate(id: string, date: int)

  /** The scheduler's default limit, the platform's cap on pending requests. */
  const DefaultLimit: nat := 64

  predicate Sorted(s: seq<Candidate>) {
    forall i, j :: 0 <= i < j < |s| ==> s[i].date <= s[j].date
  }

  /** Everything the sources hold, counted with multiplicity. */
  function Bag(sources: seq<seq<Candidate>>): (b: multiset<Candidate>)
    ensures |sources| == 0 ==> b == multiset{}
  {
    if |sources| == 0 then multiset{} else multiset(sources[0]) + Bag(sources[1..])
  }

  lemma {:induction false} BagSnoc(sources: seq<seq<Candidate>>, s: seq<Candidate>)
    ensures Bag(sources + [s]) == Bag(sources) + multiset(s)
  {
    if |sources| == 0 {
      assert Bag([s][1..]) == multiset{};
    } else {
      assert (sources + [s])[1..] == sources[1..] + [s];
      BagSnoc(sources[1..], s);
    }
  }

  lemma BagFrom(sources: seq<seq<Candidate>>, i: nat)
    requires i < |sources|
    ensures Bag(sources[i..]) == multiset(sources[i]) + Bag(sources[i + 1..])
  {
    assert sources[i..][1..] == sources[i + 1..];
  }

  /** Putting `e` where everything before is no later and everything after no
      earlier keeps a sequence sorted. */
  lemma InsertAtKeepsSorted(a: seq<Candidate>, e: Candidate, p: nat)
    requires Sorted(a) && p <= |a|
    requires forall k :: 0 <= k < p ==> a[k].date <= e.date
    requires forall k :: p <= k < |a| ==> a[k].date >= e.date
    ensures Sorted(a[..p] + [e] + a[p..])
    ensures multiset(a[..p] + [e] + a[p..]) == multiset(a) + multiset{e}
  {
    var r := a[..p] + [e] + a[p..];
    assert forall k :: 0 <= k < |r| ==> r[k] == (if k < p then a[k] else if k == p then e else a[k - 1]);
    assert a == a[..p] + a[p..];
  }

  /** `insertSorted(_:comparator:)` comparing dates: a binary search that
      inserts at the first probe with an equal date, or where the search ends. */
  method InsertSorted(a: seq<Candidate>, e: Candidate) returns (r: seq<Candidate>, p: nat)
    requires Sorted(a)
    ensures p <= |a| && r == a[..p] + [e] + a[p..]
    ensures Sorted(r)
    ensures multiset(r) == multiset(a) + multiset{e}
  {
    var low, high := 0, |a|;
    while low < high
      invariant 0 <= low <= high <= |a|
      invariant forall k :: 0 <= k < low ==> a[k].date < e.date
      invariant forall k :: high <= k < |a| ==> a[k].date > e.date
    {
      var mid := (low + high) / 2;
      if a[mid].date < e.date {
        low := mid + 1;
      } else if a[mid].date > e.date {
        high := mid;
      } else {
        InsertAtKeepsSorted(a, e, mid);
        r, p := a[..mid] + [e] + a[mid..], mid;
        return;
      }
    }
    InsertAtKeepsSorted(a, e, low);
    r, p := a[..low] + [e] + a[low..], low;
  }

  /** A selection of `limit` candidates at most, as early as any left out. */
  ghost predicate IsEarliestSelection(sources: seq<seq<Candidate>>, limit: nat, output: seq<Candidate>) {
    var all := Bag(sources);
    && Sorted(output)
    && |output| == (if |all| < limit then |all| else limit)
    && multiset(output) <= all
    && forall x, y :: x in all - multiset(output) && y in output ==> y.date <= x.date
  }

  /** Everything in `rest` is dated no earlier than every output element. */
  ghost predicate NoEarlierThan(output: seq<Candidate>, rest: multiset<Candidate>) {
    forall x, y :: x in rest && y in output ==> y.date <= x.date
  }

  lemma SortedTailNoEarlier(output: seq<Candidate>, x: Candidate, t: seq<Candidate>)
    requires Sorted(output) && Sorted(t) && |t| > 0 && t[0] == x
    requires |output| > 0 && output[|output| - 1].date <= x.date
    ensures NoEarlierThan(output, multiset(t))
  {
    forall z, y | z in multiset(t) && y in output ensures y.date <= z.date {
      var k :| 0 <= k < |t| && t[k] == z;
      var j :| 0 <= j < |output| && output[j] == y;
    }
  }

  /** The state the selection keeps between candidates: a sorted output within
      the limit, no later than anything set aside, and full once anything has
      been set aside. */
  ghost predicate SelectionState(output: seq<Candidate>, limit: nat, discarded: multiset<Candidate>) {
    && Sorted(output) && |output| <= limit
    && NoEarlierThan(output, discarded)
    && (discarded != multiset{} ==> |output| == limit)
  }

  /** Dropping the latest element of a sorted sequence one over the limit. */
  lemma DropLatest(output: seq<Candidate>, inserted: seq<Candidate>, x: Candidate, p: nat,
                   limit: nat, discarded: multiset<Candidate>)
    requires SelectionState(output, limit, discarded) && |output| == limit
    requires p <= |output| && inserted == output[..p] + [x] + output[p..] && Sorted(inserted)
    requires |output| == 0 || x.date < output[|output| - 1].date
    ensures SelectionState(inserted[..limit], limit, discarded + multiset{inserted[limit]})
    ensures multiset(inserted[..limit]) + multiset{inserted[limit]} == multiset(inserted)
  {
    var dropped := inserted[limit];
    assert inserted == inserted[..limit] + [dropped];
    SortedPrefixNoLater(inserted, limit);
    if limit > 0 {
      InsertedNoLaterThanDiscarded(output, inserted, x, p, discarded);
    }
  }

  /** In a sorted sequence nothing before position `k` is later than `s[k]`. */
  lemma SortedPrefixNoLater(s: seq<Candidate>, k: nat)
    requires Sorted(s) && k < |s|
    ensures forall y :: y in s[..k] ==> y.date <= s[k].date
  {
    forall y | y in s[..k] ensures y.date <= s[k].date {
      var j :| 0 <= j < k && s[..k][j] == y;
      assert s[j] == y;
    }
  }

  /** Inserting a candidate earlier than the latest output keeps the output no
      later than what was discarded. */
  lemma InsertedNoLaterThanDiscarded(output: seq<Candidate>, inserted: seq<Candidate>, x: Candidate, p: nat,
                                     discarded: multiset<Candidate>)
    requires Sorted(output) && NoEarlierThan(output, discarded)
    requires p <= |output| && inserted == output[..p] + [x] + output[p..]
    requires |output| > 0 && x.date < output[|output| - 1].date
    ensures forall z, y :: z in discarded && y in inserted ==> y.date <= z.date
  {
    forall z, y | z in discarded && y in inserted ensures y.date <= z.date {
      if y == x {
        assert output[|output| - 1] in output;
      } else {
        assert y in output[..p] || y in output[p..];
        assert output == output[..p] + output[p..];
      }
    }
  }

  /** One pull from a non-empty source `t` (one step of the filter closure):
      whether its first candidate goes in, what falls out, and whether the
      source stays. A source that stops contributing is set aside whole. */
  method Offer(output: seq<Candidate>, t: seq<Candidate>, limit: nat, ghost discarded: multiset<Candidate>)
    returns (next: seq<Candidate>, keep: bool, ghost nextDiscarded: multiset<Candidate>)
    requires |t| > 0 && Sorted(t)
    requires SelectionState(output, limit, discarded)
    ensures SelectionState(next, limit, nextDiscarded)
    ensures keep <==> |output| < limit || |output| == 0 || t[0].date < output[|output| - 1].date
    ensures keep ==> multiset(next) + nextDiscarded == multiset(output) + discarded + multiset{t[0]}
    ensures !keep ==> multiset(next) + nextDiscarded == multiset(output) + discarded + multiset(t)
  {
    var x := t[0];
    var beforeLast := |output| == 0 || x.date < output[|output| - 1].date;
    var full := |output| >= limit;
    keep := beforeLast || !full;
    if !full || beforeLast {
      var inserted, p := InsertSorted(output, x);
      if full {
        DropLatest(output, inserted, x, p, limit, discarded);
        next, nextDiscarded := inserted[..limit], discarded + multiset{inserted[limit]};
      } else {
        next, nextDiscarded := inserted, discarded;
      }
    } else {
      SortedTailNoEarlier(output, x, t);
      next, nextDiscarded := output, discarded + multiset(t);
    }
  }

  /** One source's turn within a round: a used-up source is dropped, and a
      source that stops contributing is not kept. */
  method Turn(output: seq<Candidate>, kept: seq<seq<Candidate>>, t: seq<Candidate>, limit: nat,
              ghost discarded: multiset<Candidate>)
    returns (next: seq<Candidate>, nextKept: seq<seq<Candidate>>, ghost nextDiscarded: multiset<Candidate>)
    requires Sorted(t) && forall k :: 0 <= k < |kept| ==> Sorted(kept[k])
    requires SelectionState(output, limit, discarded)
    ensures forall k :: 0 <= k < |nextKept| ==> Sorted(nextKept[k])
    ensures SelectionState(next, limit, nextDiscarded)
    ensures multiset(next) + nextDiscarded + Bag(nextKept) == multiset(output) + discarded + Bag(kept) + multiset(t)
    ensures |Bag(nextKept)| + |nextKept| <= |Bag(kept)| + |kept| + |t|
  {
    if |t| == 0 {
      next, nextKept, nextDiscarded := output, kept, discarded;
      return;
    }
    assert multiset(t) == multiset{t[0]} + multiset(t[1..]) by {
      assert t == [t[0]] + t[1..];
    }
    var keep;
    next, keep, nextDiscarded := Offer(output, t, limit, discarded);
    if keep {
      BagSnoc(kept, t[1..]);
      nextKept := kept + [t[1..]];
    } else {
      nextKept := kept;
    }
  }

  /** One round of the `while` loop: every remaining source offers its next
      candidate, in order; the sources that stay are returned, shortened. */
  method Round(output: seq<Candidate>, remaining: seq<seq<Candidate>>, limit: nat,
               ghost discarded: multiset<Candidate>)
    returns (next: seq<Candidate>, kept: seq<seq<Candidate>>, ghost nextDiscarded: multiset<Candidate>)
    requires forall i :: 0 <= i < |remaining| ==> Sorted(remaining[i])
    requires SelectionState(output, limit, discarded)
    ensures forall i :: 0 <= i < |kept| ==> Sorted(kept[i])
    ensures SelectionState(next, limit, nextDiscarded)
    ensures multiset(next) + nextDiscarded + Bag(kept) == multiset(output) + discarded + Bag(remaining)
    ensures |remaining| > 0 ==> |Bag(kept)| + |kept| < |Bag(remaining)| + |remaining|
  {
    next, kept, nextDiscarded := output, [], discarded;
    var i := 0;
    while i < |remaining|
      invariant 0 <= i <= |remaining|
      invariant forall k :: 0 <= k < |kept| ==> Sorted(kept[k])
      invariant SelectionState(next, limit, nextDiscarded)
      invariant multiset(next) + nextDiscarded + Bag(kept) + Bag(remaining[i..])
                == multiset(output) + discarded + Bag(remaining)
      invariant |Bag(kept)| + |kept| + |Bag(remaining[i..])| <= |Bag(remaining)|
    {
      BagFrom(remaining, i);
      next, kept, nextDiscarded := Turn(next, kept, remaining[i], limit, nextDiscarded);
      i := i + 1;
    }
    assert remaining[i..] == [];
  }

  /** Once every source is used up, the state is the selection promised. */
  lemma SelectionComplete(sources: seq<seq<Candidate>>, limit: nat, output: seq<Candidate>,
                          discarded: multiset<Candidate>)
    requires SelectionState(output, limit, discarded)
    requires multiset(output) + discarded == Bag(sources)
    ensures IsEarliestSelection(sources, limit, output)
  {
    assert Bag(sources) - multiset(output) == discarded;
  }

  /** `pendingNotifications()` before the identifiers are collected: round by
      round, each remaining source gives its next candidate. A candidate goes
      in while the output is short of the limit, or when it is earlier than
      the latest one kept, which then falls out; a source stays while it keeps
      contributing. */
  method SelectEarliest(sources: seq<seq<Candidate>>, limit: nat) returns (output: seq<Candidate>)
    requires forall i :: 0 <= i < |sources| ==> Sorted(sources[i])
    ensures IsEarliestSelection(sources, limit, output)
  {
    output := [];
    var remaining := sources;
    ghost var discarded: multiset<Candidate> := multiset{};
    while |remaining| > 0
      invariant forall i :: 0 <= i < |remaining| ==> Sorted(remaining[i])
      invariant SelectionState(output, limit, discarded)
      invariant multiset(output) + discarded + Bag(remaining) == Bag(sources)
      decreases |Bag(remaining)| + |remaining|
    {
      output, remaining, discarded := Round(output, remaining, limit, discarded);
    }
    SelectionComplete(sources, limit, output, discarded);
  }

  /** The identifiers of a selection. */
  function Ids(output: seq<Candidate>): (ids: set<string>)
    ensures forall c :: c in output ==> c.id in ids
    ensures forall s :: s in ids ==> exists c :: c in output && c.id == s
  {
    set c | c in output :: c.id
  }

  /** `pendingNotifications()`: the identifiers of the `limit` earliest
      candidates. */
  method PendingNotifications(sources: seq<seq<Candidate>>, limit: nat) returns (ids: set<string>)
    requires forall i :: 0 <= i < |sources| ==> Sorted(sources[i])
    ensures exists output :: IsEarliestSelection(sources, limit, output) && ids == Ids(output)
  {
    var output := SelectEarliest(sources, limit);
    ids := Ids(output);
  }

  /** A multiset inside another of the same size is that multiset. */
  lemma SameSizeSubBag(a: multiset<Candidate>, b: multiset<Candidate>)
    requires a <= b && |a| == |b|
    ensures a == b
  {
    assert b == a + (b - a);
    assert |b - a| == 0;
  }

  /** When the limit covers every candidate, nothing is left out. */
  lemma SelectionOfEverything(sources: seq<seq<Candidate>>, limit: nat, output: seq<Candidate>)
    requires IsEarliestSelection(sources, limit, output)
    requires |Bag(sources)| <= limit
    ensures multiset(output) == Bag(sources)
  {
    SameSizeSubBag(multiset(output), Bag(sources));
  }

  /** When exactly `limit` candidates are dated no later than `cutoff` and all
      the others later, the selection is exactly those candidates: ties can
      only arise above the cutoff, so the result does not depend on the order
      in which the sources are visited. */
  lemma SelectionBelowCutoff(sources: seq<seq<Candidate>>, limit: nat, output: seq<Candidate>,
                             early: multiset<Candidate>, cutoff: int)
    requires IsEarliestSelection(sources, limit, output)
    requires early <= Bag(sources) && |early| == limit
    requires forall x :: x in early ==> x.date <= cutoff
    requires forall x :: x in Bag(sources) - early ==> x.date > cutoff
    ensures multiset(output) == early
  {
    var all, o := Bag(sources), multiset(output);
    assert |all| >= |early| by {
      assert all == early + (all - early);
    }
    assert |o| == |early|;
    forall y | y in o
      ensures y in early && o[y] <= early[y]
    {
      if !(y in early && o[y] <= early[y]) {
        assert y in all - early;
        var x := MissingFromSelection(o, early);
        assert false;
      }
    }
    assert o <= early;
    SameSizeSubBag(o, early);
  }

  /** Two bags of the same size: unless the first lies inside the second, the
      second has an element with more copies than the first. */
  lemma MissingFromSelection(o: multiset<Candidate>, early: multiset<Candidate>) returns (x: Candidate)
    requires |o| == |early| && !(o <= early)
    ensures early[x] > o[x]
  {
    if forall z :: early[z] <= o[z] {
      SameSizeSubBag(early, o);
      assert false;
    }
    x :| early[x] > o[x];
  }
}

=== FILE: root_data_source.dfy ===
/** The "Your Schedule" list of PreMatch/YourSchedule/YSRootDataSource.swift:
    `Array.uniqued()` and the title of a block's row. */
module YourSchedule {
  import opened Wrappers
  import opened Errors
  import opened Text
  import opened Timetable
  import opened Calendars
  import opened Schedules

  /** The elements of `xs` at their first occurrences, in order. */
  function FirstOccurrences<T(==)>(xs: seq<T>): seq<T> {
    if |xs| == 0 then []
    else
      var init := xs[..|xs| - 1];
      if xs[|xs| - 1] in init then FirstOccurrences(init) else FirstOccurrences(init) + [xs[|xs| - 1]]
  }

  predicate NoDuplicates<T(==)>(xs: seq<T>) {
    forall i, j :: 0 <= i < j < |xs| ==> xs[i] != xs[j]
  }

  /** The index of the first occurrence of `x`. */
  function FirstIndex<T(==)>(xs: seq<T>, x: T): (i: nat)
    requires x in xs
    ensures i < |xs| && xs[i] == x && x !in xs[..i]
  {
    if xs[0] == x then 0 else 1 + FirstIndex(xs[1..], x)
  }

  lemma {:induction false} FirstIndexInPrefix<T>(xs: seq<T>, k: nat, x: T)
    requires k <= |xs| && x in xs[..k]
    ensures FirstIndex(xs, x) == FirstIndex(xs[..k], x)
  {
    if xs[0] != x {
      assert xs[..k][1..] == xs[1..][..k - 1];
      FirstIndexInPrefix(xs[1..], k - 1, x);
    }
  }

  /** `uniqued` keeps each element once, at its first occurrence: no
      duplicates, the same elements, never longer, and in the order in which
      the elements first appear. */
  lemma {:induction false} FirstOccurrencesProperties<T>(xs: seq<T>)
    ensures NoDuplicates(FirstOccurrences(xs))
    ensures forall x :: x in FirstOccurrences(xs) ==> x in xs
    ensures forall x :: x in xs ==> x in FirstOccurrences(xs)
    ensures |FirstOccurrences(xs)| <= |xs|
    ensures forall i, j :: 0 <= i < j < |FirstOccurrences(xs)| ==>
      FirstIndex(xs, FirstOccurrences(xs)[i]) < FirstIndex(xs, FirstOccurrences(xs)[j])
  {
    if |xs| > 0 {
      var n := |xs|;
      var init := xs[..n - 1];
      var last := xs[n - 1];
      FirstOccurrencesProperties(init);
      var p := FirstOccurrences(init);
      assert xs == init + [last];
      forall x | x in p
        ensures FirstIndex(xs, x) == FirstIndex(init, x)
      {
        FirstIndexInPrefix(xs, n - 1, x);
      }
      if last !in init {
        var r := p + [last];
        assert FirstIndex(xs, last) == n - 1;
        forall i, j | 0 <= i < j < |r|
          ensures FirstIndex(xs, r[i]) < FirstIndex(xs, r[j])
        {
          if j < |p| {
            assert r[i] == p[i] && r[j] == p[j];
          } else {
            assert r[i] == p[i];
          }
        }
      }
    }
  }

  /** A sequence without duplicates is left as it is. */
  lemma {:induction false} FirstOccurrencesOfDistinct<T>(xs: seq<T>)
    requires NoDuplicates(xs)
    ensures FirstOccurrences(xs) == xs
  {
    if |xs| > 0 {
      var init := xs[..|xs| - 1];
      assert NoDuplicates(init);
      FirstOccurrencesOfDistinct(init);
      assert xs[|xs| - 1] !in init;
      assert init + [xs[|xs| - 1]] == xs;
    }
  }

  /** Applying `uniqued` twice is applying it once. */
  lemma UniquedIdempotent<T>(xs: seq<T>)
    ensures FirstOccurrences(FirstOccurrences(xs)) == FirstOccurrences(xs)
  {
    FirstOccurrencesProperties(xs);
    FirstOccurrencesOfDistinct(FirstOccurrences(xs));
  }

  /** `uniqued()`: a filter that keeps an element when inserting it into the
      set of elements seen so far succeeds. */
  method Uniqued<T(==)>(xs: seq<T>) returns (r: seq<T>)
    ensures r == FirstOccurrences(xs)
    ensures NoDuplicates(r) && (forall x :: x in r <==> x in xs) && |r| <= |xs|
  {
    var seen: set<T> := {};
    r := [];
    var i := 0;
    while i < |xs|
      invariant 0 <= i <= |xs|
      invariant forall x :: x in seen <==> x in xs[..i]
      invariant r == FirstOccurrences(xs[..i])
    {
      assert xs[..i + 1][..i] == xs[..i];
      if xs[i] !in seen {
        seen := seen + {xs[i]};
        r := r + [xs[i]];
      }
      i := i + 1;
    }
    assert xs[..i] == xs;
    FirstOccurrencesProperties(xs);
  }

  /** The teacher of one semester in the title: the semester index is
      converted with `UInt8(_:)` and the lookup is `try!`, so either traps. */
  function SemesterTeacher(s: Schedule, block: string, semester: nat): (r: Result<string, Error>)
    ensures r.Success? <==> semester < 256 && Teacher(s, block, semester as UInt8).Success?
    ensures r.Success? ==> r.value == Teacher(s, block, semester as UInt8).value
  {
    if semester >= 256 then Failure(Trap("UInt8(_:) of a semester index above 255"))
    else match Teacher(s, block, semester as UInt8)
      case Success(t) => Success(t)
      case Failure(_) => Failure(Trap("try! on a thrown error"))
  }

  /** The teachers of semesters `0 ..< n`, in order (`map` over the range). */
  function SemesterTeachers(s: Schedule, block: string, n: nat): (r: Result<seq<string>, Error>)
    ensures r.Success? <==> forall i :: 0 <= i < n ==> SemesterTeacher(s, block, i).Success?
    ensures r.Success? ==> |r.value| == n && forall i :: 0 <= i < n ==> r.value[i] == SemesterTeacher(s, block, i).value
    ensures r.Failure? ==> r.error.Trap?
  {
    if n == 0 then Success([])
    else
      var earlier :- SemesterTeachers(s, block, n - 1);
      var t :- SemesterTeacher(s, block, n - 1);
      Success(earlier + [t])
  }

  /** `titleFor(block:in:)`: the teachers of the block in each semester, in
      semester order, each named once, joined with " and ". */
  function TitleFor(s: Schedule, block: string): (r: Result<string, Error>)
    ensures r.Success? <==> forall i :: 0 <= i < |s.calendar.semesters| ==> SemesterTeacher(s, block, i).Success?
    ensures r.Success? ==> r.value == Join(FirstOccurrences(SemesterTeachers(s, block, |s.calendar.semesters|).value), " and ")
    ensures r.Failure? ==> r.error.Trap?
  {
    var teachers :- SemesterTeachers(s, block, |s.calendar.semesters|);
    Success(Join(FirstOccurrences(teachers), " and "))
  }

  /** The teachers the mapping names for a block, one per semester, in
      semester order. */
  function MappedTeachers(mapping: map<string, string>, cal: Calendar, block: string, n: nat): (ts: seq<string>)
    requires Covers(mapping, cal) && block in cal.allBlocks && n <= |cal.semesters|
    ensures |ts| == n && forall i :: 0 <= i < n ==> Key(block, i) in mapping && ts[i] == mapping[Key(block, i)]
  {
    if n == 0 then []
    else
      assert Key(block, n - 1) in AllBlockSemesterCombinations(cal);
      MappedTeachers(mapping, cal, block, n - 1) + [mapping[Key(block, n - 1)]]
  }

  /** The teachers of one of the calendar's blocks on a schedule built for
      the calendar: the mapping's entry for each semester, in order. */
  lemma {:induction false} TeachersOfBuiltSchedule(mapping: map<string, string>, cal: Calendar, s: Schedule, block: string, n: nat)
    requires Init(mapping, cal) == Success(s) && n <= |cal.semesters| < 256
    ensures SemesterTeachers(s, block, n).Success? <==> block in cal.allBlocks || n == 0
    ensures block in cal.allBlocks ==> SemesterTeachers(s, block, n).value == MappedTeachers(mapping, cal, block, n)
  {
    if n > 0 {
      TeachersOfBuiltSchedule(mapping, cal, s, block, n - 1);
      TeacherOfBuiltSchedule(mapping, cal, block, (n - 1) as UInt8);
    }
  }

  /** On a schedule built for its calendar, the title of one of the calendar's
      blocks names the block's teachers of every semester, each once, in
      semester order; a block the calendar lacks traps, unless there are no
      semesters. */
  lemma TitleOfBuiltSchedule(mapping: map<string, string>, cal: Calendar, s: Schedule, block: string)
    requires Init(mapping, cal) == Success(s) && |cal.semesters| < 256
    ensures TitleFor(s, block).Success? <==> block in cal.allBlocks || |cal.semesters| == 0
    ensures block in cal.allBlocks ==>
      TitleFor(s, block) == Success(Join(FirstOccurrences(MappedTeachers(mapping, cal, block, |cal.semesters|)), " and "))
  {
    TeachersOfBuiltSchedule(mapping, cal, s, block, |cal.semesters|);
  }
}

/** The titles of the "Your Schedule" rows for the sample schedule. */
module YourScheduleExamples {
  import opened Wrappers
  import opened Text
  import opened Calendars
  import opened Schedules
  import opened CalendarExamples
  import opened BriefingExamples
  import opened YourSchedule

  lemma FirstOccurrencesOfPair(first: string, second: string)
    ensures FirstOccurrences([first, second]) == if first == second then [first] else [first, second]
  {
    var xs := [first, second];
    assert xs[..|xs| - 1] == [first];
    assert [first][..0] == [];
    assert FirstOccurrences([first]) == [first];
    if first == second {
      assert second in [first];
    } else {
      assert second !in [first];
    }
  }

  lemma JoinPair(first: string, second: string)
    ensures Join([first], " and ") == first
    ensures Join([first, second], " and ") == first + " and " + second
  {
    assert [first, second][1..] == [second];
  }

  lemma FirstTwoKeys(block: string)
    ensures Key(block, 0) == block + "1" && Key(block, 1) == block + "2"
  {
    assert NatToString(0 + 1) == "1" && NatToString(1 + 1) == "2";
  }

  lemma TwoMappedTeachers(m: map<string, string>, cal: Calendar, block: string, first: string, second: string)
    requires Covers(m, cal) && |cal.semesters| == 2 && block in cal.allBlocks
    requires Key(block, 0) in m && m[Key(block, 0)] == first
    requires Key(block, 1) in m && m[Key(block, 1)] == second
    ensures MappedTeachers(m, cal, block, 2) == [first, second]
  {
  }

  /** With two semesters, a block's title is its one teacher, or both
      teachers in semester order. */
  lemma TwoSemesterTitle(m: map<string, string>, cal: Calendar, s: Schedule, block: string, first: string, second: string)
    requires Init(m, cal) == Success(s) && |cal.semesters| == 2 && block in cal.allBlocks
    requires block + "1" in m && m[block + "1"] == first
    requires block + "2" in m && m[block + "2"] == second
    ensures TitleFor(s, block) == Success(if first == second then first else first + " and " + second)
  {
    FirstTwoKeys(block);
    TwoMappedTeachers(m, cal, block, first, second);
    TitleOfBuiltSchedule(m, cal, s, block);
    FirstOccurrencesOfPair(first, second);
    JoinPair(first, second);
  }

  lemma SampleBlockTeachers(block: string, first: string, second: string)
    requires (block, first, second) in {("B", "Bach", "Bach"), ("D", "DiBenedetto", "Deschenes")}
    ensures block in BriefingCalendar.allBlocks
    ensures block + "1" in TestMapping && TestMapping[block + "1"] == first
    ensures block + "2" in TestMapping && TestMapping[block + "2"] == second
  {
    assert block == "B" || block == "D";
    assert "B" + "1" == "B1" && "B" + "2" == "B2" && "D" + "1" == "D1" && "D" + "2" == "D2";
  }

  /** A block taught by one teacher all year is titled with that name once. */
  lemma SampleTitleOneTeacher(s: Schedule)
    requires s == TestSchedule
    ensures TitleFor(s, "B") == Success("Bach")
  {
    TestScheduleBuilds();
    SampleBlockTeachers("B", "Bach", "Bach");
    TwoSemesterTitle(TestMapping, BriefingCalendar, s, "B", "Bach", "Bach");
  }

  lemma DistinctTeachers(first: string, second: string)
    requires first == "DiBenedetto" && second == "Deschenes"
    ensures first != second
  {
    assert first[1] != second[1];
  }

  /** A block taught by two teachers names both, first semester first. */
  lemma SampleTitleTwoTeachers(s: Schedule, first: string, second: string)
    requires s == TestSchedule && first == "DiBenedetto" && second == "Deschenes"
    ensures TitleFor(s, "D") == Success(first + " and " + second)
  {
    DistinctTeachers(first, second);
    TestScheduleBuilds();
    SampleBlockTeachers("D", first, second);
    TwoSemesterTitle(TestMapping, BriefingCalendar, s, "D", first, second);
  }
}

=== FILE: schedule.dfy ===
/** A student's schedule: the teacher of every block in every semester
    (SevenPlusH/SphSchedule.swift). Keys are a block name followed by the
    one-based semester number, such as "A1". */
module Schedules {
  import opened Wrappers
  import opened Errors
  import opened Text
  import opened Dates
  import opened Timetable
  import opened Json
  import opened Calendars

  datatype Schedule = Schedule(mapping: map<string, string>, calendar: Calendar)

  /** The first key of `keys` that `m` lacks. */
  function FirstMissing<V>(keys: seq<string>, m: map<string, V>): (r: Option<string>)
    ensures r.None? <==> forall k :: k in keys ==> k in m
    ensures r.Some? ==> r.value in keys && r.value !in m
    ensures r.Some? ==> exists i :: 0 <= i < |keys| && keys[i] == r.value && forall j :: 0 <= j < i ==> keys[j] in m
  {
    if |keys| == 0 then None
    else if keys[0] !in m then Some(keys[0])
    else
      var rest := FirstMissing(keys[1..], m);
      assert forall k :: k in keys ==> k == keys[0] || k in keys[1..];
      if rest.Some? then
        ghost var i :| 0 <= i < |keys[1..]| && keys[1..][i] == rest.value
                       && forall j :: 0 <= j < i ==> keys[1..][j] in m;
        assert keys[i + 1] == rest.value;
        rest
      else rest
  }

  /** Every block-and-semester key of the calendar has a teacher. */
  predicate Covers<V>(m: map<string, V>, cal: Calendar) {
    forall k :: k in AllBlockSemesterCombinations(cal) ==> k in m
  }

  /** `SphSchedule.init(mapping:calendar:)`: every key of the calendar must be
      present, the first one missing is reported, and keys the calendar does
      not use are dropped. */
  function Init(mapping: map<string, string>, cal: Calendar): (r: Result<Schedule, Error>)
    ensures r.Success? <==> Covers(mapping, cal)
    ensures r.Failure? ==> exists k :: k in AllBlockSemesterCombinations(cal) && k !in mapping
                                       && r.error == MissingField(k)
    ensures r.Success? ==>
      (r.value.calendar == cal
       && (forall k :: k in r.value.mapping <==> k in AllBlockSemesterCombinations(cal))
       && (forall k :: k in r.value.mapping ==> r.value.mapping[k] == mapping[k]))
  {
    var keys := AllBlockSemesterCombinations(cal);
    match FirstMissing(keys, mapping)
    case Some(k) => Failure(MissingField(k))
    case None => Success(Schedule(map k | k in mapping && k in keys :: mapping[k], cal))
  }

  /** `applies(to:)`. */
  predicate Applies(s: Schedule, cal: Calendar) {
    Covers(s.mapping, cal)
  }

  /** A schedule that was built for a calendar applies to it. */
  lemma InitApplies(mapping: map<string, string>, cal: Calendar)
    requires Init(mapping, cal).Success?
    ensures Applies(Init(mapping, cal).value, cal)
  {
  }

  /** The first key of the calendar's that maps to a non-string. */
  function FirstNil(keys: seq<string>, m: map<string, Option<string>>): (r: Option<string>)
    ensures r.None? <==> forall k :: k in keys && k in m ==> m[k].Some?
    ensures r.Some? ==> r.value in keys && r.value in m && m[r.value].None?
  {
    if |keys| == 0 then None
    else if keys[0] in m && m[keys[0]].None? then Some(keys[0])
    else
      assert forall k :: k in keys ==> k == keys[0] || k in keys[1..];
      FirstNil(keys[1..], m)
  }

  /** `SphSchedule.from(json:calendar:)`: the JSON must be an object; of its
      members whose keys the calendar uses, every one must be a string, else
      `invalidFormat("Teacher of block <key>", "nil")` names one that is not;
      the strings then go through `init`. The source reports whichever such
      key its dictionary yields first; the model takes the first in key order. */
  function FromJson(json: Json, cal: Calendar): (r: Result<Schedule, Error>)
    ensures !json.JObject? ==> r == Failure(InvalidFormat("(entire expression)", "(not dictionary)"))
    ensures json.JObject? && (exists k :: k in AllBlockSemesterCombinations(cal) && k in json.fields
                                         && !json.fields[k].JString?) ==>
      r.Failure? && exists k :: k in AllBlockSemesterCombinations(cal) && k in json.fields
                               && !json.fields[k].JString? && r.error == InvalidFormat("Teacher of block " + k, "nil")
    ensures json.JObject? && (forall k :: k in AllBlockSemesterCombinations(cal) && k in json.fields ==>
                                           json.fields[k].JString?) ==>
      && (r.Success? <==> forall k :: k in AllBlockSemesterCombinations(cal) ==> k in json.fields)
      && (r.Failure? ==> exists k :: k in AllBlockSemesterCombinations(cal) && k !in json.fields
                                     && r.error == MissingField(k))
    ensures r.Success? ==>
      (json.JObject? && Applies(r.value, cal) && r.value.calendar == cal
       && (forall k :: k in r.value.mapping <==> k in AllBlockSemesterCombinations(cal))
       && forall k :: k in r.value.mapping ==> k in json.fields && json.fields[k] == JString(r.value.mapping[k]))
  {
    match AsObject(json)
    case None => Failure(InvalidFormat("(entire expression)", "(not dictionary)"))
    case Some(fields) =>
      var keys := AllBlockSemesterCombinations(cal);
      var dict := CalendarMembers(fields, keys);
      match FirstNil(keys, dict)
      case Some(k) => Failure(InvalidFormat("Teacher of block " + k, "nil"))
      case None => Init(Unwrapped(dict), cal)
  }

  /** The members of an object whose keys are in `keys`, each read with `.string`. */
  function CalendarMembers(fields: map<string, Json>, keys: seq<string>): (dict: map<string, Option<string>>)
    ensures forall k :: k in dict <==> k in fields && k in keys
    ensures forall k :: k in dict ==> dict[k] == AsString(fields[k])
  {
    map k | k in fields && k in keys :: AsString(fields[k])
  }

  /** `mapValues { $0! }` on a dictionary without nils. */
  function Unwrapped(dict: map<string, Option<string>>): (m: map<string, string>)
    requires forall k :: k in dict ==> dict[k].Some?
    ensures forall k :: k in m <==> k in dict
    ensures forall k :: k in m ==> dict[k] == Some(m[k])
  {
    map k | k in dict :: dict[k].value
  }

  /** A schedule written as a JSON object of teacher strings. */
  function ToJson(s: Schedule): Json {
    JObject(map k | k in s.mapping :: JString(s.mapping[k]))
  }

  /** A built schedule written as JSON reads back as itself. */
  lemma FromJsonRoundTrip(mapping: map<string, string>, cal: Calendar)
    requires Init(mapping, cal).Success?
    ensures FromJson(ToJson(Init(mapping, cal).value), cal) == Init(mapping, cal)
  {
    var s := Init(mapping, cal).value;
    var r := FromJson(ToJson(s), cal);
    assert r.Success?;
    assert r.value.mapping == s.mapping;
  }

  /** `teacher(for:in:)` with a zero-based semester index: the block must be
      one of the calendar's and the index below the number of semesters; the
      index plus one is `UInt8` arithmetic and the key lookup is force-unwrapped,
      so either can trap. */
  function Teacher(s: Schedule, block: string, semesterIndex: UInt8): (r: Result<string, Error>)
    ensures block !in s.calendar.allBlocks ==> r == Failure(OutOfRange("block", block))
    ensures block in s.calendar.allBlocks && semesterIndex >= |s.calendar.semesters| ==>
      r == Failure(OutOfRange("semester index", NatToString(semesterIndex)))
    ensures block in s.calendar.allBlocks && semesterIndex < |s.calendar.semesters| && semesterIndex >= 255 ==>
      r == Failure(Trap("UInt8 overflow"))
    ensures block in s.calendar.allBlocks && semesterIndex < |s.calendar.semesters| && semesterIndex < 255
            && Key(block, semesterIndex) !in s.mapping ==>
      r == Failure(Trap("teacher missing for " + Key(block, semesterIndex)))
    ensures r.Success? <==>
      block in s.calendar.allBlocks && semesterIndex < |s.calendar.semesters| && semesterIndex < 255
      && Key(block, semesterIndex) in s.mapping
    ensures r.Success? ==> Key(block, semesterIndex) in s.mapping && r.value == s.mapping[Key(block, semesterIndex)]
  {
    if block !in s.calendar.allBlocks then Failure(OutOfRange("block", block))
    else if semesterIndex >= |s.calendar.semesters| then
      Failure(OutOfRange("semester index", NatToString(semesterIndex)))
    else if semesterIndex + 1 > 255 then Failure(Trap("UInt8 overflow"))
    else
      var key := block + NatToString(semesterIndex + 1);
      if key !in s.mapping then Failure(Trap("teacher missing for " + key))
      else Success(s.mapping[key])
  }

  /** On a schedule that applies, `teacher(for:in:)` fails only for an unknown
      block or semester, and otherwise gives the teacher the mapping was built with. */
  lemma TeacherOfBuiltSchedule(mapping: map<string, string>, cal: Calendar, block: string, semesterIndex: UInt8)
    requires Init(mapping, cal).Success?
    requires semesterIndex < 255
    ensures Teacher(Init(mapping, cal).value, block, semesterIndex).Success? <==>
      block in cal.allBlocks && semesterIndex < |cal.semesters|
    ensures Teacher(Init(mapping, cal).value, block, semesterIndex).Success? ==>
      Teacher(Init(mapping, cal).value, block, semesterIndex).value == mapping[Key(block, semesterIndex)]
  {
    if block in cal.allBlocks && semesterIndex < |cal.semesters| {
      assert Key(block, semesterIndex) in AllBlockSemesterCombinations(cal);
    }
  }

  /** `currentTeacher(for:)` with today's date passed in: the teacher for the
      semester containing it, or `outOfRange` outside every semester. */
  function CurrentTeacher(s: Schedule, block: string, today: Date): (r: Result<string, Error>)
    ensures SemesterIndexOf(s.calendar, today).None? ==> r == Failure(CalendarOutOfRange)
    ensures SemesterIndexOf(s.calendar, today).Some? ==> r == Teacher(s, block, SemesterIndexOf(s.calendar, today).value)
  {
    match SemesterIndexOf(s.calendar, today)
    case None => Failure(CalendarOutOfRange)
    case Some(i) => Teacher(s, block, i)
  }
}

=== FILE: scheduler_examples.dfy ===
/** The scheduler tests (PreMatchTests/NotificationSchedulerTest.swift): three
    sources of dated identifiers, selected under four limits. Instants are
    hours after midnight on 2020-04-03. The test helper `plus(hours:)` always
    adds one hour, whatever it is asked for, so "b4" lies one hour after
    midnight on 2020-04-04, not two. */
module SchedulerExamples {
  import opened Scheduler

  const Day: int := 24

  function TestSources(): seq<seq<Candidate>> {
    [ [Candidate("a1", 0), Candidate("a2", Day), Candidate("a3", 2 * Day), Candidate("a4", 5 * Day)],
      [Candidate("b1", 0), Candidate("b2", 1), Candidate("b3", Day), Candidate("b4", Day + 1)],
      [Candidate("c1", 5 * Day), Candidate("c2", 9 * Day), Candidate("c3", 17 * Day)] ]
  }

  /** The sources are date-sorted, as the scheduler requires. */
  lemma TestSourcesSorted(sources: seq<seq<Candidate>>)
    requires sources == TestSources()
    ensures forall i :: 0 <= i < |sources| ==> Sorted(sources[i])
  {
    forall i | 0 <= i < |sources|
      ensures Sorted(sources[i])
    {
    }
  }

  /** The candidates before each source's cut, and those from it on. */
  function Heads(sources: seq<seq<Candidate>>, cut: seq<nat>): multiset<Candidate>
    requires |cut| == |sources| && forall i :: 0 <= i < |sources| ==> cut[i] <= |sources[i]|
  {
    if |sources| == 0 then multiset{}
    else multiset(sources[0][..cut[0]]) + Heads(sources[1..], cut[1..])
  }

  function Tails(sources: seq<seq<Candidate>>, cut: seq<nat>): multiset<Candidate>
    requires |cut| == |sources| && forall i :: 0 <= i < |sources| ==> cut[i] <= |sources[i]|
  {
    if |sources| == 0 then multiset{}
    else multiset(sources[0][cut[0]..]) + Tails(sources[1..], cut[1..])
  }

  function Sum(cut: seq<nat>): nat {
    if |cut| == 0 then 0 else cut[0] + Sum(cut[1..])
  }

  lemma SumOfThree(cut: seq<nat>)
    requires |cut| == 3
    ensures Sum(cut) == cut[0] + cut[1] + cut[2]
  {
    assert cut[1..][1..] == cut[2..];
    assert Sum(cut[2..]) == cut[2] by {
      assert cut[2..][1..] == [];
    }
  }

  lemma HeadsOfThree(sources: seq<seq<Candidate>>, cut: seq<nat>)
    requires |sources| == 3 && |cut| == 3
    requires forall i :: 0 <= i < 3 ==> cut[i] <= |sources[i]|
    ensures Heads(sources, cut) ==
      multiset(sources[0][..cut[0]]) + multiset(sources[1][..cut[1]]) + multiset(sources[2][..cut[2]])
  {
    assert sources[1..][1..] == sources[2..];
    assert cut[1..][1..] == cut[2..];
    assert Heads(sources[2..], cut[2..]) == multiset(sources[2][..cut[2]]) by {
      assert sources[2..][1..] == [];
    }
  }

  /** The identifiers of a list of candidates, one by one. */
  function IdsOf(xs: seq<Candidate>): set<string> {
    if |xs| == 0 then {} else {xs[0].id} + IdsOf(xs[1..])
  }

  lemma {:induction false} IdsOfMembers(xs: seq<Candidate>)
    ensures forall s :: s in IdsOf(xs) <==> exists x :: x in xs && x.id == s
  {
    if |xs| > 0 {
      IdsOfMembers(xs[1..]);
      assert forall x :: x in xs <==> x == xs[0] || x in xs[1..];
    }
  }

  lemma {:induction false} IdsOfAppend(xs: seq<Candidate>, ys: seq<Candidate>)
    ensures IdsOf(xs + ys) == IdsOf(xs) + IdsOf(ys)
  {
    if |xs| > 0 {
      assert (xs + ys)[1..] == xs[1..] + ys;
      IdsOfAppend(xs[1..], ys);
    } else {
      assert xs + ys == ys;
    }
  }

  lemma IdsOfOne(x: Candidate)
    ensures IdsOf([x]) == {x.id}
  {
    assert [x][1..] == [];
  }

  lemma IdsOfPrefix(s: seq<Candidate>, k: nat)
    requires k < |s|
    ensures IdsOf(s[..k + 1]) == IdsOf(s[..k]) + {s[k].id}
  {
    assert s[..k + 1] == s[..k] + [s[k]];
    IdsOfAppend(s[..k], [s[k]]);
    IdsOfOne(s[k]);
  }

  lemma IdsOfHeads(s0: seq<Candidate>, s1: seq<Candidate>, s2: seq<Candidate>, c0: nat, c1: nat, c2: nat)
    requires c0 <= |s0| && c1 <= |s1| && c2 <= |s2|
    ensures IdsOf(s0[..c0] + s1[..c1] + s2[..c2]) == IdsOf(s0[..c0]) + IdsOf(s1[..c1]) + IdsOf(s2[..c2])
  {
    IdsOfAppend(s0[..c0] + s1[..c1], s2[..c2]);
    IdsOfAppend(s0[..c0], s1[..c1]);
  }

  /** The identifiers of a selection depend only on what it holds. */
  lemma IdsOfBag(output: seq<Candidate>, xs: seq<Candidate>)
    requires multiset(output) == multiset(xs)
    ensures Ids(output) == IdsOf(xs)
  {
    IdsOfMembers(xs);
    assert forall x :: x in output <==> x in multiset(output);
    assert forall x :: x in xs <==> x in multiset(xs);
  }

  /** Cutting every source splits the candidates into heads and tails, and the
      heads number the sum of the cuts. */
  lemma {:induction false} CutSplitsBag(sources: seq<seq<Candidate>>, cut: seq<nat>)
    requires |cut| == |sources| && forall i :: 0 <= i < |sources| ==> cut[i] <= |sources[i]|
    ensures Bag(sources) == Heads(sources, cut) + Tails(sources, cut)
    ensures |Heads(sources, cut)| == Sum(cut)
  {
    if |sources| > 0 {
      CutSplitsBag(sources[1..], cut[1..]);
      assert sources[0] == sources[0][..cut[0]] + sources[0][cut[0]..];
    }
  }

  /** Every source is cut between a candidate dated no later than `cutoff` and
      one dated later. */
  predicate CutAt(sources: seq<seq<Candidate>>, cut: seq<nat>, cutoff: int) {
    && |cut| == |sources|
    && forall i :: 0 <= i < |sources| ==>
         && cut[i] <= |sources[i]|
         && (cut[i] > 0 ==> sources[i][cut[i] - 1].date <= cutoff)
         && (cut[i] < |sources[i]| ==> sources[i][cut[i]].date > cutoff)
  }

  /** In sorted sources cut at `cutoff`, the heads are dated no later than it
      and the tails later. */
  lemma {:induction false} CutSeparates(sources: seq<seq<Candidate>>, cut: seq<nat>, cutoff: int)
    requires forall i :: 0 <= i < |sources| ==> Sorted(sources[i])
    requires CutAt(sources, cut, cutoff)
    ensures forall x :: x in Heads(sources, cut) ==> x.date <= cutoff
    ensures forall x :: x in Tails(sources, cut) ==> x.date > cutoff
  {
    if |sources| > 0 {
      assert forall i :: 0 <= i < |sources[1..]| ==> sources[1..][i] == sources[i + 1];
      CutSeparates(sources[1..], cut[1..], cutoff);
      SourceCutSeparates(sources[0], cut[0], cutoff);
    }
  }

  /** One sorted source cut at `cutoff`. */
  lemma SourceCutSeparates(s: seq<Candidate>, c: nat, cutoff: int)
    requires Sorted(s) && c <= |s|
    requires c > 0 ==> s[c - 1].date <= cutoff
    requires c < |s| ==> s[c].date > cutoff
    ensures forall x :: x in s[..c] ==> x.date <= cutoff
    ensures forall x :: x in s[c..] ==> x.date > cutoff
  {
    forall x | x in s[..c]
      ensures x.date <= cutoff
    {
      var j :| 0 <= j < c && x == s[..c][j];
      assert s[j].date <= s[c - 1].date;
    }
    forall x | x in s[c..]
      ensures x.date > cutoff
    {
      var j :| 0 <= j < |s| - c && x == s[c..][j];
      assert s[c].date <= s[c + j].date;
    }
  }

  /** When sorted sources are each cut at `cutoff` and the cuts add up to the
      limit, the selection is exactly what lies before the cuts. */
  lemma CutSelection(sources: seq<seq<Candidate>>, cut: seq<nat>, cutoff: int, output: seq<Candidate>)
    requires forall i :: 0 <= i < |sources| ==> Sorted(sources[i])
    requires CutAt(sources, cut, cutoff)
    requires IsEarliestSelection(sources, Sum(cut), output)
    ensures multiset(output) == Heads(sources, cut)
  {
    CutSplitsBag(sources, cut);
    CutSeparates(sources, cut, cutoff);
    var early := Heads(sources, cut);
    assert Bag(sources) - early == Tails(sources, cut);
    SelectionBelowCutoff(sources, Sum(cut), output, early, cutoff);
  }

  /** The cuts the tests call for: after the first hour, after the first day
      (2020-04-04 00:00), and after 2020-04-08 00:00. */
  lemma TestCut(sources: seq<seq<Candidate>>, cut: seq<nat>, cutoff: int)
    requires sources == TestSources()
    requires (cut == [1, 2, 0] && cutoff == 1) || (cut == [2, 3, 0] && cutoff == Day)
             || (cut == [4, 4, 1] && cutoff == 5 * Day)
    ensures CutAt(sources, cut, cutoff)
  {
    forall i | 0 <= i < |sources|
      ensures && cut[i] <= |sources[i]|
              && (cut[i] > 0 ==> sources[i][cut[i] - 1].date <= cutoff)
              && (cut[i] < |sources[i]| ==> sources[i][cut[i]].date > cutoff)
    {
    }
  }

  /** Three sorted sources cut at `cutoff`: the selection's identifiers are
      those before the cuts. */
  lemma ThreeSourceSelection(sources: seq<seq<Candidate>>, cut: seq<nat>, cutoff: int, output: seq<Candidate>)
    requires |sources| == 3 && forall i :: 0 <= i < 3 ==> Sorted(sources[i])
    requires CutAt(sources, cut, cutoff)
    requires IsEarliestSelection(sources, cut[0] + cut[1] + cut[2], output)
    ensures Ids(output) == IdsOf(sources[0][..cut[0]] + sources[1][..cut[1]] + sources[2][..cut[2]])
  {
    SumOfThree(cut);
    CutSelection(sources, cut, cutoff, output);
    HeadsOfThree(sources, cut);
    IdsOfBag(output, sources[0][..cut[0]] + sources[1][..cut[1]] + sources[2][..cut[2]]);
  }

  /** The identifiers the scheduler returns for the test sources under a
      test's cut. */
  lemma TestIds(sources: seq<seq<Candidate>>, cut: seq<nat>, cutoff: int, limit: nat, output: seq<Candidate>)
    requires |sources| == 3 && forall i :: 0 <= i < 3 ==> Sorted(sources[i])
    requires CutAt(sources, cut, cutoff) && limit == cut[0] + cut[1] + cut[2]
    requires IsEarliestSelection(sources, limit, output)
    ensures Ids(output) == IdsOf(sources[0][..cut[0]]) + IdsOf(sources[1][..cut[1]]) + IdsOf(sources[2][..cut[2]])
  {
    ThreeSourceSelection(sources, cut, cutoff, output);
    IdsOfHeads(sources[0], sources[1], sources[2], cut[0], cut[1], cut[2]);
  }

  lemma FirstDayHeads(s0: seq<Candidate>, s1: seq<Candidate>, s2: seq<Candidate>)
    requires |s0| >= 1 && |s1| >= 2
    ensures IdsOf(s0[..1]) + IdsOf(s1[..2]) + IdsOf(s2[..0]) == {s0[0].id, s1[0].id, s1[1].id}
  {
    IdsOfPrefix(s0, 0);
    IdsOfPrefix(s1, 0);
    IdsOfPrefix(s1, 1);
    assert s0[..0] == s1[..0] == s2[..0] == [];
  }

  lemma FirstFewHeads(s0: seq<Candidate>, s1: seq<Candidate>, s2: seq<Candidate>)
    requires |s0| >= 2 && |s1| >= 3
    ensures IdsOf(s0[..2]) + IdsOf(s1[..3]) + IdsOf(s2[..0])
         == {s0[0].id, s0[1].id, s1[0].id, s1[1].id, s1[2].id}
  {
    IdsOfPrefix(s0, 0);
    IdsOfPrefix(s0, 1);
    IdsOfPrefix(s1, 0);
    IdsOfPrefix(s1, 1);
    IdsOfPrefix(s1, 2);
    assert s0[..0] == s1[..0] == s2[..0] == [];
  }

  lemma IdsOfFour(s: seq<Candidate>)
    requires |s| == 4
    ensures IdsOf(s) == {s[0].id, s[1].id, s[2].id, s[3].id}
  {
    IdsOfPrefix(s, 0);
    IdsOfPrefix(s, 1);
    IdsOfPrefix(s, 2);
    IdsOfPrefix(s, 3);
    assert s[..0] == [] && s[..4] == s;
  }

  lemma WithoutAFewHeads(s0: seq<Candidate>, s1: seq<Candidate>, s2: seq<Candidate>)
    requires |s0| == 4 && |s1| == 4 && |s2| >= 1
    ensures IdsOf(s0[..4]) + IdsOf(s1[..4]) + IdsOf(s2[..1])
         == {s0[0].id, s0[1].id, s0[2].id, s0[3].id, s1[0].id, s1[1].id, s1[2].id, s1[3].id, s2[0].id}
  {
    assert s0[..4] == s0 && s1[..4] == s1;
    IdsOfFour(s0);
    IdsOfFour(s1);
    IdsOfPrefix(s2, 0);
    assert s2[..0] == [];
  }

  lemma IdsOfThree(s: seq<Candidate>)
    requires |s| == 3
    ensures IdsOf(s) == {s[0].id, s[1].id, s[2].id}
  {
    IdsOfPrefix(s, 0);
    IdsOfPrefix(s, 1);
    IdsOfPrefix(s, 2);
    assert s[..0] == [] && s[..3] == s;
  }

  /** Three sources hold what their concatenation holds. */
  lemma BagOfThree(sources: seq<seq<Candidate>>)
    requires |sources| == 3
    ensures Bag(sources) == multiset(sources[0] + sources[1] + sources[2])
  {
    assert sources[1..][1..] == sources[2..];
    assert Bag(sources[2..]) == multiset(sources[2]) by {
      assert sources[2..][1..] == [];
    }
  }

  /** The identifiers of the three sources, all of them. */
  lemma AllIds(sources: seq<seq<Candidate>>, output: seq<Candidate>)
    requires |sources| == 3 && |sources[0]| == 4 && |sources[1]| == 4 && |sources[2]| == 3
    requires multiset(output) == Bag(sources)
    ensures Ids(output) == {sources[0][0].id, sources[0][1].id, sources[0][2].id, sources[0][3].id,
                            sources[1][0].id, sources[1][1].id, sources[1][2].id, sources[1][3].id,
                            sources[2][0].id, sources[2][1].id, sources[2][2].id}
  {
    var s0, s1, s2 := sources[0], sources[1], sources[2];
    BagOfThree(sources);
    IdsOfBag(output, s0 + s1 + s2);
    IdsOfAppend(s0 + s1, s2);
    IdsOfAppend(s0, s1);
    IdsOfFour(s0);
    IdsOfFour(s1);
    IdsOfThree(s2);
  }

  /** Any selection with room for every candidate. */
  lemma AllAvailableOutcome(sources: seq<seq<Candidate>>)
    requires sources == TestSources()
    ensures forall output :: IsEarliestSelection(sources, DefaultLimit, output) ==>
      Ids(output) == {"a1", "a2", "a3", "a4", "b1", "b2", "b3", "b4", "c1", "c2", "c3"}
  {
    BagOfThree(sources);
    assert |Bag(sources)| == 11;
    forall output | IsEarliestSelection(sources, DefaultLimit, output)
      ensures Ids(output) == {"a1", "a2", "a3", "a4", "b1", "b2", "b3", "b4", "c1", "c2", "c3"}
    {
      SelectionOfEverything(sources, DefaultLimit, output);
      AllIds(sources, output);
    }
  }

  /** Any selection of three from the test sources. */
  lemma FirstDayOutcome(sources: seq<seq<Candidate>>)
    requires sources == TestSources()
    ensures forall output :: IsEarliestSelection(sources, 3, output) ==> Ids(output) == {"a1", "b1", "b2"}
  {
    TestSourcesSorted(sources);
    TestCut(sources, [1, 2, 0], 1);
    FirstDayHeads(sources[0], sources[1], sources[2]);
    forall output | IsEarliestSelection(sources, 3, output)
      ensures Ids(output) == {"a1", "b1", "b2"}
    {
      TestIds(sources, [1, 2, 0], 1, 3, output);
    }
  }

  /** Any selection of five from the test sources. */
  lemma FirstFewOutcome(sources: seq<seq<Candidate>>)
    requires sources == TestSources()
    ensures forall output :: IsEarliestSelection(sources, 5, output) ==>
      Ids(output) == {"a1", "a2", "b1", "b2", "b3"}
  {
    TestSourcesSorted(sources);
    TestCut(sources, [2, 3, 0], Day);
    FirstFewHeads(sources[0], sources[1], sources[2]);
    forall output | IsEarliestSelection(sources, 5, output)
      ensures Ids(output) == {"a1", "a2", "b1", "b2", "b3"}
    {
      TestIds(sources, [2, 3, 0], Day, 5, output);
    }
  }

  /** Any selection of nine from the test sources. */
  lemma WithoutAFewOutcome(sources: seq<seq<Candidate>>)
    requires sources == TestSources()
    ensures forall output :: IsEarliestSelection(sources, 9, output) ==>
      Ids(output) == {"a1", "a2", "a3", "a4", "b1", "b2", "b3", "b4", "c1"}
  {
    TestSourcesSorted(sources);
    TestCut(sources, [4, 4, 1], 5 * Day);
    WithoutAFewHeads(sources[0], sources[1], sources[2]);
    forall output | IsEarliestSelection(sources, 9, output)
      ensures Ids(output) == {"a1", "a2", "a3", "a4", "b1", "b2", "b3", "b4", "c1"}
    {
      TestIds(sources, [4, 4, 1], 5 * Day, 9, output);
    }
  }

  /** `testScheduleFirstDay`: with room for three, the selection is everything
      up to one hour in. */
  method ScheduleFirstDay() returns (ids: set<string>)
    ensures ids == {"a1", "b1", "b2"}
  {
    var sources := TestSources();
    TestSourcesSorted(sources);
    FirstDayOutcome(sources);
    ids := PendingNotifications(sources, 3);
  }

  /** `testScheduleFirstFew`: room for five takes everything up to the start
      of 2020-04-04. */
  method ScheduleFirstFew() returns (ids: set<string>)
    ensures ids == {"a1", "a2", "b1", "b2", "b3"}
  {
    var sources := TestSources();
    TestSourcesSorted(sources);
    FirstFewOutcome(sources);
    ids := PendingNotifications(sources, 5);
  }

  /** `testScheduleWithoutAFew`: room for nine leaves out the two latest. */
  method ScheduleWithoutAFew() returns (ids: set<string>)
    ensures ids == {"a1", "a2", "a3", "a4", "b1", "b2", "b3", "b4", "c1"}
  {
    var sources := TestSources();
    TestSourcesSorted(sources);
    WithoutAFewOutcome(sources);
    ids := PendingNotifications(sources, 9);
  }

  /** `testScheduleAllAvailable`: with the default limit of 64 every
      candidate is kept. */
  method ScheduleAllAvailable() returns (ids: set<string>)
    ensures ids == {"a1", "a2", "a3", "a4", "b1", "b2", "b3", "b4", "c1", "c2", "c3"}
  {
    var sources := TestSources();
    TestSourcesSorted(sources);
    AllAvailableOutcome(sources);
    ids := PendingNotifications(sources, DefaultLimit);
  }
}

=== FILE: text.dfy ===
/** String helpers the Swift code gets from its standard library: decimal
    printing (`String(n)`) and parsing (`UInt8(s)`), `joined(separator:)`,
    `split(separator:)`, prefix and substring tests. */
module Text {
  import opened Wrappers

  predicate IsDigit(c: char) {
    '0' <= c <= '9'
  }

  predicate AllDigits(s: string) {
    forall i :: 0 <= i < |s| ==> IsDigit(s[i])
  }

  function DigitChar(d: nat): (c: char)
    requires d < 10
    ensures IsDigit(c)
  {
    ['0', '1', '2', '3', '4', '5', '6', '7', '8', '9'][d]
  }

  function DigitValue(c: char): (d: nat)
    requires IsDigit(c)
    ensures d < 10
  {
    (c as int) - ('0' as int)
  }

  /** `String(n)` for a non-negative integer: decimal, no leading zeros. */
  function NatToString(n: nat): (s: string)
    ensures |s| > 0 && AllDigits(s)
    ensures n < 10 <==> |s| == 1
  {
    if n < 10 then [DigitChar(n)] else NatToString(n / 10) + [DigitChar(n % 10)]
  }

  /** `String(n)` for any integer, with a leading minus sign when negative. */
  function IntToString(n: int): string {
    if n < 0 then "-" + NatToString(-n) else NatToString(n)
  }

  function DigitsValue(s: string): nat
    requires AllDigits(s)
  {
    if |s| == 0 then 0 else DigitsValue(s[..|s| - 1]) * 10 + DigitValue(s[|s| - 1])
  }

  /** Decimal parsing of a non-empty run of digits (leading zeros allowed). */
  function ParseNat(s: string): (r: Option<nat>)
    ensures r.Some? <==> |s| > 0 && AllDigits(s)
  {
    if |s| > 0 && AllDigits(s) then Some(DigitsValue(s)) else None
  }

  lemma DigitRoundTrip(d: nat)
    requires d < 10
    ensures DigitValue(DigitChar(d)) == d
  {
  }

  /** Printing and then parsing a number gives the number back. */
  lemma {:induction false} ParseNatToString(n: nat)
    ensures ParseNat(NatToString(n)) == Some(n)
  {
    var s := NatToString(n);
    if n < 10 {
      DigitRoundTrip(n);
    } else {
      ParseNatToString(n / 10);
      assert s[..|s| - 1] == NatToString(n / 10);
      DigitRoundTrip(n % 10);
      assert DigitsValue(s) == DigitsValue(NatToString(n / 10)) * 10 + n % 10;
    }
  }

  lemma NatToStringInjective(a: nat, b: nat)
    requires NatToString(a) == NatToString(b)
    ensures a == b
  {
    ParseNatToString(a);
    ParseNatToString(b);
  }

  /** `joined(separator:)`. */
  function Join(xs: seq<string>, sep: string): string {
    if |xs| == 0 then ""
    else if |xs| == 1 then xs[0]
    else xs[0] + sep + Join(xs[1..], sep)
  }

  /** `joined()` with the empty separator. */
  function Concat(xs: seq<string>): string {
    Join(xs, "")
  }

  /** Joining one more item appends the separator and the item. */
  lemma {:induction false} JoinSnoc(xs: seq<string>, x: string, sep: string)
    requires |xs| > 0
    ensures Join(xs + [x], sep) == Join(xs, sep) + sep + x
  {
    if |xs| == 1 {
      assert xs + [x] == [xs[0], x];
    } else {
      assert (xs + [x])[1..] == xs[1..] + [x];
      JoinSnoc(xs[1..], x, sep);
    }
  }

  predicate HasPrefix(s: string, p: string) {
    |p| <= |s| && s[..|p|] == p
  }

  /** Substring containment, as `String.contains(_:)` with a string argument. */
  predicate ContainsText(s: string, sub: string)
    decreases |s|
  {
    HasPrefix(s, sub) || (|s| > 0 && ContainsText(s[1..], sub))
  }

  lemma {:induction false} ContainsTextOfSplit(a: string, sub: string, b: string)
    ensures ContainsText(a + sub + b, sub)
    decreases |a|
  {
    if |a| == 0 {
      assert (a + sub + b)[..|sub|] == sub;
    } else {
      assert (a + sub + b)[1..] == a[1..] + sub + b;
      ContainsTextOfSplit(a[1..], sub, b);
    }
  }

  function IndexOf(s: string, c: char): (i: nat)
    requires c in s
    ensures i < |s| && s[i] == c && c !in s[..i]
  {
    if s[0] == c then 0 else 1 + IndexOf(s[1..], c)
  }

  /** `split(separator:)` with its defaults: every occurrence of the separator
      cuts, and empty pieces are dropped. */
  function Split(s: string, c: char): (pieces: seq<string>)
    ensures forall k :: 0 <= k < |pieces| ==> |pieces[k]| > 0 && c !in pieces[k]
    decreases |s|
  {
    if c !in s then (if |s| == 0 then [] else [s])
    else
      var i := IndexOf(s, c);
      (if i == 0 then [] else [s[..i]]) + Split(s[i + 1..], c)
  }

  /** Two non-empty pieces around one separator split back into those pieces. */
  lemma SplitAroundOne(a: string, c: char, b: string)
    requires |a| > 0 && |b| > 0 && c !in a && c !in b
    ensures Split(a + [c] + b, c) == [a, b]
  {
    var s := a + [c] + b;
    assert s[|a|] == c;
    assert s[..|a|] == a;
    var i := IndexOf(s, c);
    assert i == |a|;
    assert s[i + 1..] == b;
  }
}

=== FILE: timetable.dfy ===
/** Wall-clock times and periods (SevenPlusH/SphTimetable.swift). */
module Timetable {

  /** Swift's `UInt8`. */
  type UInt8 = n: int | 0 <= n < 256

  /** A time of day. The only constructor is `MakeTime`, which wraps the hour
      modulo 24 and the minute modulo 60. */
  datatype Time = Time(hour: UInt8, minute: UInt8) {
    predicate Valid() {
      hour < 24 && minute < 60
    }
  }

  /** `Time.init(_:_:)`. */
  function MakeTime(h: UInt8, m: UInt8): (t: Time)
    ensures t.Valid()
    ensures (h - t.hour) % 24 == 0 && (m - t.minute) % 60 == 0
    ensures h < 24 && m < 60 ==> t == Time(h, m)
  {
    Time(h % 24, m % 60)
  }

  /** `minutesIntoDay()`: the time as minutes since midnight. */
  function Minutes(t: Time): nat {
    t.hour * 60 + t.minute
  }

  /** `<` on times. */
  predicate Less(a: Time, b: Time) {
    Minutes(a) < Minutes(b)
  }

  /** `==` on times. */
  predicate Same(a: Time, b: Time) {
    Minutes(a) == Minutes(b)
  }

  /** `a - b`: the signed difference in minutes. */
  function Diff(a: Time, b: Time): int {
    Minutes(a) - Minutes(b)
  }

  /** On constructed times `==` is structural equality, `<` is a strict total
      order, and exactly one of `a < b`, `a == b`, `b < a` holds. */
  lemma TimeOrderIsTotal(a: Time, b: Time)
    requires a.Valid() && b.Valid()
    ensures Same(a, b) <==> a == b
    ensures !Less(a, a)
    ensures (Less(a, b) && !Same(a, b) && !Less(b, a))
         || (!Less(a, b) && Same(a, b) && !Less(b, a))
         || (!Less(a, b) && !Same(a, b) && Less(b, a))
  {
  }

  lemma LessIsTransitive(a: Time, b: Time, c: Time)
    requires Less(a, b) && Less(b, c)
    ensures Less(a, c)
  {
  }

  /** The difference is antisymmetric and measures how far `b` lies after `a`. */
  lemma DiffProperties(a: Time, b: Time)
    ensures Diff(a, b) == -Diff(b, a)
    ensures Minutes(b) + Diff(a, b) == Minutes(a)
    ensures Diff(a, b) > 0 <==> Less(b, a)
    ensures Diff(a, b) == 0 <==> Same(a, b)
  {
  }

  /** A period of the timetable; also any `TimeSpan` given by a start and an end. */
  datatype Period = Period(start: Time, end: Time)

  /** The span is normalised: its start is not after its end. */
  predicate Ordered(p: Period) {
    !Less(p.end, p.start)
  }

  /** `Period.init(from:to:)`: Swift's `min` and `max` order the two ends. */
  function MakePeriod(from: Time, to: Time): (p: Period)
    ensures Ordered(p)
    ensures (p.start == from && p.end == to) || (p.start == to && p.end == from)
  {
    Period(if Less(to, from) then to else from, if !Less(to, from) then to else from)
  }

  /** The constructor does not care in which order the ends are given. */
  lemma MakePeriodSymmetric(a: Time, b: Time)
    requires a.Valid() && b.Valid()
    ensures MakePeriod(a, b) == MakePeriod(b, a)
  {
    TimeOrderIsTotal(a, b);
  }

  /** `length`: the minutes from start to end, never negative. */
  function Length(p: Period): (n: nat)
    requires Ordered(p)
    ensures Minutes(p.start) + n == Minutes(p.end)
  {
    Diff(p.end, p.start)
  }

  /** `TimeSpan.includes` / `Time.isInside`: inclusive at both ends. */
  predicate Includes(p: Period, t: Time) {
    !Less(t, p.start) && !Less(p.end, t)
  }

  /** `Time.isBefore`. */
  predicate IsBefore(t: Time, p: Period) {
    Less(t, p.start)
  }

  /** `Time.isAfter`: `t > span.end`. */
  predicate IsAfter(t: Time, p: Period) {
    Less(p.end, t)
  }

  /** Inside means between the ends, both included, by minutes since midnight;
      for a normalised span exactly one of before, inside and after holds. */
  lemma SpanTrichotomy(p: Period, t: Time)
    requires Ordered(p)
    ensures Includes(p, t) <==> Minutes(p.start) <= Minutes(t) <= Minutes(p.end)
    ensures IsBefore(t, p) <==> Minutes(t) < Minutes(p.start)
    ensures IsAfter(t, p) <==> Minutes(p.end) < Minutes(t)
    ensures (IsBefore(t, p) && !Includes(p, t) && !IsAfter(t, p))
         || (!IsBefore(t, p) && Includes(p, t) && !IsAfter(t, p))
         || (!IsBefore(t, p) && !Includes(p, t) && IsAfter(t, p))
  {
  }

  /** `SphTimetable`: the block names, the rotation table and the three period
      lists. */
  datatype SphTimetable = SphTimetable(
    blocks: seq<string>,
    standardBlocks: seq<seq<string>>,
    standardDayPeriods: seq<Period>,
    halfDayPeriods: seq<Period>,
    examDayPeriods: seq<Period>)

  /** The wrap-around examples: 24:00 is 0:00 and 10:60 is 10:00. */
  lemma WrapExamples()
    ensures MakeTime(24, 0) == MakeTime(0, 0)
    ensures MakeTime(10, 60) == MakeTime(10, 0)
    ensures Less(MakeTime(10, 10), MakeTime(14, 0))
  {
  }

  /** 14:15 - 12:52 is 83 minutes and the reverse is -83; 1:14 to 5:42 is 268
      minutes long; a period ending before it starts is normalised. */
  lemma ArithmeticExamples()
    ensures Diff(MakeTime(14, 15), MakeTime(12, 52)) == 83
    ensures Diff(MakeTime(12, 52), MakeTime(14, 15)) == -83
    ensures Length(MakePeriod(MakeTime(1, 14), MakeTime(5, 42))) == 268
    ensures Length(MakePeriod(MakeTime(12, 20), MakeTime(12, 50))) == 30
    ensures MakePeriod(MakeTime(12, 20), MakeTime(12, 0)) == MakePeriod(MakeTime(12, 0), MakeTime(12, 20))
  {
  }

  /** 10:20-11:20 holds 10:45 and both of its ends, but not 10:19. */
  lemma InclusionExamples()
    ensures Includes(MakePeriod(MakeTime(10, 20), MakeTime(11, 20)), MakeTime(10, 45))
    ensures Includes(MakePeriod(MakeTime(10, 20), MakeTime(11, 20)), MakeTime(10, 20))
    ensures Includes(MakePeriod(MakeTime(10, 20), MakeTime(11, 20)), MakeTime(11, 20))
    ensures !Includes(MakePeriod(MakeTime(10, 20), MakeTime(11, 20)), MakeTime(10, 19))
  {
  }
}

=== FILE: wrappers.dfy ===
/** Option and Result types, failure-compatible so that `:-` can be used.
    A Swift `throws` becomes a `Result`, a Swift optional becomes an `Option`. */
module Wrappers {

  datatype Option<+T> = None | Some(value: T) {
    predicate IsFailure() { None? }

    function PropagateFailure<U>(): Option<U>
      requires None?
    {
      None
    }

    function Extract(): T
      requires Some?
    {
      value
    }

    /** Swift's `x ?? default`. */
    function GetOr(default: T): T {
      match this
      case Some(v) => v
      case None => default
    }
  }

  datatype Result<+R, +E> = Success(value: R) | Failure(error: E) {
    predicate IsFailure() { Failure? }

    function PropagateFailure<U>(): Result<U, E>
      requires Failure?
    {
      Failure(error)
    }

    function Extract(): R
      requires Success?
    {
      value
    }
  }
}

/** The errors of the SevenPlusH framework: the three `ParseError` cases, the
    single `CalendarError` case, the two `NotificationConfigError` cases the
    notification logic throws, and `Trap` for the inputs on which the Swift code
    stops with a runtime trap (a force unwrap of nil, an array index out of range,
    a `DateInterval` whose end precedes its start, a `UInt8` overflow). A trap is
    not an error the source throws; it is kept apart so that contracts can say
    exactly which inputs reach one. */
module Errors {
  datatype Error =
    | MissingField(name: string)
    | InvalidFormat(fieldType: string, invalidValue: string)
    | OutOfRange(fieldType: string, invalidValue: string)
    | CalendarOutOfRange
    | BadSettings(message: string)
    | DateOutOfRange(message: string)
    | Trap(reason: string)
}
